=== FILE: README.md ===
# moblog-cloud core, modelled in Dafny

moblog-cloud hosts blogs kept in git repositories. This project models its core in Dafny:

- the admin server: the JSON-RPC `Users` and `Blogs` services, login and logout, and the session cookie middleware;
- the in-memory user and session stores;
- the Go client of the admin server and the JSON-RPC client it uses;
- the git smart-HTTP server: the route syntax, the repository guard, pkt-line framing, the service advertisement, and posting a render job after a push;
- the Netscape cookie-file writer;
- the work queues: the in-memory one and the Redis one, including its two Lua scripts;
- the Redis distributed lock that elects the queue groomer;
- the omnibus helpers: key parsing, admin-UI path stripping, and internal URLs;
- the admin UI's `Loadable` states, its `api` layer, and its Vuex store.

Every operation is a pure function over immutable values. External effects are passed in as inputs:

- HTTP responses and the settled JavaScript promises;
- encoder outcomes, clocks, the host name, and Redis replies and call errors;
- the git subprocess results.

A Go panic or `log.Fatal` becomes a precondition or an `Err` value, as noted below.

Modules follow the source packages:

- `Wrappers`, `Strings` and `GoTime` are shared helpers. They cover `Option`/`Result`, decimal and hex text, and Go's `time.Time` as nanoseconds from the Unix epoch, where the zero `Time` is year 1.
- `HttpCookie` holds the cookie record.
- `UserStore`, `MemoryUserStore`, `SessionStore`, `AdminSession`, `AdminServer`, `IdGenerator`, `RpcClient` and `AdminClient` cover the admin server side.
- `GitServer`, `NetscapeCookies`, `WorkQueue`, `MemoryWorkQueue`, `RedisQueue`, `DistLock` and `Omnibus` cover the other Go packages.
- `Loadable`, `Api` and `Store` cover the admin UI.

Go integer widths are written out where they matter:

- the `uint64` id counters wrap;
- the `int16` pkt-line header is wrapped;
- Go's truncating integer division converts time-to-run values between nanoseconds and microseconds.

Where the written behaviour departs from the evident intent, the model keeps both versions (see "## Findings"). The rest of the model uses the corrected one.

Three behaviours the names do not suggest:

- `Users.Delete` of another user reports "You cannot update this user", because `errDeleteInvalidUser` carries that text.
- The JSON-RPC client numbers its first call "2", because `New` starts the counter at 1.
- The git route's identifier pattern requires at least two characters.

## Model

| member | source | states |
|---|---|---|
| UserStore.ValidateUser | server/pkg/userstore/userstore.go:44-54 | an empty username is reported first; an empty password is an error only when not allowed; no error exactly when both checks pass |
| UserStore.ValidateBlog | server/pkg/userstore/userstore.go:87-93 | a blog is rejected exactly when its slug is empty |
| MemoryUserStore.EmptyIsValid | server/pkg/userstore/memoryuserstore.go:18-22 | the empty store files every user under their own name |
| MemoryUserStore.CreateUser | server/pkg/userstore/memoryuserstore.go:24-39 | succeeds iff the user validates with a password and the name is free; validation errors come before AlreadyExists; a failure changes nothing; success adds the user with no blogs |
| MemoryUserStore.UpdateUser | server/pkg/userstore/memoryuserstore.go:41-59 | empty name and unknown user are errors that change nothing; otherwise that user's record is replaced (an empty password allowed), keeping the blogs, and every other user is untouched |
| MemoryUserStore.GetUser | server/pkg/userstore/memoryuserstore.go:61-73 | found iff the name is stored; the copy returned has its password blanked and the stored display name |
| MemoryUserStore.AuthenticateUser | server/pkg/userstore/memoryuserstore.go:75-86 | true iff the user exists and the password matches |
| MemoryUserStore.DeleteUser | server/pkg/userstore/memoryuserstore.go:88-98 | an unknown user is DoesNotExist; otherwise exactly that user is removed and every other record is untouched |
| MemoryUserStore.AddBlog | server/pkg/userstore/memoryuserstore.go:100-122 | slug, owner and duplicate checks in source order; success iff the slug is new for that user, and then only that blog is added |
| MemoryUserStore.UpdateBlog | server/pkg/userstore/memoryuserstore.go:124-146 | the same checks, but success iff the slug already exists, and then only that blog is replaced |
| MemoryUserStore.GetBlog | server/pkg/userstore/memoryuserstore.go:148-163 | an unknown user is an error; otherwise the blog is present iff the slug is stored, and it is the stored one |
| MemoryUserStore.ListBlogs | server/pkg/userstore/memoryuserstore.go:165-182 | an unknown user is an error; otherwise the list holds exactly the user's blogs, each once |
| MemoryUserStore.DeleteBlog | server/pkg/userstore/memoryuserstore.go:184-201 | unknown user, then unknown blog; success removes exactly that blog |
| MemoryUserStore.CreateThenGet | server/pkg/userstore/memoryuserstore.go:24-73 | a created user reads back without password, has no blogs, and cannot be created twice |
| MemoryUserStore.DeleteUserThenGet | server/pkg/userstore/memoryuserstore.go:61-98 | a deleted user is gone, cannot be deleted again, and cannot authenticate |
| MemoryUserStore.UpdatePasswordTakesEffect | server/pkg/userstore/memoryuserstore.go:41-86 | after an update the new password authenticates and the previous one does not |
| MemoryUserStore.AddThenDeleteBlog | server/pkg/userstore/memoryuserstore.go:100-201 | adding a blog and then deleting it restores the store exactly |
| MemoryUserStore.DeleteBlogTwice | server/pkg/userstore/memoryuserstore.go:148-201 | a deleted blog is gone and a second delete is BlogDoesNotExist |
| SessionStore.Set | server/pkg/sessionstore/memorysessionstore.go:19-29 | stores the session under its id, adds that key only and leaves the other sessions as they were |
| SessionStore.Get | server/pkg/sessionstore/memorysessionstore.go:31-43 | a live session is returned; an expired one is removed and reported absent; nothing else changes |
| SessionStore.Delete | server/pkg/sessionstore/memorysessionstore.go:45-52 | exactly that id is removed; deleting an absent id changes nothing |
| SessionStore.SetThenGet | server/pkg/sessionstore/memorysessionstore.go:19-43 | a session stored and still valid reads back |
| SessionStore.OverwriteThenGet | server/pkg/sessionstore/memorysessionstore.go:19-43 | the later of two sessions with the same id wins |
| SessionStore.ExpiredIsGone | server/pkg/sessionstore/memorysessionstore.go:31-43 | reading an expired session returns nothing and evicts it |
| SessionStore.DeleteThenGet | server/pkg/sessionstore/memorysessionstore.go:31-52 | deleting one id leaves the others readable and the deleted one unreadable |
| GoTime.Unix | server/pkg/netscapecookies/cookie.go:53 | `Unix` is seconds rounded toward negative infinity |
| AdminSession.EncodeAuthCookie | server/pkg/adminserver/session.go:21-34 | succeeds iff the secure encoding does; the cookie is `auth`, path `/`, HTTP-only, not secure, a session cookie carrying the encoded value |
| AdminSession.ResetAuthCookie | server/pkg/adminserver/session.go:36-44 | an empty `auth` cookie expiring at the Unix epoch, which is not Go's zero time |
| AdminSession.SessionFromRequest | server/pkg/adminserver/session.go:52-77 | no cookie or an undecodable cookie means no session; an error only when the store fails |
| AdminSession.WithSession | server/pkg/adminserver/session.go:79-100 | a store error gives 500, a missing session gives 401 only when authentication is required, otherwise the handler runs with the session in its context |
| AdminSession.MemoryStoreNever500 | server/pkg/adminserver/session.go:52-100 | with a store that cannot fail, the middleware never answers 500 |
| AdminServer.FromStep | server/pkg/adminserver/server.go:35-48 | a store step becomes an RPC reply whose error is the store's error |
| AdminServer.UsersCreate | server/pkg/adminserver/server.go:35-48 | missing parameters are rejected; otherwise the store's CreateUser decides and sessions are untouched |
| AdminServer.UsersUpdate | server/pkg/adminserver/server.go:52-75 | requires a session, parameters and the caller's own username, in that order; the caller's own update is the store's UpdateUser, whose error is passed on; sessions are untouched |
| AdminServer.UsersGet | server/pkg/adminserver/server.go:81-96 | an unknown user is "User does not exist"; a stored user is returned as stored with the password blanked, under the requested name |
| AdminServer.UsersWhoami | server/pkg/adminserver/server.go:100-108 | without a session "This method requires authentication"; with one, the session user's Get |
| AdminServer.UsersDelete | server/pkg/adminserver/server.go:116-140 | only the session's own, existing user can be deleted, in the store's terms, and the caller's session is removed with it |
| AdminServer.BlogsCreate | server/pkg/adminserver/server.go:148-167 | requires a session and parameters, then adds the blog to the session user |
| AdminServer.BlogsUpdate | server/pkg/adminserver/server.go:171-190 | requires a session and parameters, then updates the session user's blog |
| AdminServer.BlogsGet | server/pkg/adminserver/server.go:197-226 | an explicit username wins over the session; no user at all needs authentication; for the chosen owner, an unknown user is DoesNotExist, an unknown slug is "No blog with this slug", and a stored slug returns the stored blog |
| AdminServer.BlogsList | server/pkg/adminserver/server.go:232-249 | requires a session; succeeds iff the session user is stored, and then returns exactly their blogs, one per slug |
| AdminServer.BlogsDelete | server/pkg/adminserver/server.go:257-272 | requires a session, then deletes from the session user |
| AdminServer.BlogsTouchOnlyOwnUser | server/pkg/adminserver/server.go:148-272 | blog calls never change another user's record |
| AdminServer.UsersCreateThenGet | server/pkg/adminserver/server.go:35-96 | a user created through Users.Create is returned by Users.Get without the password |
| AdminServer.UsersUpdateThenLogin | server/pkg/adminserver/server.go:52-96 | a signed-in user's own update succeeds; Users.Get then returns the new record without the password, the new password logs in and a different old one is refused with 401 |
| AdminServer.BlogsCreateThenGet | server/pkg/adminserver/server.go:148-226 | a blog created through Blogs.Create is returned by Blogs.Get, for the session user and to anyone naming the owner |
| AdminServer.BlogsCreateThenList | server/pkg/adminserver/server.go:148-249 | after Blogs.Create, Blogs.List returns one more blog, the new one among them |
| AdminServer.LoginHandler | server/pkg/adminserver/server.go:325-378 | bad form 400, bad credentials 401; whenever the credentials match a new session is stored; then a cookie encoding failure is 500 with no cookie, and otherwise 200 with an HttpOnly `auth` cookie for path "/" carrying the session until it expires |
| AdminServer.LogoutHandler | server/pkg/adminserver/server.go:380-394 | answers 200, the session is removed, users are untouched and the reset cookie is set |
| AdminServer.LoginThenAuthenticatedRequest | server/pkg/adminserver/server.go:325-378 | a successful login's session admits a later authenticated request from the same user within the session lifetime |
| IdGenerator.Next | server/pkg/idgenerator/string.go:12-14 | the counter advances by one with uint64 wrap-around, and the id is its decimal text without leading zeros |
| IdGenerator.FirstIsOne | server/pkg/idgenerator/string.go:12-14 | a fresh generator issues "1" |
| IdGenerator.Issue | server/pkg/idgenerator/string.go:12-14 | k calls issue k decimal ids, the i-th denoting the counter plus i + 1 modulo 2^64 |
| IdGenerator.IssueIncreasing | server/pkg/idgenerator/string.go:12-14 | before wrap-around the ids are consecutive and pairwise distinct |
| RpcClient.New | server/pkg/rpcclient/client.go:20-22 | a new client's counter starts at 1 |
| RpcClient.CheckReply | server/pkg/rpcclient/client.go:42-84 | transport failure, non-200 status, undecodable body, foreign id, error string and missing result are each refused; success iff none applies, and then the result is returned |
| RpcClient.Call | server/pkg/rpcclient/client.go:24-84 | the call id is the next counter value in decimal, the params are wrapped in a one-element list, and the reply is checked against that id |
| RpcClient.FirstCallId | server/pkg/rpcclient/client.go:20-25 | a new client's first call carries id "2" |
| RpcClient.ForeignReplyRefused | server/pkg/rpcclient/client.go:24-84 | a reply whose id is not the call's is an error |
| AdminClient.NewClient | server/pkg/adminserver/client.go:31-54 | a new client has no cached auth cookie |
| AdminClient.AuthCookie | server/pkg/adminserver/client.go:56-64 | absent iff the cached cookie has no name |
| AdminClient.SetCachedAuthCookie | server/pkg/adminserver/client.go:66-97 | fails iff the URL is bad or a port-bearing host cannot be split; otherwise caches the cookie with the URL's host and path filled in when missing |
| AdminClient.SetAuthCookie | server/pkg/adminserver/client.go:103-128 | refuses a cookie with another name; then an unparsable URL is "Error while parsing server url"; no cookie clears the cache; an `auth` cookie is accepted iff it can be cached, and is then cached as SetCachedAuthCookie caches it, else the caching error is wrapped |
| AdminClient.InstallThenClear | server/pkg/adminserver/client.go:66-128 | on a parsed URL an `auth` cookie installs iff its domain resolves; it is then the client's auth cookie, and clearing removes it |
| AdminClient.CacheAuthCookies | server/pkg/adminserver/client.go:149-155 | only `auth` cookies are cached; the URL is kept |
| AdminClient.Login | server/pkg/adminserver/client.go:130-162 | posts the credentials; a send failure is an error; a non-200 reply clears the cache and fails; a 200 caches the returned auth cookie |
| AdminClient.RefreshSession | server/pkg/adminserver/client.go:164-166 | a login with empty credentials |
| AdminClient.LogoutAsWritten | server/pkg/adminserver/client.go:168-184 | as written: a non-200 reply returns no error and keeps the cookie |
| AdminClient.LogoutRefusalReportsSuccess | server/pkg/adminserver/client.go:177-179 | a refused logout reports success while the client stays signed in |
| AdminClient.Logout | server/pkg/adminserver/client.go:168-184 | corrected: success iff the reply is 200, which clears the cached cookie; a failure leaves the client as it was |
| AdminClient.LogoutAgreesOn200 | server/pkg/adminserver/client.go:168-184 | the two versions agree except on non-200 replies |
| AdminClient.LoginThenLogout | server/pkg/adminserver/client.go:130-184 | after a successful login the client holds a cookie, and after a successful logout it does not |
| GitServer.ValidIdShape | server/pkg/gitserver/server.go:33 | an identifier has at least two characters, starts with a letter and contains no slash |
| GitServer.ValidIdExamples | server/pkg/gitserver/server.go:33 | "my-blog.git" matches; "a" and "1blog" do not |
| GitServer.RemoveGitRepositorySuffix | server/pkg/gitserver/server.go:212-220 | one trailing ".git" is removed; other names are unchanged |
| GitServer.RemoveSuffixRoundTrip | server/pkg/gitserver/server.go:212-220 | appending ".git" and removing it gives the name back, and only one suffix is removed |
| GitServer.BlogExists | server/pkg/gitserver/server.go:177-185 | true iff the blog is in the list |
| GitServer.UserSessionFromRequest | server/pkg/gitserver/server.go:48-96 | no cookie means no session; a session is resolved iff the cookie installs on the admin client and Whoami and ListBlogs both succeed, and it carries the Whoami user and the slugs of the listed blogs in order |
| GitServer.InstallsIff | server/pkg/gitserver/server.go:67-75 | the request's cookie installs on the admin client iff it is named `auth`, the admin URL parses and the cookie's domain resolves |
| GitServer.OwnerReachesOwnRepository | server/pkg/gitserver/server.go:48-210 | with an `auth` cookie whose domain resolves against the admin URL, a resolved session passes the access check for its own user's `slug.git` of a listed blog, and gets 401 on another user's URL |
| GitServer.WithValidRepository | server/pkg/gitserver/server.go:187-210 | 500 iff the session lookup failed; 401 iff there is no session or it is another user's; 404 iff the blog is not the user's; passes otherwise |
| GitServer.Int16 | server/pkg/gitserver/server.go:231 | the `int16` conversion: a value in range congruent modulo 65536 |
| GitServer.PacketHeaderWraps | server/pkg/gitserver/server.go:226-234 | as written, a 32764-byte payload gets the header "-8000", which does not read back as a packet |
| GitServer.WriteGitPacket | server/pkg/gitserver/server.go:226-234 | corrected: four hex digits giving the total length, then the payload |
| GitServer.WritersAgreeOnShortPackets | server/pkg/gitserver/server.go:226-234 | the two writers agree while the length fits in `int16` |
| GitServer.PacketRoundTrip | server/pkg/gitserver/server.go:226-234 | a written packet reads back as its payload, leaving the rest of the stream |
| GitServer.InfoRefs | server/pkg/gitserver/server.go:285-312 | only git-upload-pack and git-receive-pack are advertised, with their content type; the body starts with the "# service=" pkt-line and a flush |
| GitServer.ClientAccepts | server/pkg/gitserver/server.go:314-322 | true iff the format is among the Accept values |
| GitServer.ServeGitService | server/pkg/gitserver/server.go:324-368 | 400 iff the content type or Accept is wrong; 200 iff the formats are right, git ran and, for a push, the repository was ensured; a push answered 200 posts a render job for the user and the repository without ".git" with a 10-minute time-to-run, and nothing else posts one |
| GitServer.PushPostsRenderJob | server/pkg/gitserver/server.go:324-376 | a well-formed push to `slug.git` answers 200 and posts the render job for `slug`; a fetch posts nothing |
| NetscapeCookies.BoolStr | server/pkg/netscapecookies/cookie.go:11-17 | the flag text is tab-free |
| NetscapeCookies.ParseBool | server/pkg/netscapecookies/cookie.go:11-17 | reads exactly "TRUE" and "FALSE" |
| NetscapeCookies.BoolRoundTrip | server/pkg/netscapecookies/cookie.go:11-17 | flag text and its reading are inverse |
| NetscapeCookies.Split | server/pkg/netscapecookies/cookie.go:47-55 | splitting yields at least one field |
| NetscapeCookies.SplitField | server/pkg/netscapecookies/cookie.go:47-55 | a tab-free field followed by a tab splits off first |
| NetscapeCookies.SplitFree | server/pkg/netscapecookies/cookie.go:47-55 | a tab-free text is a single field |
| NetscapeCookies.SplitJoin | server/pkg/netscapecookies/cookie.go:47-55 | tab-joined tab-free fields split back into the same fields |
| NetscapeCookies.WrittenPath | server/pkg/netscapecookies/cookie.go:41-45 | the written path is never empty and is the cookie's own when it has one |
| NetscapeCookies.WriteCookie | server/pkg/netscapecookies/cookie.go:24-58 | errors in order: no domain, no expiry, no name, no value; a line is written iff all four are present, and it ends in a newline |
| NetscapeCookies.WriteThenParse | server/pkg/netscapecookies/cookie.go:24-58 | the written line reads back as domain, FALSE, path, secure flag, Unix expiry, name and value |
| MemoryWorkQueue.New | server/pkg/workqueue/memoryworkqueue.go:25-40 | a new queue is empty and well formed |
| MemoryWorkQueue.Post | server/pkg/workqueue/memoryworkqueue.go:61-74 | the id generator always advances; the queue is full iff 1000 jobs are pending, and then nothing is queued; otherwise the job is appended with the new id; filing and capacity are kept |
| MemoryWorkQueue.Pick | server/pkg/workqueue/memoryworkqueue.go:76-93 | nothing iff no job is pending; otherwise the oldest job is taken and reserved at the given time |
| MemoryWorkQueue.Finish | server/pkg/workqueue/memoryworkqueue.go:95-101 | drops exactly that reservation and nothing else |
| MemoryWorkQueue.FinishIdempotent | server/pkg/workqueue/memoryworkqueue.go:95-101 | finishing twice is finishing once |
| MemoryWorkQueue.Groom | server/pkg/workqueue/memoryworkqueue.go:46-59 | in some map order, every expired reservation is dropped and its job requeued once, and every live one is kept; filing is kept, and capacity too whenever the requeued jobs fit |
| MemoryWorkQueue.GroomKeepsFiling | server/pkg/workqueue/memoryworkqueue.go:46-59 | grooming keeps reservations filed under their ids and requeues only expired jobs |
| MemoryWorkQueue.GroomCountsExpired | server/pkg/workqueue/memoryworkqueue.go:46-59 | a groom requeues as many jobs as there are expired reservations |
| MemoryWorkQueue.FinishedNotRequeued | server/pkg/workqueue/memoryworkqueue.go:46-59 | a finished job is never put back by a later groom |
| MemoryWorkQueue.FreshReservationSurvives | server/pkg/workqueue/memoryworkqueue.go:53 | a reservation within its time-to-run survives grooming |
| MemoryWorkQueue.PostThenPick | server/pkg/workqueue/memoryworkqueue.go:61-93 | a job posted to an empty queue is picked with its data and time-to-run |
| MemoryWorkQueue.PostOrderIsPickOrder | server/pkg/workqueue/memoryworkqueue.go:61-93 | jobs are picked in the order they were posted |
| MemoryWorkQueue.GroomThenPost | server/pkg/workqueue/memoryworkqueue.go:46-74 | after a groom that finds room a post is accepted, behind the requeued jobs |
| RedisQueue.TtrRoundTrip | server/pkg/workqueue/redis.go:105-124 | the microsecond round trip keeps a time-to-run iff it is a whole number of microseconds, and otherwise truncates it toward zero by less than a microsecond |
| RedisQueue.EncodeEntry | server/pkg/workqueue/redis.go:98-112 | a new entry has no start time |
| RedisQueue.DecodeEntry | server/pkg/workqueue/redis.go:114-131 | decodes iff the slot holds an entry, keeping its id and data |
| RedisQueue.EntryRoundTrip | server/pkg/workqueue/redis.go:98-131 | an encoded entry decodes to the same job |
| RedisQueue.Post | server/pkg/workqueue/redis.go:133-142 | the id advances either way; an encoding failure or a failed `LPUSH` changes nothing and is reported; otherwise the entry is pushed at the left of the pending list |
| RedisQueue.PickTimeout | server/pkg/workqueue/redis.go:145-148 | the wait is at least one second and is kept when it already is |
| RedisQueue.Pick | server/pkg/workqueue/redis.go:144-161 | a `BRPOPLPUSH` error moves nothing and is reported; an empty pending list gives nothing; otherwise its rightmost slot moves to the left of the reserved list and is decoded |
| RedisQueue.PickIsFifo | server/pkg/workqueue/redis.go:133-161 | two jobs posted to an empty queue are picked in posting order |
| RedisQueue.RemoveFirst | server/pkg/workqueue/redis.go:177 | `lrem` with count 1 drops one marker when there is one, and nothing otherwise |
| RedisQueue.RemoveAll | server/pkg/workqueue/redis.go:215 | `lrem` with count 0 leaves no marker |
| RedisQueue.FinishMark | server/pkg/workqueue/redis.go:166-175 | the marking loop fails iff a marker is in the list; otherwise it marks exactly the slots with the id |
| RedisQueue.FinishScript | server/pkg/workqueue/redis.go:163-178 | the script fails iff the reserved list holds a marker |
| RedisQueue.Finish | server/pkg/workqueue/redis.go:180-186 | pending is untouched; a failed `EVALSHA` changes nothing and is reported; otherwise the reserved list is the script's result, and an error iff the script fails |
| RedisQueue.FinishUnknownIsNoOp | server/pkg/workqueue/redis.go:163-178 | finishing an id that is not reserved changes nothing |
| RedisQueue.FinishRemovesSole | server/pkg/workqueue/redis.go:163-178 | finishing the only entry with an id removes exactly it |
| RedisQueue.RemoveFirstAt | server/pkg/workqueue/redis.go:177 | the first marker is the one removed |
| RedisQueue.FinishDuplicateLeavesMarker | server/pkg/workqueue/redis.go:169-177 | two entries with the same id leave a "finished" marker, which makes the next finish fail |
| RedisQueue.GroomMark | server/pkg/workqueue/redis.go:197-213 | the loop keeps the list length and fails iff a marker is present |
| RedisQueue.GroomScript | server/pkg/workqueue/redis.go:192-216 | the script fails iff the reserved list holds a marker |
| RedisQueue.GroomMatchesReference | server/pkg/workqueue/redis.go:192-216 | without markers, reserved keeps exactly the unexpired (now stamped) entries, and the expired ones go to the left of pending, unstamped, last one first |
| RedisQueue.GroomMarkReference | server/pkg/workqueue/redis.go:200-215 | the marking loop pushes exactly the expired entries, and removing the markers leaves exactly the kept ones |
| RedisQueue.FirstGroomOnlyStamps | server/pkg/workqueue/redis.go:203-206 | the first groom of a new reservation only records its start time |
| RedisQueue.Groom | server/pkg/workqueue/redis.go:218-226 | only the lock master runs the script, and a failed `EVALSHA` changes nothing |
| DistLock.New | server/pkg/distlock/distlock.go:84-132 | an empty name, then a hostname failure, then a failure to load the acquire or the release script are refused with their messages, and nothing else is; the id is the host name and the UUID; zero intervals become the defaults of 5 s and 25 s; a new lock is not master |
| DistLock.Holder | server/pkg/distlock/distlock.go:53 | the lock key names a holder iff it is set and not expired |
| DistLock.Acquire | server/pkg/distlock/distlock.go:49-69 | a free key is taken with the expiry, the holder's lease is renewed, and another holder's key is left alone; a non-positive delay fails the SET and deletes the key on PEXPIRE |
| DistLock.Release | server/pkg/distlock/distlock.go:71-82 | deletes the key iff the caller holds it |
| DistLock.MutualExclusion | server/pkg/distlock/distlock.go:49-69 | while a lease is live no other node acquires the lock |
| DistLock.ReleaseHandsOver | server/pkg/distlock/distlock.go:49-82 | after the holder releases, another node acquires |
| DistLock.ReleaseByOtherIsNoOp | server/pkg/distlock/distlock.go:71-82 | a release by a non-holder changes nothing |
| DistLock.Tick | server/pkg/distlock/distlock.go:162-180 | an error changes nothing; otherwise master iff the reply is 1, and a change is offered to the channel only when it is open and its one slot is free |
| DistLock.TickAt | server/pkg/distlock/distlock.go:162-180 | with a positive expiry the node is master afterwards iff the key was free or its own, iff it then holds the key, with the lease renewed to the full expiry; a node that is not master leaves the keys alone |
| DistLock.Receive | server/pkg/distlock/distlock.go:158-160 | a receive takes the pending notification first, then reports a closed channel as closed, and otherwise waits |
| DistLock.Stop | server/pkg/distlock/distlock.go:134-148 | afterwards the node is not master and the channel is closed but keeps its pending notification; a successful release leaves the key not held by the node, and a failed one leaves the keys as they were |
| DistLock.StopDrainsThenCloses | server/pkg/distlock/distlock.go:134-180 | a notification pending at Stop is still delivered, then the channel reads as closed, and later ticks offer nothing |
| DistLock.FirstTickElects | server/pkg/distlock/distlock.go:84-132 | on a free key a new lock's first tick makes it master and signals true |
| DistLock.TwoNodesOneMaster | server/pkg/distlock/distlock.go:162-180 | two nodes ticking within one lease are never both master |
| Omnibus.HexDecode | server/cmd/omnibus/main.go:40-44 | decodes iff the text is even-length hex; a bad byte is reported before an odd length |
| Omnibus.HexEncode | server/cmd/omnibus/main.go:40 | two hex digits per byte |
| Omnibus.HexDecodeEncode | server/cmd/omnibus/main.go:40 | decoding the hex text of bytes gives the bytes |
| Omnibus.ParseKeyAsWritten | server/cmd/omnibus/main.go:35-51 | as written: an empty key, bad hex and a wrong decoded length are errors; the decoding error carries hex.DecodeString's message |
| Omnibus.ParseKeyReportsHexLength | server/cmd/omnibus/main.go:46-48 | the length error reports twice the byte count, so it differs from the corrected message |
| Omnibus.ParseKey | server/cmd/omnibus/main.go:35-51 | corrected: the same acceptance and decoding message, with the decoded byte count in the length message |
| Omnibus.ParseKeyVersionsAgree | server/cmd/omnibus/main.go:35-51 | the two versions accept the same keys with the same result |
| Omnibus.CodePointText | server/cmd/omnibus/main.go:43 | Go's `%#U` of the offending character: "U+" and its code point, quoted when printable |
| Omnibus.HexErrorText | server/cmd/omnibus/main.go:43 | the two texts of hex.DecodeString's errors: odd length, or the invalid byte's code point |
| Omnibus.CodePointOfZ | server/cmd/omnibus/main.go:43 | 'z' renders as "U+007A 'z'" |
| Omnibus.InvalidByteExample | server/cmd/omnibus/main.go:41-45 | the key "zz" is refused naming the invalid byte 'z' |
| Omnibus.OddLengthExample | server/cmd/omnibus/main.go:41-45 | the key "a" is refused for its odd length |
| Omnibus.ParseEncodedKey | server/cmd/omnibus/main.go:35-51 | the hex text of n bytes parses as an n-byte key |
| Omnibus.TrimLeadingSlashes | server/cmd/omnibus/main.go:169-171 | the result is a suffix that does not start with a slash |
| Omnibus.Slashes | server/cmd/omnibus/main.go:169 | n slashes |
| Omnibus.TrimmedAreSlashes | server/cmd/omnibus/main.go:169-171 | only slashes are removed |
| Omnibus.TrimLeadingSlashesIdempotent | server/cmd/omnibus/main.go:169-171 | trimming twice is trimming once |
| Omnibus.TrimLeadingSlashesAbsorbs | server/cmd/omnibus/main.go:169-171 | extra leading slashes make no difference |
| Omnibus.StripAdminPrefix | server/cmd/omnibus/main.go:166-174 | drops the five-character prefix and every leading slash after it |
| Omnibus.ReachableHost | server/cmd/omnibus/main.go:112-114 | 0.0.0.0 becomes 127.0.0.1; any other host is kept |
| Omnibus.InternalUrlsFor | server/cmd/omnibus/main.go:106-117 | an unsplittable address is fatal; otherwise the admin and git URLs use the reachable host and the port |
| Omnibus.WildcardBecomesLoopback | server/cmd/omnibus/main.go:106-117 | listening on 0.0.0.0 gives loopback URLs |
| Loadable.MakeUninitialized | admin-ui/src/loadable.ts:26 | the state is Uninitialized, with neither data nor error |
| Loadable.MakeLoading | admin-ui/src/loadable.ts:28 | the state is Loading, with neither data nor error |
| Loadable.MakeLoaded | admin-ui/src/loadable.ts:30-32 | the state is Loaded and carries the data |
| Loadable.MakeError | admin-ui/src/loadable.ts:34-36 | the state is Error and carries the message |
| Loadable.Classification | admin-ui/src/loadable.ts:1-38 | data iff Loaded, error iff Error, and each value is the one its constructor builds |
| Api.Login | admin-ui/src/api.ts:7-27 | 401 resolves false; any 2xx resolves true and nothing else does; other statuses reject with a string, network errors with an exception |
| Api.Logout | admin-ui/src/api.ts:29-38 | resolves iff the status is 2xx; other statuses reject with a string, network errors with an exception |
| Api.CallId | admin-ui/src/api.ts:40-47 | the counter advances by one and the id is its decimal text |
| Api.CallIds | admin-ui/src/api.ts:40-47 | k calls give k ids, the i-th the decimal of the counter plus i + 1 |
| Api.CallIdsIncrease | admin-ui/src/api.ts:40-47 | the ids of a page are pairwise distinct |
| Api.FirstCallIdIsOne | admin-ui/src/api.ts:40-47 | the first id is "1" |
| Api.MakeEnvelope | admin-ui/src/api.ts:69-75 | absent params become an empty list, present ones a one-element list |
| Api.EnvelopeRoundTrip | admin-ui/src/api.ts:69-75 | the request can be read back from its envelope |
| Api.Classify | admin-ui/src/api.ts:84-96 | a non-200 status rejects with a string; a body that is not JSON and a network failure reject with an exception; a truthy error rejects with the method name; resolves iff none applies, with the result |
| Api.Call | admin-ui/src/api.ts:68-97 | advances the counter by one and sends the request under its new value; resolves to the result exactly when the reply succeeds, and a string rejection names the status or the method |
| Api.SuccessiveCallsDiffer | admin-ui/src/api.ts:40-97 | two calls in turn use different ids, the second numbered one past the first |
| Api.WrapperEnvelopes | admin-ui/src/api.ts:99-109 | each wrapper sends its method with the expected params |
| Store.ApplySetUser | admin-ui/src/store.ts:135-142 | stores the user; the blog list survives iff it was already uninitialized or the new user is loaded and the previous user was not a different loaded user |
| Store.ApplySetBlogs | admin-ui/src/store.ts:144-146 | replaces the blog list and leaves the user |
| Store.CommitAllAppend | admin-ui/src/store.ts:133-147 | committing a + b is committing a, then b |
| Store.CommitTwo | admin-ui/src/store.ts:133-147 | committing two mutations applies them in order |
| Store.BlogsFollowTheUser | admin-ui/src/store.ts:135-142 | a different user drops the blog list, and setting the same user again changes nothing |
| Store.SortedTail | admin-ui/src/store.ts:96-102 | the tail of a sorted list is sorted |
| Store.Insert | admin-ui/src/store.ts:96-102 | insertion keeps the list sorted and adds exactly the new blog |
| Store.InsertStep | admin-ui/src/store.ts:96-102 | inserting after the head keeps the list sorted and a permutation |
| Store.SortBlogList | admin-ui/src/store.ts:96-102 | a sorted permutation by lower-cased display name, or by slug when the name is empty |
| Store.SortedPairwise | admin-ui/src/store.ts:96-102 | every pair of a sorted list is in order |
| Store.SortKeepsSorted | admin-ui/src/store.ts:96-102 | sorting a sorted list leaves it unchanged, so sorting is idempotent |
| Store.WithoutSlug | admin-ui/src/store.ts:226-235 | keeps exactly the blogs with another slug |
| Store.EditEffects | admin-ui/src/store.ts:214-239 | create appends exactly the new blog; update leaves the blog last and no other entry with its slug; delete keeps exactly the other slugs |
| Store.EditBlogsHelper | admin-ui/src/store.ts:104-125 | without a loaded list it rejects and commits nothing; otherwise it commits loading, then the sorted edited snapshot on success or the snapshot on failure |
| Store.EditSettlesFromSnapshot | admin-ui/src/store.ts:104-125 | whatever is committed while the request is in flight, the list ends as computed from the snapshot |
| Store.FailedEditRestores | admin-ui/src/store.ts:121-124 | a failed edit restores the exact state it started from |
| Store.CreateThenDelete | admin-ui/src/store.ts:214-239 | creating a blog with a fresh slug and deleting it leaves the same blogs |
| Store.WithoutFresh | admin-ui/src/store.ts:235 | dropping a fresh slug undoes appending its blog |
| Store.WithoutSlugMultiset | admin-ui/src/store.ts:235 | filtering by slug commutes with reordering |
| Store.WithoutSlugCount | admin-ui/src/store.ts:235 | filtering keeps each blog's count unless the blog has the slug |
| Store.WhoamiFailure | admin-ui/src/store.ts:194-200 | an error mentioning required authentication means signed out; any other error is kept |
| Store.CheckLogin | admin-ui/src/store.ts:189-202 | commits loading, then the user or the classification of a string rejection, and resolves; an exception rejection makes `indexOf` throw, so only loading is committed and the promise rejects |
| Store.Login | admin-ui/src/store.ts:165-177 | commits loading; bad credentials and failures become errors and resolve; success continues with checkLogin and returns its promise, which rejects only for an exception from Whoami |
| Store.Register | admin-ui/src/store.ts:151-163 | commits loading; success continues with login and returns its promise; failure becomes an error and resolves |
| Store.Logout | admin-ui/src/store.ts:179-187 | always resolves; success commits signed out, failure an error |
| Store.LoadBlogs | admin-ui/src/store.ts:204-212 | always resolves; commits loading, then the list, with null read as empty, or the error |
| Store.SignInForgetsBlogs | admin-ui/src/store.ts:165-177 | a sign-in that loads no user leaves no blog list, and bad credentials show their message |
| Store.WhoamiWithoutSession | admin-ui/src/store.ts:189-202 | the admin server's "requires authentication" refusal, as the UI sees it, leaves the UI signed out rather than in error |
| Store.ThrownWhoamiLeavesLoading | admin-ui/src/store.ts:151-202 | an exception from Whoami leaves the user loading through checkLogin, login and register, and register's promise rejects |
| Store.RegisterSignsIn | admin-ui/src/store.ts:151-202 | an accepted registration that logs in ends signed in as that user with no blog list; a refused one shows its reason |
| Store.LogoutSignsOut | admin-ui/src/store.ts:135-187 | a successful logout leaves the initial state; a failed one shows its reason with no blog list |
| Store.LoadBlogsSettles | admin-ui/src/store.ts:144-212 | loading the blogs leaves the user; null becomes the empty list, a list is kept, a failure shows its reason |
| Store.CreateBlogAction | admin-ui/src/store.ts:214-221 | sends Blogs.Create |
| Store.EditBlogAction | admin-ui/src/store.ts:223-230 | sends Blogs.Update |
| Store.DeleteBlogAction | admin-ui/src/store.ts:232-239 | sends Blogs.Delete with the slug |

## Left out

- Password hashing and salting are not modelled. A user record stores the password, and comparing hashes is modelled as comparing passwords.
- The SQL user store is not part of this model. Only the in-memory store is modelled. The SQL store's `UpdateUser` differs in how it treats an empty password.
- The Redis session store and the duplicate session-store interface file are not part of this model. Only the in-memory session store is modelled.
- securecookie signing and encryption, UUID generation and the HTTP cookie jar are not modelled. Their results are inputs.
- gob and JSON encoding are not modelled. An entry is stored as a structured value, and encoder failures are an input. cjson number formatting is ignored.
- Mutexes, atomics, goroutines and tickers are not modelled. Each operation is atomic, and a tick is an explicit call.
- MemoryWorkQueue.Groom: when the channel is full, groom blocks until a worker makes room; the model does not wait and lets pending grow past 1000, so it promises the capacity only when the requeued jobs fit.
- Pick's timeout wait is not modelled: Pick returns immediately.
- Running git subprocesses, repository creation and streaming of request and response bodies are not modelled. Their outcomes are inputs.
- GitServer.ServeGitService: a failure after streaming has begun is modelled as status 500, although the HTTP header has already gone out as 200.
- The render worker, the job runner and the HTML rendering are not part of this model.
- The render job's auth cookie is left empty, as the source leaves it.
- Store.SortBlogList: `localeCompare` is approximated by code-point order on ASCII-lower-cased keys.
- Api.Classify: an `error` field other than null or a string is not modelled.
- Store.Login, Store.Register, Store.Logout, Store.LoadBlogs: an exception object that these actions store as an error state is represented by its description text.
- GitServer.WriteGitPacket, Omnibus.ParseKey: strings are sequences of characters, so lengths count characters where Go counts UTF-8 bytes; the model matches Go only for ASCII payloads and keys, and the code point in a hex error assumes the offending byte is ASCII.
- GitServer.WriteGitPacket, NetscapeCookies.WriteCookie: the error returned by the underlying `Fprintf` write is not modelled; the output is a string.
- The admin UI's artificial 500 ms response delay is not modelled. It changes timing only.
- Store.CreateBlogAction, Store.EditBlogAction, Store.DeleteBlogAction: these only state which request is sent; what they commit is stated by Store.EditBlogsHelper.
- `log.Fatal` and Go panics are not modelled as process exit. The empty session id, the packet limit of 65531 bytes and the path shorter than the prefix become preconditions. parseKey's fatal errors become `Err` values.
- The omnibus and server `main` wiring, flags and routers are not modelled. Only the helpers and the URL derivation are.
- The gorilla/rpc JSON codec is not part of this model. Store.WhoamiWithoutSession assumes it replies with status 200 and the error message as a string.

## Findings

| source | as written | input that shows it | evidently intended | confidence | as-written member | corrected member |
|---|---|---|---|---|---|---|
| server/pkg/gitserver/server.go:231 | the pkt-line length is converted with `int16`, so lengths from 32768 to 65535 wrap negative and print as "-8000" and so on | a payload of 32764 bytes (length 32768) | four hex digits of the unsigned length, as pkt-line requires for lengths up to 65535 | not executed | GitServer.PacketHeaderWraps | GitServer.WriteGitPacket |
| server/pkg/adminserver/client.go:177-179 | a non-200 logout reply returns `errors.Wrapf(err, …)` where `err` is nil, which is nil, so the failure is reported as success and the cookie is kept | a logout answered with status 500 | return an error for a non-200 reply | not executed | AdminClient.LogoutRefusalReportsSuccess | AdminClient.Logout |
| server/cmd/omnibus/main.go:47 | the length error prints `len(key)`, the hex text's length, as the number of bytes got | a 2-byte key "abcd" where 32 bytes are expected reports "got 4" | report the decoded byte count `len(decoded)` | not executed | Omnibus.ParseKeyReportsHexLength | Omnibus.ParseKey |

=== FILE: adminclient.dfy ===
/** The Go client of the admin server: its cached copy of the `auth` cookie
    and the login, logout and refresh calls that maintain it. URL parsing and
    `net.SplitHostPort` are opaque: their results are part of the client's
    state. The HTTP cookie jar the client also feeds is not modelled. */
module AdminClient {

  import opened Wrappers
  import opened Strings
  import opened HttpCookie
  import AdminSession

  /** The parsed client URL: its host (possibly with a port), its path, and
      the host part `net.SplitHostPort` yields for that host (None when it
      reports an error). */
  datatype Url = Url(host: string, path: string, splitHost: Option<string>)

  /** `url` is None when the client URL does not parse. `cached` is the cached
      cookie; an empty name means "none". */
  datatype Client = Client(url: Option<Url>, cached: Cookie)

  /** A fresh client has nothing cached. */
  function NewClient(url: Option<Url>): (c: Client)
    ensures c.url == url && AuthCookie(c).None?
  {
    Client(url, EmptyCookie)
  }

  /** The cached cookie, or nothing when its name is empty. */
  function AuthCookie(c: Client): (r: Option<Cookie>)
    ensures r.None? <==> c.cached.name == ""
    ensures r.Some? ==> r.value == c.cached
  {
    if c.cached.name == "" then None else Some(c.cached)
  }

  /** A client's effect: its new state and the error it reports, if any. */
  datatype Outcome = Outcome(client: Client, err: Option<string>)

  /** Caches a copy of `cookie`, defaulting an empty domain to the client
      URL's host without its port and an empty path to the URL's path. */
  function SetCachedAuthCookie(c: Client, cookie: Cookie): (r: Outcome)
    ensures c.url.None? ==> r == Outcome(c, Some("Error while parsing client URL"))
    ensures r.err.None? ==>
      && c.url.Some?
      && r.client.url == c.url
      && r.client.cached == cookie.(domain := r.client.cached.domain, path := r.client.cached.path)
      && (cookie.domain != "" ==> r.client.cached.domain == cookie.domain)
      && (cookie.domain == "" && !Contains(c.url.value.host, ":") ==> r.client.cached.domain == c.url.value.host)
      && (cookie.domain == "" && Contains(c.url.value.host, ":") ==> Some(r.client.cached.domain) == c.url.value.splitHost)
      && (cookie.path != "" ==> r.client.cached.path == cookie.path)
      && (cookie.path == "" ==> r.client.cached.path == c.url.value.path)
    ensures r.err.Some? ==> r.client == c
    ensures r.err.Some? <==> c.url.None? || (cookie.domain == "" && Contains(c.url.value.host, ":") && c.url.value.splitHost.None?)
  {
    match c.url
    case None => Outcome(c, Some("Error while parsing client URL"))
    case Some(u) =>
      var domain :=
        if cookie.domain != "" then Ok(cookie.domain)
        else if IndexOf(u.host, ":", 0) != -1 then
          (match u.splitHost
           case None => Err("Error while parsing URL host")
           case Some(h) => Ok(h))
        else Ok(u.host);
      IndexOfFindsOccurrence(u.host, ":");
      match domain
      case Err(e) => Outcome(c, Some(e))
      case Ok(d) =>
        var path := if cookie.path == "" then u.path else cookie.path;
        Outcome(c.(cached := cookie.(domain := d, path := path)), None)
  }

  /** Installs an auth cookie, or with None clears the cache. A cookie with
      another name is refused and changes nothing. */
  function SetAuthCookie(c: Client, cookie: Option<Cookie>): (r: Outcome)
    ensures cookie.Some? && cookie.value.name != AdminSession.AuthCookieName ==>
      r == Outcome(c, Some("Invalid cookie name"))
    ensures cookie.None? && c.url.Some? ==> r.err.None? && AuthCookie(r.client).None?
    ensures cookie.Some? && cookie.value.name == AdminSession.AuthCookieName && r.err.None? ==>
      AuthCookie(r.client).Some? && AuthCookie(r.client).value.value == cookie.value.value
    ensures cookie.Some? && cookie.value.name == AdminSession.AuthCookieName ==>
      && (r.err.None? <==> c.url.Some? && SetCachedAuthCookie(c, cookie.value).err.None?)
      && (r.err.None? ==> r == SetCachedAuthCookie(c, cookie.value))
    ensures (cookie.None? || cookie.value.name == AdminSession.AuthCookieName) && c.url.None? ==>
      r == Outcome(c, Some("Error while parsing server url"))
    ensures (cookie.Some? && cookie.value.name == AdminSession.AuthCookieName && c.url.Some?
             && SetCachedAuthCookie(c, cookie.value).err.Some?) ==>
      r.err == Some("Error while caching auth cookie: " + SetCachedAuthCookie(c, cookie.value).err.value)
    ensures r.err.Some? ==> r.client == c
  {
    if cookie.Some? && cookie.value.name != AdminSession.AuthCookieName then Outcome(c, Some("Invalid cookie name"))
    else if c.url.None? then Outcome(c, Some("Error while parsing server url"))
    else match cookie
      case None => Outcome(c.(cached := EmptyCookie), None)
      case Some(k) =>
        var cached := SetCachedAuthCookie(c, k);
        if cached.err.Some? then Outcome(c, Some("Error while caching auth cookie: " + cached.err.value)) else cached
  }

  /** Whether the cached copy of `cookie` can take its domain from the
      client URL `u`: the cookie has one, or the host has no port, or the
      port splits off. */
  predicate DomainResolves(u: Url, cookie: Cookie)
  {
    cookie.domain != "" || !Contains(u.host, ":") || u.splitHost.Some?
  }

  /** An `auth` cookie is installed on a client whose URL parses exactly when
      its domain resolves; it is then the client's auth cookie, and clearing
      the cookie afterwards leaves none. */
  lemma InstallThenClear(u: Url, cookie: Cookie)
    requires cookie.name == AdminSession.AuthCookieName
    ensures var r := SetAuthCookie(NewClient(Some(u)), Some(cookie));
      && (r.err.None? <==> DomainResolves(u, cookie))
      && (r.err.None? ==>
            AuthCookie(r.client).Some? && AuthCookie(r.client).value.name == cookie.name
            && AuthCookie(r.client).value.value == cookie.value)
      && (r.err.None? ==> AuthCookie(SetAuthCookie(r.client, None).client).None?)
  {
  }

  /** The answer to a login or logout POST. */
  datatype Response = SendFailed(reason: string) | Response(status: int, cookies: seq<Cookie>)

  /** Caches, in order, every cookie named `auth`; stops at the first that
      cannot be cached. */
  function CacheAuthCookies(c: Client, cookies: seq<Cookie>): (r: Outcome)
    ensures r.client.url == c.url
    ensures (forall i :: 0 <= i < |cookies| ==> cookies[i].name != AdminSession.AuthCookieName) ==> r == Outcome(c, None)
    ensures r.err.None? && c.url.Some? ==>
      forall i :: 0 <= i < |cookies| && cookies[i].name == AdminSession.AuthCookieName ==>
        (forall j :: i < j < |cookies| ==> cookies[j].name != AdminSession.AuthCookieName) ==>
          r.client.cached.value == cookies[i].value && r.client.cached.name == AdminSession.AuthCookieName
    decreases |cookies|
  {
    if |cookies| == 0 then Outcome(c, None)
    else if cookies[0].name != AdminSession.AuthCookieName then CacheAuthCookies(c, cookies[1..])
    else
      var cached := SetCachedAuthCookie(c, cookies[0]);
      if cached.err.Some? then Outcome(c, Some("Error while caching auth cookie: " + cached.err.value))
      else CacheAuthCookies(cached.client, cookies[1..])
  }

  /** The login form a call sends. */
  datatype LoginRequest = LoginRequest(username: string, password: string)

  datatype LoginOutcome = LoginOutcome(request: LoginRequest, outcome: Outcome)

  /** Posts the credentials; any status but 200 clears the cache and is an
      error, a 200 caches the `auth` cookies of the response. */
  function Login(c: Client, username: string, password: string, response: Response): (r: LoginOutcome)
    ensures r.request == LoginRequest(username, password)
    ensures response.SendFailed? ==> r.outcome.client == c && r.outcome.err.Some?
    ensures response.Response? && response.status != 200 ==>
      r.outcome.err.Some? && AuthCookie(r.outcome.client).None?
    ensures response.Response? && response.status == 200 ==>
      r.outcome == CacheAuthCookies(c, response.cookies)
  {
    var request := LoginRequest(username, password);
    match response
    case SendFailed(reason) => LoginOutcome(request, Outcome(c, Some("Error while sending login request: " + reason)))
    case Response(status, cookies) =>
      if status != 200 then
        LoginOutcome(request, Outcome(c.(cached := EmptyCookie),
          Some("Invalid username or password (status code " + IntToDecimal(status) + ")")))
      else LoginOutcome(request, CacheAuthCookies(c, cookies))
  }

  /** Refreshing the session is a login with empty credentials: the server
      then recognizes the caller by the session cookie alone. */
  function RefreshSession(c: Client, response: Response): (r: LoginOutcome)
    ensures r.request == LoginRequest("", "")
    ensures r == Login(c, "", "", response)
  {
    Login(c, "", "", response)
  }

  /** `Logout` as written: a 200 clears the cache, but any other status
      returns early without an error, because the error it wraps is nil. */
  function LogoutAsWritten(c: Client, response: Response): (r: Outcome)
    ensures response.SendFailed? ==> r.client == c && r.err.Some?
    ensures response.Response? && response.status == 200 ==> r.err.None? && AuthCookie(r.client).None?
    ensures response.Response? && response.status != 200 ==> r == Outcome(c, None)
  {
    match response
    case SendFailed(reason) => Outcome(c, Some("Error while sending logout request: " + reason))
    case Response(status, _) =>
      if status != 200 then Outcome(c, None)
      else Outcome(c.(cached := EmptyCookie), None)
  }

  /** A refused logout is reported as a success and the client keeps its
      cookie: a 500 with a cached cookie leaves a "logged out" client that
      still holds its session. */
  lemma LogoutRefusalReportsSuccess(c: Client)
    requires AuthCookie(c).Some?
    ensures LogoutAsWritten(c, Response(500, [])).err.None?
    ensures AuthCookie(LogoutAsWritten(c, Response(500, [])).client).Some?
  {
  }

  /** `Logout` as evidently intended: a status other than 200 is an error
      naming that status, and the cache is kept. */
  function Logout(c: Client, response: Response): (r: Outcome)
    ensures r.err.None? <==> response.Response? && response.status == 200
    ensures r.err.None? ==> AuthCookie(r.client).None?
    ensures r.err.Some? ==> r.client == c
    ensures response.Response? && response.status != 200 ==>
      r.err == Some("Logout request returned status " + IntToDecimal(response.status))
  {
    match response
    case SendFailed(reason) => Outcome(c, Some("Error while sending logout request: " + reason))
    case Response(status, _) =>
      if status != 200 then Outcome(c, Some("Logout request returned status " + IntToDecimal(status)))
      else Outcome(c.(cached := EmptyCookie), None)
  }

  /** The two versions agree except on a refused logout. */
  lemma LogoutAgreesOn200(c: Client, response: Response)
    requires response.SendFailed? || response.status == 200
    ensures Logout(c, response) == LogoutAsWritten(c, response)
  {
  }

  /** Logging in with a reply that sets the auth cookie caches it; logging out
      then clears it. */
  lemma LoginThenLogout(c: Client, username: string, password: string, cookie: Cookie)
    requires c.url.Some?
    requires cookie.name == AdminSession.AuthCookieName && cookie.domain != ""
    ensures
      var logged := Login(c, username, password, Response(200, [cookie])).outcome;
      && logged.err.None?
      && AuthCookie(logged.client).Some?
      && AuthCookie(logged.client).value.value == cookie.value
      && AuthCookie(Logout(logged.client, Response(200, [])).client).None?
  {
    var logged := Login(c, username, password, Response(200, [cookie])).outcome;
    assert logged == CacheAuthCookies(c, [cookie]);
    var cached := SetCachedAuthCookie(c, cookie);
    assert cached.err.None?;
    assert [cookie][1..] == [];
  }
}

=== FILE: adminserver.dfy ===
/** The admin server's JSON-RPC services `Users` and `Blogs`, as authorization
    wrappers over the in-memory account store, and the outcome of its login and
    logout handlers. The caller's session is the one the session middleware
    attached to the request context. */
module AdminServer {

  import opened Wrappers
  import opened GoTime
  import opened HttpCookie
  import opened UserStore
  import MemoryUserStore
  import SessionStore
  import AdminSession

  /** The server's mutable state: accounts and sessions. */
  datatype Server = Server(users: MemoryUserStore.Users, sessions: SessionStore.Sessions)

  ghost predicate Valid(srv: Server)
  {
    MemoryUserStore.Valid(srv.users) && SessionStore.Valid(srv.sessions)
  }

  datatype RpcError =
    | InvalidParameter
    | RequireAuthentication
    | GetUnknownUser
    | UpdateInvalidUser
    | DeleteInvalidUser
    | UnknownBlog
    | Store(err: StoreError)

  /** The text an RPC client receives. The update and delete refusals share
      one text. */
  function Message(e: RpcError): string
  {
    match e
    case InvalidParameter => "Invalid parameters"
    case RequireAuthentication => "This method requires authentication"
    case GetUnknownUser => "User does not exist"
    case UpdateInvalidUser => "You cannot update this user"
    case DeleteInvalidUser => "You cannot update this user"
    case UnknownBlog => "No blog with this slug"
    case Store(err) => UserStore.Message(err)
  }

  /** A service call's effect: the server afterwards and the reply. */
  datatype Reply<T> = Reply(server: Server, result: Result<T, RpcError>)

  function FromStep(srv: Server, step: MemoryUserStore.Step): (r: Reply<()>)
    ensures r.server == srv.(users := step.users)
    ensures r.result.Ok? <==> step.err.None?
    ensures step.err.Some? ==> r.result == Err(Store(step.err.value))
  {
    match step.err
    case None => Reply(srv.(users := step.users), Ok(()))
    case Some(e) => Reply(srv.(users := step.users), Err(Store(e)))
  }

  // ----------------------------------------------------------- Users service

  /** `Users.Create`: needs no session; store errors pass through unchanged. */
  function UsersCreate(srv: Server, user: Option<User>): (r: Reply<()>)
    ensures user.None? ==> r == Reply(srv, Err(InvalidParameter))
    ensures user.Some? ==> r.server.users == MemoryUserStore.CreateUser(srv.users, user.value).users
    ensures user.Some? && MemoryUserStore.CreateUser(srv.users, user.value).err.Some? ==>
      r.result == Err(Store(MemoryUserStore.CreateUser(srv.users, user.value).err.value))
    ensures r.server.sessions == srv.sessions
    ensures Valid(srv) ==> Valid(r.server)
  {
    match user
    case None => Reply(srv, Err(InvalidParameter))
    case Some(u) => FromStep(srv, MemoryUserStore.CreateUser(srv.users, u))
  }

  /** `Users.Update`: a session is required first, then an argument, then the
      argument must name the session's own user. */
  function UsersUpdate(srv: Server, ctx: AdminSession.Context, user: Option<User>): (r: Reply<()>)
    ensures ctx.session.None? ==> r == Reply(srv, Err(RequireAuthentication))
    ensures ctx.session.Some? && user.None? ==> r == Reply(srv, Err(InvalidParameter))
    ensures ctx.session.Some? && user.Some? && user.value.username != ctx.session.value.username ==>
      r == Reply(srv, Err(UpdateInvalidUser))
    ensures r.result.Ok? ==>
      && ctx.session.Some? && user.Some?
      && user.value.username == ctx.session.value.username
      && r.server.users == MemoryUserStore.UpdateUser(srv.users, user.value).users
    ensures ctx.session.Some? && user.Some? && user.value.username == ctx.session.value.username ==>
      r == FromStep(srv, MemoryUserStore.UpdateUser(srv.users, user.value))
    ensures r.server.sessions == srv.sessions
    ensures Valid(srv) ==> Valid(r.server)
  {
    match ctx.session
    case None => Reply(srv, Err(RequireAuthentication))
    case Some(session) =>
      match user
      case None => Reply(srv, Err(InvalidParameter))
      case Some(u) =>
        if session.username != u.username then Reply(srv, Err(UpdateInvalidUser))
        else FromStep(srv, MemoryUserStore.UpdateUser(srv.users, u))
  }

  /** `Users.Get`: any user's public record; an unknown user is an error. */
  function UsersGet(srv: Server, username: string): (r: Reply<User>)
    ensures r.server == srv
    ensures r.result == Err(GetUnknownUser) <==> username !in srv.users
    ensures r.result.Ok? ==> r.result.value.password == ""
    ensures r.result.Ok? ==> r.result.value.displayName == srv.users[username].user.displayName
    ensures username in srv.users ==> r.result == Ok(srv.users[username].user.(password := ""))
    ensures MemoryUserStore.Valid(srv.users) && r.result.Ok? ==> r.result.value.username == username
  {
    match MemoryUserStore.GetUser(srv.users, username)
    case None => Reply(srv, Err(GetUnknownUser))
    case Some(u) => Reply(srv, Ok(u))
  }

  /** `Users.Whoami`: `Users.Get` of the session's user. */
  function UsersWhoami(srv: Server, ctx: AdminSession.Context): (r: Reply<User>)
    ensures ctx.session.None? ==> r == Reply(srv, Err(RequireAuthentication))
    ensures ctx.session.Some? ==> r == UsersGet(srv, ctx.session.value.username)
  {
    match ctx.session
    case None => Reply(srv, Err(RequireAuthentication))
    case Some(session) => UsersGet(srv, session.username)
  }

  /** `Users.Delete`: only the session's own user can be deleted; the
      caller's session is deleted with it. */
  function UsersDelete(srv: Server, ctx: AdminSession.Context, username: string): (r: Reply<()>)
    ensures ctx.session.None? ==> r == Reply(srv, Err(RequireAuthentication))
    ensures ctx.session.Some? && ctx.session.value.username != username ==> r == Reply(srv, Err(DeleteInvalidUser))
    ensures ctx.session.Some? && ctx.session.value.username == username && username !in srv.users ==>
      r == Reply(srv, Err(Store(DoesNotExist)))
    ensures r.result.Ok? <==> ctx.session.Some? && ctx.session.value.username == username && username in srv.users
    ensures r.result.Ok? ==>
      && r.server.users == MemoryUserStore.DeleteUser(srv.users, username).users
      && r.server.sessions == SessionStore.Delete(srv.sessions, ctx.session.value.sid)
    ensures Valid(srv) ==> Valid(r.server)
  {
    match ctx.session
    case None => Reply(srv, Err(RequireAuthentication))
    case Some(session) =>
      if session.username != username then Reply(srv, Err(DeleteInvalidUser))
      else
        var step := MemoryUserStore.DeleteUser(srv.users, username);
        if step.err.Some? then Reply(srv, Err(Store(step.err.value)))
        else Reply(Server(step.users, SessionStore.Delete(srv.sessions, session.sid)), Ok(()))
  }

  // ----------------------------------------------------------- Blogs service

  /** `Blogs.Create`: adds a blog to the session's user. */
  function BlogsCreate(srv: Server, ctx: AdminSession.Context, blog: Option<Blog>): (r: Reply<()>)
    ensures ctx.session.None? ==> r == Reply(srv, Err(RequireAuthentication))
    ensures ctx.session.Some? && blog.None? ==> r == Reply(srv, Err(InvalidParameter))
    ensures ctx.session.Some? && blog.Some? ==>
      r == FromStep(srv, MemoryUserStore.AddBlog(srv.users, ctx.session.value.username, blog.value))
    ensures Valid(srv) ==> Valid(r.server)
  {
    match ctx.session
    case None => Reply(srv, Err(RequireAuthentication))
    case Some(session) =>
      match blog
      case None => Reply(srv, Err(InvalidParameter))
      case Some(b) => FromStep(srv, MemoryUserStore.AddBlog(srv.users, session.username, b))
  }

  /** `Blogs.Update`: replaces a blog of the session's user. */
  function BlogsUpdate(srv: Server, ctx: AdminSession.Context, blog: Option<Blog>): (r: Reply<()>)
    ensures ctx.session.None? ==> r == Reply(srv, Err(RequireAuthentication))
    ensures ctx.session.Some? && blog.None? ==> r == Reply(srv, Err(InvalidParameter))
    ensures ctx.session.Some? && blog.Some? ==>
      r == FromStep(srv, MemoryUserStore.UpdateBlog(srv.users, ctx.session.value.username, blog.value))
    ensures Valid(srv) ==> Valid(r.server)
  {
    match ctx.session
    case None => Reply(srv, Err(RequireAuthentication))
    case Some(session) =>
      match blog
      case None => Reply(srv, Err(InvalidParameter))
      case Some(b) => FromStep(srv, MemoryUserStore.UpdateBlog(srv.users, session.username, b))
  }

  /** `Blogs.Get`: an explicit user name needs no session; an empty one means
      the session's user. A missing blog is an error. */
  function BlogsGet(srv: Server, ctx: AdminSession.Context, username: string, slug: string): (r: Reply<Blog>)
    ensures r.server == srv
    ensures username == "" && ctx.session.None? ==> r.result == Err(RequireAuthentication)
    ensures r.result.Ok? ==>
      var owner := if username != "" then username else ctx.session.value.username;
      owner in srv.users && slug in srv.users[owner].blogs && r.result.value == srv.users[owner].blogs[slug]
    ensures username != "" || ctx.session.Some? ==>
      var owner := if username != "" then username else ctx.session.value.username;
      && (owner !in srv.users ==> r.result == Err(Store(DoesNotExist)))
      && (owner in srv.users && slug !in srv.users[owner].blogs ==> r.result == Err(UnknownBlog))
      && (owner in srv.users && slug in srv.users[owner].blogs ==> r.result == Ok(srv.users[owner].blogs[slug]))
  {
    if username == "" && ctx.session.None? then Reply(srv, Err(RequireAuthentication))
    else
      var owner := if username == "" then ctx.session.value.username else username;
      match MemoryUserStore.GetBlog(srv.users, owner, slug)
      case Err(e) => Reply(srv, Err(Store(e)))
      case Ok(None) => Reply(srv, Err(UnknownBlog))
      case Ok(Some(b)) => Reply(srv, Ok(b))
  }

  /** `Blogs.List`: every blog of the session's user, in any order. */
  method BlogsList(srv: Server, ctx: AdminSession.Context) returns (r: Reply<seq<Blog>>)
    ensures r.server == srv
    ensures ctx.session.None? ==> r.result == Err(RequireAuthentication)
    ensures ctx.session.Some? && ctx.session.value.username !in srv.users ==> r.result == Err(Store(DoesNotExist))
    ensures r.result.Ok? ==>
      && ctx.session.Some?
      && ctx.session.value.username in srv.users
      && |r.result.value| == |srv.users[ctx.session.value.username].blogs|
      && forall b :: b in r.result.value <==> b in srv.users[ctx.session.value.username].blogs.Values
    ensures ctx.session.Some? && ctx.session.value.username in srv.users ==> r.result.Ok?
    ensures r.result.Ok? && MemoryUserStore.Valid(srv.users) ==>
      forall i, j :: 0 <= i < j < |r.result.value| ==> r.result.value[i].slug != r.result.value[j].slug
  {
    if ctx.session.None? {
      return Reply(srv, Err(RequireAuthentication));
    }
    var listed := MemoryUserStore.ListBlogs(srv.users, ctx.session.value.username);
    match listed
    case Err(e) => return Reply(srv, Err(Store(e)));
    case Ok(blogs) => return Reply(srv, Ok(blogs));
  }

  /** `Blogs.Delete`: removes a blog of the session's user. */
  function BlogsDelete(srv: Server, ctx: AdminSession.Context, slug: string): (r: Reply<()>)
    ensures ctx.session.None? ==> r == Reply(srv, Err(RequireAuthentication))
    ensures ctx.session.Some? ==>
      r == FromStep(srv, MemoryUserStore.DeleteBlog(srv.users, ctx.session.value.username, slug))
    ensures Valid(srv) ==> Valid(r.server)
  {
    match ctx.session
    case None => Reply(srv, Err(RequireAuthentication))
    case Some(session) => FromStep(srv, MemoryUserStore.DeleteBlog(srv.users, session.username, slug))
  }

  /** The blog-changing methods act on the session user's blogs only: every
      other user's record is left as it was. */
  lemma BlogsTouchOnlyOwnUser(srv: Server, ctx: AdminSession.Context, blog: Blog, slug: string, other: string)
    requires ctx.session.Some? && other != ctx.session.value.username && other in srv.users
    ensures other in BlogsCreate(srv, ctx, Some(blog)).server.users
    ensures BlogsCreate(srv, ctx, Some(blog)).server.users[other] == srv.users[other]
    ensures other in BlogsUpdate(srv, ctx, Some(blog)).server.users
    ensures BlogsUpdate(srv, ctx, Some(blog)).server.users[other] == srv.users[other]
    ensures other in BlogsDelete(srv, ctx, slug).server.users
    ensures BlogsDelete(srv, ctx, slug).server.users[other] == srv.users[other]
  {
  }

  /** A user created through `Users.Create` is what `Users.Get` returns
      under that name, without the password. */
  lemma UsersCreateThenGet(srv: Server, user: User)
    requires Valid(srv)
    requires user.username != "" && user.password != "" && user.username !in srv.users
    ensures UsersCreate(srv, Some(user)).result.Ok?
    ensures UsersGet(UsersCreate(srv, Some(user)).server, user.username).result == Ok(user.(password := ""))
  {
  }

  /** A signed-in user's update of their own record succeeds and takes
      effect: `Users.Get` returns the new record without the password, the
      new password signs in, and a different old password no longer does. */
  lemma UsersUpdateThenLogin(srv: Server, ctx: AdminSession.Context, user: User, previous: string,
                             now: Instant, sid: string, encoded: string)
    requires ctx.session.Some? && ctx.session.value.username == user.username
    requires user.username != "" && user.username in srv.users
    requires previous != user.password && sid != ""
    ensures UsersUpdate(srv, ctx, Some(user)).result.Ok?
    ensures UsersGet(UsersUpdate(srv, ctx, Some(user)).server, user.username).result == Ok(user.(password := ""))
    ensures LoginHandler(UsersUpdate(srv, ctx, Some(user)).server, Form(user.username, user.password), now, sid, Ok(encoded)).status == 200
    ensures LoginHandler(UsersUpdate(srv, ctx, Some(user)).server, Form(user.username, previous), now, sid, Ok(encoded)).status == 401
  {
  }

  /** A blog created through `Blogs.Create` is what `Blogs.Get` returns for
      its slug, both for the session's user (empty user name) and to anyone
      naming that user. */
  lemma BlogsCreateThenGet(srv: Server, ctx: AdminSession.Context, blog: Blog)
    requires Valid(srv)
    requires ctx.session.Some? && ctx.session.value.username in srv.users
    requires blog.slug != "" && blog.slug !in srv.users[ctx.session.value.username].blogs
    ensures BlogsCreate(srv, ctx, Some(blog)).result.Ok?
    ensures BlogsGet(BlogsCreate(srv, ctx, Some(blog)).server, ctx, "", blog.slug).result == Ok(blog)
    ensures BlogsGet(BlogsCreate(srv, ctx, Some(blog)).server, AdminSession.Context(None), ctx.session.value.username, blog.slug).result == Ok(blog)
  {
  }

  /** After `Blogs.Create`, `Blogs.List` returns one more blog, the new one
      among them. */
  method BlogsCreateThenList(srv: Server, ctx: AdminSession.Context, blog: Blog) returns (listed: seq<Blog>)
    requires ctx.session.Some? && ctx.session.value.username in srv.users
    requires blog.slug != "" && blog.slug !in srv.users[ctx.session.value.username].blogs
    ensures blog in listed
    ensures |listed| == |srv.users[ctx.session.value.username].blogs| + 1
  {
    var created := BlogsCreate(srv, ctx, Some(blog));
    var username := ctx.session.value.username;
    var blogs := srv.users[username].blogs;
    assert created.server.users[username].blogs == blogs[blog.slug := blog];
    assert blog in created.server.users[username].blogs.Values by {
      assert created.server.users[username].blogs[blog.slug] == blog;
    }
    var r := BlogsList(created.server, ctx);
    listed := r.result.value;
  }

  // -------------------------------------------------------------- handlers

  /** How long a login session lasts. */
  const SessionLifetime: Duration := 30 * 24 * Hour

  /** A form-encoded login request's fields, or a form that does not parse. */
  datatype LoginForm = BadForm | Form(username: string, password: string)

  datatype HandlerOutcome = HandlerOutcome(server: Server, status: int, cookie: Option<Cookie>)

  /** The login handler. `sid` is the freshly generated session id and
      `encoded` the opaque encoder's output for it. Failed authentication
      answers 401 and creates nothing; success stores a session for the user
      that expires `SessionLifetime` after `now`. A session stored before the
      cookie encoder failed stays stored. */
  function LoginHandler(srv: Server, form: LoginForm, now: Instant, sid: string, encoded: Result<string, string>): (r: HandlerOutcome)
    requires sid != ""
    ensures form.BadForm? ==> r == HandlerOutcome(srv, 400, None)
    ensures form.Form? && !MemoryUserStore.AuthenticateUser(srv.users, form.username, form.password) ==>
      r == HandlerOutcome(srv, 401, None)
    ensures r.status == 200 || r.status == 500 ==>
      && form.Form? && MemoryUserStore.AuthenticateUser(srv.users, form.username, form.password)
      && r.server == srv.(sessions := SessionStore.Set(srv.sessions,
           SessionStore.Session(sid, now + SessionLifetime, form.username)))
    ensures form.Form? && MemoryUserStore.AuthenticateUser(srv.users, form.username, form.password) ==>
      r.server == srv.(sessions := SessionStore.Set(srv.sessions, SessionStore.Session(sid, now + SessionLifetime, form.username)))
    ensures form.Form? && MemoryUserStore.AuthenticateUser(srv.users, form.username, form.password) && encoded.Err? ==>
      r.status == 500 && r.cookie.None?
    ensures r.status == 200 <==> form.Form? && MemoryUserStore.AuthenticateUser(srv.users, form.username, form.password) && encoded.Ok?
    ensures r.status == 200 ==>
      && r.cookie.Some?
      && r.cookie.value.name == AdminSession.AuthCookieName
      && r.cookie.value.value == encoded.value
      && r.cookie.value.expires == now + SessionLifetime
      && r.cookie.value.path == "/" && r.cookie.value.httpOnly && !r.cookie.value.secure
    ensures r.server.users == srv.users
    ensures Valid(srv) ==> Valid(r.server)
  {
    match form
    case BadForm => HandlerOutcome(srv, 400, None)
    case Form(username, password) =>
      if !MemoryUserStore.AuthenticateUser(srv.users, username, password) then HandlerOutcome(srv, 401, None)
      else
        var expires := now + SessionLifetime;
        var session := SessionStore.Session(sid, expires, username);
        var srv' := srv.(sessions := SessionStore.Set(srv.sessions, session));
        match AdminSession.EncodeAuthCookie(encoded)
        case Err(_) => HandlerOutcome(srv', 500, None)
        case Ok(cookie) => HandlerOutcome(srv', 200, Some(cookie.(expires := expires)))
  }

  /** The logout handler, which runs behind the middleware that requires a
      session: it deletes that session and sends the reset cookie. */
  function LogoutHandler(srv: Server, session: SessionStore.Session): (r: HandlerOutcome)
    ensures r.status == 200
    ensures session.sid !in r.server.sessions
    ensures r.server.users == srv.users
    ensures r.cookie == Some(AdminSession.ResetAuthCookie())
  {
    HandlerOutcome(srv.(sessions := SessionStore.Delete(srv.sessions, session.sid)), 200, Some(AdminSession.ResetAuthCookie()))
  }

  /** A successful login yields a session that the middleware resolves back
      to the logged-in user for the whole lifetime of the session, and after
      logout the same cookie no longer resolves. */
  lemma {:induction false} LoginThenAuthenticatedRequest(
    srv: Server, username: string, password: string, now: Instant, sid: string,
    encoded: string, later: Instant)
    requires sid != ""
    requires MemoryUserStore.AuthenticateUser(srv.users, username, password)
    requires now <= later <= now + SessionLifetime
    requires After(later, ZeroTime)
    ensures
      var out := LoginHandler(srv, Form(username, password), now, sid, Ok(encoded));
      var res := AdminSession.SessionFromRequest(out.server.sessions, AdminSession.Found(encoded), Some(sid), None, later);
      && out.status == 200
      && res.result == Ok(Some(SessionStore.Session(sid, now + SessionLifetime, username)))
      && AdminSession.WithSession(true, res.result).Serve?
    ensures
      var out := LoginHandler(srv, Form(username, password), now, sid, Ok(encoded));
      var session := SessionStore.Session(sid, now + SessionLifetime, username);
      var gone := LogoutHandler(out.server, session);
      AdminSession.WithSession(true,
        AdminSession.SessionFromRequest(gone.server.sessions, AdminSession.Found(encoded), Some(sid), None, later).result)
        == AdminSession.Respond(401)
  {
    var out := LoginHandler(srv, Form(username, password), now, sid, Ok(encoded));
    var session := SessionStore.Session(sid, now + SessionLifetime, username);
    assert out.server.sessions == SessionStore.Set(srv.sessions, session);
    SessionStore.SetThenGet(srv.sessions, session, later);
    var gone := LogoutHandler(out.server, session);
    assert sid !in gone.server.sessions;
  }
}

=== FILE: adminsession.dfy ===
/** The admin server's authentication cookie and the middleware that turns a
    request's cookie into a session. Cookie signing and encryption are opaque:
    their outputs are inputs here. */
module AdminSession {

  import opened Wrappers
  import opened GoTime
  import opened HttpCookie
  import SessionStore

  const AuthCookieName: string := "auth"

  /** Builds the session cookie around an encoded value; an encoding failure
      is passed on as an error. */
  function EncodeAuthCookie(encoded: Result<string, string>): (r: Result<Cookie, string>)
    ensures r.Ok? <==> encoded.Ok?
    ensures r.Ok? ==> r.value.name == AuthCookieName && r.value.value == encoded.value
    ensures r.Ok? ==> r.value.path == "/" && r.value.httpOnly && !r.value.secure
    ensures r.Ok? ==> r.value.domain == "" && IsZero(r.value.expires)
  {
    match encoded
    case Ok(v) => Ok(Cookie(AuthCookieName, v, "/", "", ZeroTime, false, true))
    case Err(e) => Err("Error while encoding auth cookie: " + e)
  }

  /** The cookie that logs a browser out: an empty `auth` cookie that expired
      at the Unix epoch. */
  function ResetAuthCookie(): (c: Cookie)
    ensures c.name == AuthCookieName && c.value == "" && c.path == "/" && c.httpOnly
    ensures c.expires == UnixEpoch && !IsZero(c.expires) && Unix(c.expires) == 0
  {
    Cookie(AuthCookieName, "", "/", "", UnixEpoch, false, true)
  }

  /** What `r.Cookie("auth")` finds on a request. */
  datatype CookieLookup = NoCookie | Found(value: string)

  /** The outcome of resolving a request's session: the session map afterwards
      (expired sessions are dropped by the lookup) and the session or error. */
  datatype Resolution = Resolution(
    sessions: SessionStore.Sessions,
    result: Result<Option<SessionStore.Session>, string>)

  /** Resolves a request's session. A missing cookie, or one that does not
      decode (`decoded` is the opaque decoder's output for the cookie value),
      means "no session" rather than an error; otherwise the store is asked.
      `backendError` is a failure of the session back end (the in-memory store
      never fails; a remote one may). */
  function SessionFromRequest(
    sessions: SessionStore.Sessions,
    cookie: CookieLookup,
    decoded: Option<string>,
    backendError: Option<string>,
    now: Instant): (r: Resolution)
    ensures cookie.NoCookie? ==> r == Resolution(sessions, Ok(None))
    ensures cookie.Found? && decoded.None? ==> r == Resolution(sessions, Ok(None))
    ensures r.result.Err? <==> cookie.Found? && decoded.Some? && backendError.Some?
    ensures cookie.Found? && decoded.Some? && backendError.None? ==>
      r == Resolution(
        SessionStore.Get(sessions, decoded.value, now).sessions,
        Ok(SessionStore.Get(sessions, decoded.value, now).session))
  {
    match cookie
    case NoCookie => Resolution(sessions, Ok(None))
    case Found(_) =>
      match decoded
      case None => Resolution(sessions, Ok(None))
      case Some(sid) =>
        match backendError
        case Some(e) => Resolution(sessions, Err("Error while retrieving session " + sid + ": " + e))
        case None =>
          var lookup := SessionStore.Get(sessions, sid, now);
          Resolution(lookup.sessions, Ok(lookup.session))
  }

  /** The request context: the session attached by the middleware, if any. */
  datatype Context = Context(session: Option<SessionStore.Session>)

  /** What the middleware does with a request: answer it with a status code,
      or hand it to the wrapped handler with a context. */
  datatype Gate = Respond(status: int) | Serve(ctx: Context)

  /** The session middleware: 500 when the lookup failed, 401 when a session
      is required and there is none, otherwise the handler runs with the
      session (or with none) attached. */
  function WithSession(requireAuth: bool, lookup: Result<Option<SessionStore.Session>, string>): (g: Gate)
    ensures lookup.Err? <==> g == Respond(500)
    ensures g == Respond(401) <==> lookup == Ok(None) && requireAuth
    ensures g.Serve? <==> lookup.Ok? && (lookup.value.Some? || !requireAuth)
    ensures g.Serve? ==> SessionFromContext(g.ctx) == lookup.value
  {
    match lookup
    case Err(_) => Respond(500)
    case Ok(None) => if requireAuth then Respond(401) else Serve(Context(None))
    case Ok(Some(s)) => Serve(Context(Some(s)))
  }

  function SessionFromContext(ctx: Context): Option<SessionStore.Session>
  {
    ctx.session
  }

  /** With the in-memory store, which never fails, the middleware never answers 500. */
  lemma MemoryStoreNever500(
    sessions: SessionStore.Sessions, cookie: CookieLookup, decoded: Option<string>,
    now: Instant, requireAuth: bool)
    ensures WithSession(requireAuth, SessionFromRequest(sessions, cookie, decoded, None, now).result) != Respond(500)
  {
  }
}

=== FILE: api.dfy ===
/** The admin UI's client for the admin server: the login and logout form
    posts, and the JSON-RPC calls with their call identifiers, envelopes and
    reply handling. `fetch` and JSON parsing are inputs: each call takes the
    response it got. The artificial latency added to RPC calls is not
    modelled. */
module Api {

  import opened Wrappers
  import opened Strings

  /** The records exchanged with the server; an absent display name is None. */
  datatype User = User(username: string, displayName: Option<string>)
  datatype UserWithPassword = UserWithPassword(username: string, password: string, displayName: Option<string>)
  datatype Blog = Blog(slug: string, displayName: Option<string>)

  /** Why a promise was rejected: a string the code rejected with, or an
      exception object (the `TypeError` of a failed `fetch`, the `SyntaxError`
      of a body that is not JSON), named by its description. */
  datatype Reason = Text(text: string) | Thrown(description: string)

  /** The text a reason shows once stored as an error state. */
  function Describe(r: Reason): string
  {
    match r
    case Text(t) => t
    case Thrown(d) => d
  }

  /** A settled promise. */
  datatype Promise<T> = Resolved(value: T) | Rejected(reason: Reason)

  /** `Response.ok`. */
  predicate IsOk(status: int) { 200 <= status <= 299 }

  /** A `fetch`: it fails before any response, or yields a status. */
  datatype Fetched = NetworkError(reason: string) | Status(status: int)

  /** The `/login` form post: 401 means wrong credentials, any other failure
      status is an error, success means logged in. */
  function Login(response: Fetched): (p: Promise<bool>)
    ensures response.Status? && response.status == 401 ==> p == Resolved(false)
    ensures response.Status? && response.status != 401 && !IsOk(response.status) ==>
      p == Rejected(Text("Login request failed with status " + IntToDecimal(response.status)))
    ensures p == Resolved(true) <==> response.Status? && IsOk(response.status)
    ensures response.NetworkError? ==> p == Rejected(Thrown(response.reason))
  {
    match response
    case NetworkError(reason) => Rejected(Thrown(reason))
    case Status(status) =>
      if status == 401 then Resolved(false)
      else if !IsOk(status) then Rejected(Text("Login request failed with status " + IntToDecimal(status)))
      else Resolved(true)
  }

  /** The `/logout` post. */
  function Logout(response: Fetched): (p: Promise<()>)
    ensures p.Resolved? <==> response.Status? && IsOk(response.status)
    ensures response.Status? && !IsOk(response.status) ==>
      p == Rejected(Text("Logout request failed with status " + IntToDecimal(response.status)))
    ensures response.NetworkError? ==> p == Rejected(Thrown(response.reason))
  {
    match response
    case NetworkError(reason) => Rejected(Thrown(reason))
    case Status(status) =>
      if !IsOk(status) then Rejected(Text("Logout request failed with status " + IntToDecimal(status)))
      else Resolved(())
  }

  // ------------------------------------------------------------ call ids

  /** The call counter shared by all RPC calls of the page (0 at load). */
  datatype Counter = Counter(n: nat)

  datatype NextId = NextId(counter: Counter, id: string)

  /** Increments the counter and renders it in decimal. */
  function CallId(c: Counter): (r: NextId)
    ensures r.counter.n == c.n + 1
    ensures AllDigits(r.id) && DecimalValue(r.id) == c.n + 1 && r.id[0] != '0'
  {
    DecimalRoundTrip(c.n + 1);
    NextId(Counter(c.n + 1), NatToDecimal(c.n + 1))
  }

  /** The identifiers of `k` successive calls: the i-th is the decimal of
      n + i + 1, so the first call of the page gets "1". */
  function CallIds(c: Counter, k: nat): (ids: seq<string>)
    ensures |ids| == k
    ensures forall i :: 0 <= i < k ==> AllDigits(ids[i]) && DecimalValue(ids[i]) == c.n + i + 1
    decreases k
  {
    if k == 0 then []
    else
      var next := CallId(c);
      var rest := CallIds(next.counter, k - 1);
      assert forall i :: 1 <= i < k ==> ([next.id] + rest)[i] == rest[i - 1];
      [next.id] + rest
  }

  /** No identifier repeats within a page. */
  lemma CallIdsIncrease(c: Counter, k: nat)
    ensures forall i, j :: 0 <= i < j < k ==> CallIds(c, k)[i] != CallIds(c, k)[j]
  {
  }

  lemma FirstCallIdIsOne()
    ensures CallId(Counter(0)).id == "1"
  {
  }

  // ------------------------------------------------------------ envelopes

  /** The argument objects the UI sends. */
  datatype Params = UserParams(user: UserWithPassword) | BlogParams(blog: Blog) | SlugParams(slug: string)

  /** A call before its identifier is attached. */
  datatype Request = Request(rpcMethod: string, params: Option<Params>)

  datatype Envelope = Envelope(id: string, rpcMethod: string, params: seq<Params>)

  /** The envelope: no argument becomes an empty array, an argument a
      one-element array. */
  function MakeEnvelope(id: string, req: Request): (e: Envelope)
    ensures e.id == id && e.rpcMethod == req.rpcMethod
    ensures req.params.None? <==> e.params == []
    ensures req.params.Some? ==> e.params == [req.params.value]
  {
    Envelope(id, req.rpcMethod, if req.params.None? then [] else [req.params.value])
  }

  /** The argument a call carried, read back from its envelope. */
  function ParamsOf(e: Envelope): Option<Params>
  {
    if |e.params| == 0 then None else Some(e.params[0])
  }

  lemma EnvelopeRoundTrip(id: string, req: Request)
    ensures ParamsOf(MakeEnvelope(id, req)) == req.params
    ensures Request(MakeEnvelope(id, req).rpcMethod, ParamsOf(MakeEnvelope(id, req))) == req
  {
  }

  /** The parsed reply body; `error` is null (None) or a string. */
  datatype ReplyBody<R> = ReplyBody(error: Option<string>, result: R)

  /** The HTTP answer to an RPC call: its status and its body, None when the
      body is not valid JSON (the parser's message being `parseError`). */
  datatype RpcResponse<R> = RpcNetworkError(reason: string) | RpcResponse(status: int, body: Option<ReplyBody<R>>, parseError: string)

  /** JavaScript truthiness of the `error` field. */
  predicate Truthy(error: Option<string>) { error.Some? && error.value != "" }

  /** Whether an RPC reply resolves its call: status 200, a JSON body, and
      a falsy `error` field. */
  predicate Succeeds<R>(response: RpcResponse<R>)
  {
    response.RpcResponse? && response.status == 200 && response.body.Some? && !Truthy(response.body.value.error)
  }

  /** The reply handling of an RPC call: anything but 200 is refused, then a
      body that is not JSON (an exception), then a truthy `error` field, and
      otherwise the call resolves to `result`. Only the network failure and
      the JSON failure reject with an exception object. */
  function Classify<R>(rpcMethod: string, response: RpcResponse<R>): (p: Promise<R>)
    ensures response.RpcResponse? && response.status != 200 ==>
      p == Rejected(Text("Invalid response code: " + IntToDecimal(response.status)))
    ensures response.RpcResponse? && response.status == 200 && response.body.Some? && Truthy(response.body.value.error) ==>
      p == Rejected(Text("RPC Error (" + rpcMethod + "): " + response.body.value.error.value))
    ensures p.Rejected? && p.reason.Thrown? <==>
      response.RpcNetworkError? || (response.status == 200 && response.body.None?)
    ensures p.Resolved? <==> Succeeds(response)
    ensures p.Resolved? ==> p.value == response.body.value.result
  {
    match response
    case RpcNetworkError(reason) => Rejected(Thrown(reason))
    case RpcResponse(status, body, parseError) =>
      if status != 200 then Rejected(Text("Invalid response code: " + IntToDecimal(status)))
      else match body
        case None => Rejected(Thrown(parseError))
        case Some(b) =>
          if Truthy(b.error) then Rejected(Text("RPC Error (" + rpcMethod + "): " + b.error.value))
          else Resolved(b.result)
  }

  datatype Called<R> = Called(counter: Counter, envelope: Envelope, outcome: Promise<R>)

  /** One RPC call: it advances the page's counter, sends the request under
      the counter's new value, and resolves to the reply's result exactly when
      the reply succeeds. */
  function Call<R>(c: Counter, req: Request, response: RpcResponse<R>): (r: Called<R>)
    ensures r.counter.n == c.n + 1
    ensures AllDigits(r.envelope.id) && DecimalValue(r.envelope.id) == c.n + 1
    ensures r.envelope.rpcMethod == req.rpcMethod && ParamsOf(r.envelope) == req.params
    ensures r.outcome.Resolved? <==> Succeeds(response)
    ensures r.outcome.Resolved? ==> r.outcome.value == response.body.value.result
    ensures r.outcome.Rejected? && r.outcome.reason.Text? ==>
      HasPrefix(r.outcome.reason.text, "Invalid response code: ") || HasPrefix(r.outcome.reason.text, "RPC Error (" + req.rpcMethod + "): ")
  {
    var next := CallId(c);
    var p := Classify(req.rpcMethod, response);
    assert p.Rejected? && p.reason.Text? ==>
      HasPrefix(p.reason.text, "Invalid response code: ") || HasPrefix(p.reason.text, "RPC Error (" + req.rpcMethod + "): ");
    Called(next.counter, MakeEnvelope(next.id, req), p)
  }

  /** Two calls in turn go out under different identifiers, the second one
      numbered one past the first, so replies cannot be confused. */
  lemma SuccessiveCallsDiffer<R>(c: Counter, req1: Request, resp1: RpcResponse<R>, req2: Request, resp2: RpcResponse<R>)
    ensures var a := Call(c, req1, resp1);
      var b := Call(a.counter, req2, resp2);
      && a.envelope.id != b.envelope.id
      && DecimalValue(b.envelope.id) == DecimalValue(a.envelope.id) + 1
      && b.counter.n == c.n + 2
  {
  }

  // ------------------------------------------------------------ wrappers

  function Whoami(): Request { Request("Users.Whoami", None) }
  function Register(user: UserWithPassword): Request { Request("Users.Create", Some(UserParams(user))) }
  function ListBlogs(): Request { Request("Blogs.List", None) }
  function CreateBlog(blog: Blog): Request { Request("Blogs.Create", Some(BlogParams(blog))) }
  function UpdateBlog(blog: Blog): Request { Request("Blogs.Update", Some(BlogParams(blog))) }
  function DeleteBlog(slug: string): Request { Request("Blogs.Delete", Some(SlugParams(slug))) }

  /** What each wrapper puts on the wire: the deletion sends the slug in an
      object, the listing and `Whoami` send an empty parameter array. */
  lemma WrapperEnvelopes(id: string, user: UserWithPassword, blog: Blog, slug: string)
    ensures MakeEnvelope(id, Whoami()).params == [] && MakeEnvelope(id, ListBlogs()).params == []
    ensures MakeEnvelope(id, DeleteBlog(slug)) == Envelope(id, "Blogs.Delete", [SlugParams(slug)])
    ensures MakeEnvelope(id, Register(user)) == Envelope(id, "Users.Create", [UserParams(user)])
    ensures MakeEnvelope(id, CreateBlog(blog)).params == MakeEnvelope(id, UpdateBlog(blog)).params == [BlogParams(blog)]
  {
  }
}

=== FILE: distlock.dfy ===
/** A lease lock in Redis used to elect one master node. The lock is a
    single key holding the owner's node identifier with a time-to-live; two
    Lua scripts acquire/refresh and release it, and a ticker runs the acquire
    script and publishes changes of the master flag. Redis time is an
    explicit millisecond clock here, and the ticker an explicit `Tick` step. */
module DistLock {

  import opened Wrappers
  import opened GoTime

  const DefaultRefreshInterval: Duration := 5 * Second
  const DefaultExpirationDelay: Duration := 5 * DefaultRefreshInterval

  datatype Options = Options(name: string, refreshInterval: Duration, expirationDelay: Duration)

  /** The one-slot master channel: at most one pending notification, and
      whether `Stop` has closed it. */
  datatype Channel = Channel(pending: Option<bool>, closed: bool)

  const OpenEmpty: Channel := Channel(None, false)

  /** `master` mirrors the last acquire reply. */
  datatype Lock = Lock(options: Options, id: string, master: bool, channel: Channel)

  /** Creates a lock for a node identified by its host name and a random
      UUID. An empty name is refused first, zero durations take the
      defaults, and then failures of `os.Hostname` and of loading the two
      scripts into Redis (`acquireLoad`, `releaseLoad`, the errors reported,
      if any) are refused in that order. */
  function New(options: Options, hostname: Result<string, string>, uuid: string,
               acquireLoad: Option<string>, releaseLoad: Option<string>): (r: Result<Lock, string>)
    ensures r.Ok? <==> options.name != "" && hostname.Ok? && acquireLoad.None? && releaseLoad.None?
    ensures options.name == "" ==> r == Err("Lock name cannot be empty")
    ensures options.name != "" && hostname.Err? ==> r == Err("Error while getting hostname: " + hostname.error)
    ensures options.name != "" && hostname.Ok? && acquireLoad.Some? ==>
      r == Err("Error while loading lock acquire script: " + acquireLoad.value)
    ensures options.name != "" && hostname.Ok? && acquireLoad.None? && releaseLoad.Some? ==>
      r == Err("Error while loading lock release script: " + releaseLoad.value)
    ensures r.Ok? ==>
      && r.value.options.name == options.name && r.value.id == hostname.value + "-" + uuid
      && !r.value.master && r.value.channel == OpenEmpty
      && r.value.options.refreshInterval == (if options.refreshInterval == 0 then DefaultRefreshInterval else options.refreshInterval)
      && r.value.options.expirationDelay == (if options.expirationDelay == 0 then DefaultExpirationDelay else options.expirationDelay)
  {
    if options.name == "" then Err("Lock name cannot be empty")
    else if hostname.Err? then Err("Error while getting hostname: " + hostname.error)
    else if acquireLoad.Some? then Err("Error while loading lock acquire script: " + acquireLoad.value)
    else if releaseLoad.Some? then Err("Error while loading lock release script: " + releaseLoad.value)
    else
      var refresh := if options.refreshInterval == 0 then DefaultRefreshInterval else options.refreshInterval;
      var delay := if options.expirationDelay == 0 then DefaultExpirationDelay else options.expirationDelay;
      Ok(Lock(Options(options.name, refresh, delay), hostname.value + "-" + uuid, false, OpenEmpty))
  }

  /** Whether this node currently believes it is the master. */
  function IsMaster(l: Lock): bool
  {
    l.master
  }

  // ------------------------------------------------------------ the key

  /** A lease: the owner's node identifier and the millisecond instant at
      which Redis expires the key. */
  datatype Lease = Lease(owner: string, expiresAtMs: int)

  /** The Redis keyspace, as far as locks go. */
  type Keys = map<string, Lease>

  /** `GET name` at `nowMs`: an expired key reads as absent. */
  function Holder(keys: Keys, name: string, nowMs: int): (r: Option<string>)
    ensures r.Some? <==> name in keys && nowMs < keys[name].expiresAtMs
    ensures r.Some? ==> r.value == keys[name].owner
  {
    if name in keys && nowMs < keys[name].expiresAtMs then Some(keys[name].owner) else None
  }

  datatype Acquired = Acquired(keys: Keys, reply: Result<int, string>)

  /** The acquire script: with no live key, `SET name node PX delayMs` makes
      this node the owner (Redis refuses a non-positive expiry); if this node
      owns the key, `PEXPIRE` renews it (a non-positive expiry deletes it);
      another owner's key is left alone and the reply is 0. */
  function Acquire(keys: Keys, name: string, node: string, delayMs: int, nowMs: int): (r: Acquired)
    ensures Holder(keys, name, nowMs).None? && delayMs > 0 ==>
      r.reply == Ok(1) && r.keys == keys[name := Lease(node, nowMs + delayMs)]
    ensures Holder(keys, name, nowMs).None? && delayMs <= 0 ==> r.reply.Err? && r.keys == keys
    ensures Holder(keys, name, nowMs) == Some(node) && delayMs > 0 ==>
      r.reply == Ok(1) && r.keys == keys[name := Lease(node, nowMs + delayMs)]
    ensures Holder(keys, name, nowMs) == Some(node) && delayMs <= 0 ==>
      r.reply == Ok(1) && r.keys == keys - {name}
    ensures Holder(keys, name, nowMs).Some? && Holder(keys, name, nowMs) != Some(node) ==>
      r == Acquired(keys, Ok(0))
  {
    match Holder(keys, name, nowMs)
    case None =>
      if delayMs <= 0 then Acquired(keys, Err("ERR invalid expire time in 'set' command"))
      else Acquired(keys[name := Lease(node, nowMs + delayMs)], Ok(1))
    case Some(owner) =>
      if owner != node then Acquired(keys, Ok(0))
      else if delayMs <= 0 then Acquired(keys - {name}, Ok(1))
      else Acquired(keys[name := Lease(node, nowMs + delayMs)], Ok(1))
  }

  /** The release script: the key goes only if this node owns it. */
  function Release(keys: Keys, name: string, node: string, nowMs: int): (r: (Keys, int))
    ensures Holder(keys, name, nowMs) == Some(node) ==> r == (keys - {name}, 1)
    ensures Holder(keys, name, nowMs) != Some(node) ==> r.0 == keys && r.1 == 0
  {
    if Holder(keys, name, nowMs) == Some(node) then (keys - {name}, 1) else (keys, 0)
  }

  /** While one node's lease runs, no other node acquires the lock, and the
      lease survives the attempt. */
  lemma MutualExclusion(keys: Keys, name: string, a: string, b: string, delayMs: int, t1: int, t2: int)
    requires a != b && delayMs > 0
    requires Acquire(keys, name, a, delayMs, t1).reply == Ok(1)
    requires t1 <= t2 < t1 + delayMs
    ensures var k1 := Acquire(keys, name, a, delayMs, t1).keys;
      && Acquire(k1, name, b, delayMs, t2) == Acquired(k1, Ok(0))
      && Holder(k1, name, t2) == Some(a)
  {
  }

  /** Once the owner releases, another node can acquire at once. */
  lemma ReleaseHandsOver(keys: Keys, name: string, a: string, b: string, delayMs: int, now: int)
    requires Holder(keys, name, now) == Some(a) && delayMs > 0
    ensures Acquire(Release(keys, name, a, now).0, name, b, delayMs, now).reply == Ok(1)
    ensures Holder(Acquire(Release(keys, name, a, now).0, name, b, delayMs, now).keys, name, now) == Some(b)
  {
  }

  /** A non-owner's release changes nothing. */
  lemma ReleaseByOtherIsNoOp(keys: Keys, name: string, a: string, b: string, now: int)
    requires Holder(keys, name, now) == Some(a) && a != b
    ensures Release(keys, name, b, now) == (keys, 0)
  {
  }

  // ---------------------------------------------------------- the ticker

  /** `int64(ExpirationDelay / time.Millisecond)`, truncating towards zero. */
  function DelayMs(l: Lock): int
  {
    var d := l.options.expirationDelay;
    if d >= 0 then d / Millisecond else -((-d) / Millisecond)
  }

  /** One ticker step, given the acquire script's reply: an error changes
      nothing; otherwise the master flag follows the reply and, when it
      changed, the new flag is offered to the master channel, where it is
      dropped if a notification is already waiting. Once the channel is
      closed, `Stop` has set the lock's channel to nil, and a send on a nil
      channel in a `select` with a default never happens. */
  function Tick(l: Lock, reply: Result<int, string>): (r: Lock)
    ensures reply.Err? ==> r == l
    ensures reply.Ok? ==> r.master == (reply.value == 1)
    ensures r.options == l.options && r.id == l.id
    ensures r.master == l.master ==> r.channel == l.channel
    ensures r.master != l.master && l.channel == OpenEmpty ==> r.channel == Channel(Some(r.master), false)
    ensures l.channel != OpenEmpty ==> r.channel == l.channel
  {
    match reply
    case Err(_) => l
    case Ok(ret) =>
      var master := ret == 1;
      var changed := master != l.master;
      var channel := if changed && l.channel == OpenEmpty then Channel(Some(master), false) else l.channel;
      l.(master := master, channel := channel)
  }

  /** A ticker step against the keyspace at `nowMs`. With a positive
      expiry the node is master afterwards exactly when the key was free or
      its own, and then exactly when it holds a lease renewed to the full
      expiry; otherwise the other owner's lease is untouched. */
  function TickAt(l: Lock, keys: Keys, nowMs: int): (r: (Lock, Keys))
    ensures r.0.options == l.options && r.0.id == l.id
    ensures DelayMs(l) > 0 ==>
      (IsMaster(r.0) <==> Holder(keys, l.options.name, nowMs).None? || Holder(keys, l.options.name, nowMs) == Some(l.id))
    ensures DelayMs(l) > 0 ==> (IsMaster(r.0) <==> Holder(r.1, l.options.name, nowMs) == Some(l.id))
    ensures DelayMs(l) > 0 && IsMaster(r.0) ==>
      l.options.name in r.1 && r.1[l.options.name].expiresAtMs == nowMs + DelayMs(l)
    ensures !IsMaster(r.0) ==> r.1 == keys
    ensures DelayMs(l) <= 0 && Holder(keys, l.options.name, nowMs).None? ==> r == (l, keys)
  {
    var a := Acquire(keys, l.options.name, l.id, DelayMs(l), nowMs);
    (Tick(l, a.reply), a.keys)
  }

  /** What a receive on the master channel yields: a notification, the
      end of a closed channel (the zero value `false` with `ok` false), or
      nothing yet (the receiver would wait). */
  datatype Received = Got(value: bool) | ClosedChannel | WouldBlock

  /** Receiving from the master channel: the pending notification first,
      even after the channel was closed. */
  function Receive(l: Lock): (r: (Lock, Received))
    ensures l.channel.pending.Some? ==>
      r == (l.(channel := l.channel.(pending := None)), Got(l.channel.pending.value))
    ensures l.channel.pending.None? && l.channel.closed ==> r == (l, ClosedChannel)
    ensures l.channel.pending.None? && !l.channel.closed ==> r == (l, WouldBlock)
  {
    match l.channel.pending
    case Some(v) => (l.(channel := l.channel.(pending := None)), Got(v))
    case None => (l, if l.channel.closed then ClosedChannel else WouldBlock)
  }

  /** Stops the lock: runs the release script, which frees the key if this
      node owns it, clears the master flag and closes the channel, which
      keeps its pending notification for the receiver. A failed `EVALSHA`
      (`releaseErr`) is only logged: the key stays until it expires. */
  function Stop(l: Lock, keys: Keys, nowMs: int, releaseErr: Option<string>): (r: (Lock, Keys))
    ensures !IsMaster(r.0) && r.0.channel == Channel(l.channel.pending, true)
    ensures r.0.options == l.options && r.0.id == l.id
    ensures releaseErr.None? ==> Holder(r.1, l.options.name, nowMs) != Some(l.id)
    ensures releaseErr.Some? || Holder(keys, l.options.name, nowMs) != Some(l.id) ==> r.1 == keys
  {
    var keys' := if releaseErr.Some? then keys else Release(keys, l.options.name, l.id, nowMs).0;
    (l.(master := false, channel := l.channel.(closed := true)), keys')
  }

  /** A notification still waiting when the lock stops is delivered, and
      only then does the receiver see the channel closed; later ticks offer
      nothing more. */
  lemma StopDrainsThenCloses(l: Lock, keys: Keys, nowMs: int, releaseErr: Option<string>, reply: Result<int, string>)
    requires l.channel.pending.Some?
    ensures var stopped := Stop(l, keys, nowMs, releaseErr).0;
      && Receive(stopped).1 == Got(l.channel.pending.value)
      && Receive(Receive(stopped).0).1 == ClosedChannel
      && Receive(Tick(Receive(stopped).0, reply)).1 == ClosedChannel
  {
  }

  /** A fresh lock ticking against a free key becomes master and says so on
      its channel; a second tick changes nothing. */
  lemma {:induction false} FirstTickElects(options: Options, host: string, uuid: string, keys: Keys, nowMs: int)
    requires options.name != ""
    requires Holder(keys, options.name, nowMs).None?
    requires options.expirationDelay >= Millisecond || options.expirationDelay == 0
    ensures New(options, Ok(host), uuid, None, None).Ok?
    ensures var l := New(options, Ok(host), uuid, None, None).value;
      var t := TickAt(l, keys, nowMs);
      && IsMaster(t.0) && t.0.channel == Channel(Some(true), false)
      && TickAt(t.0, t.1, nowMs).0 == t.0
  {
    var l := New(options, Ok(host), uuid, None, None).value;
    assert DelayMs(l) >= 1;
    var t := TickAt(l, keys, nowMs);
    assert Holder(t.1, options.name, nowMs) == Some(l.id);
  }

  /** Two nodes ticking on the same lock name are never both master from
      replies about one live lease. */
  lemma TwoNodesOneMaster(l1: Lock, l2: Lock, keys: Keys, t1: int, t2: int)
    requires l1.options.name == l2.options.name && l1.id != l2.id
    requires DelayMs(l1) > 0 && DelayMs(l2) > 0
    requires t1 <= t2 < t1 + DelayMs(l1)
    requires IsMaster(TickAt(l1, keys, t1).0)
    ensures !IsMaster(TickAt(l2, TickAt(l1, keys, t1).1, t2).0)
  {
    var a := Acquire(keys, l1.options.name, l1.id, DelayMs(l1), t1);
    assert a.reply == Ok(1);
  }
}

=== FILE: gitserver.dfy ===
/** The git smart-HTTP front door: route-segment syntax, the access decision
    for a repository request, the service and content-type checks, and the
    pkt-line framing of the service advertisement (section "pkt-line Format"
    of git's Documentation/technical/protocol-common.txt). Running git itself
    and the repository directories are not modelled. */
module GitServer {

  import opened Wrappers
  import opened Strings
  import opened GoTime
  import opened HttpCookie
  import UserStore
  import RpcClient
  import AdminClient
  import AdminSession

  // ------------------------------------------------------------ route syntax

  predicate IsAsciiLetter(c: char) { 'a' <= c <= 'z' || 'A' <= c <= 'Z' }

  /** A character of the tail of an id: letter, digit, '.', '-' or '_'. */
  predicate IsIdChar(c: char) { IsAsciiLetter(c) || IsDigit(c) || c == '.' || c == '-' || c == '_' }

  /** A whole path segment matching `[a-zA-Z][a-zA-Z0-9.\-_]+`. */
  predicate ValidIdString(s: string)
  {
    |s| >= 2 && IsAsciiLetter(s[0]) && forall i :: 1 <= i < |s| ==> IsIdChar(s[i])
  }

  /** A valid segment is at least two characters long, starts with a letter
      and contains no '/'; a repository segment may carry the ".git" suffix. */
  lemma ValidIdShape(s: string)
    requires ValidIdString(s)
    ensures |s| >= 2 && !IsDigit(s[0]) && s[0] != '.'
    ensures forall i :: 0 <= i < |s| ==> s[i] != '/'
  {
  }

  lemma ValidIdExamples()
    ensures ValidIdString("my-blog.git")
    ensures !ValidIdString("a")
    ensures !ValidIdString("1blog")
  {
  }

  // --------------------------------------------------------- repository name

  /** Drops one trailing ".git", if present. */
  function RemoveGitRepositorySuffix(repository: string): (r: string)
    ensures HasSuffix(repository, ".git") ==> r + ".git" == repository
    ensures !HasSuffix(repository, ".git") ==> r == repository
  {
    if HasSuffix(repository, ".git") then repository[..|repository| - 4] else repository
  }

  /** Adding the suffix and stripping it gives back the name; only one suffix goes. */
  lemma RemoveSuffixRoundTrip(name: string)
    ensures RemoveGitRepositorySuffix(name + ".git") == name
    ensures RemoveGitRepositorySuffix(name + ".git.git") == name + ".git"
  {
    assert HasSuffix(name + ".git", ".git");
    assert (name + ".git")[..|name|] == name;
    assert HasSuffix(name + ".git.git", ".git");
    assert (name + ".git.git")[..|name| + 4] == name + ".git";
  }

  /** Whether `blog` is one of `blogs`, by a linear scan. */
  method BlogExists(blogs: seq<string>, blog: string) returns (found: bool)
    ensures found <==> blog in blogs
  {
    var i := 0;
    while i < |blogs|
      invariant 0 <= i <= |blogs|
      invariant blog !in blogs[..i]
    {
      if blogs[i] == blog {
        return true;
      }
      i := i + 1;
    }
    assert blogs[..i] == blogs;
    return false;
  }

  // ------------------------------------------------------ session and access

  /** The caller's identity as the admin server reports it. */
  datatype UserSession = UserSession(username: string, blogs: seq<string>)

  /** Whether the request's cookie can be installed on a fresh admin client
      for `adminUrl`. */
  predicate Installs(adminUrl: Option<AdminClient.Url>, cookie: Cookie)
  {
    AdminClient.SetAuthCookie(AdminClient.NewClient(adminUrl), Some(cookie)).err.None?
  }

  /** A cookie installs exactly when it is named `auth`, the admin URL
      parses and the cookie's domain can be resolved against it. */
  lemma InstallsIff(adminUrl: Option<AdminClient.Url>, cookie: Cookie)
    ensures Installs(adminUrl, cookie) <==>
      cookie.name == AdminSession.AuthCookieName && adminUrl.Some? && AdminClient.DomainResolves(adminUrl.value, cookie)
  {
  }

  /** Resolves a git request's session through the admin server: no cookie
      means no session; otherwise the cookie is installed on an admin client
      and the `Users.Whoami` and `Blogs.List` replies decide. A session is
      resolved exactly when every step succeeds. */
  function UserSessionFromRequest(
    adminUrl: Option<AdminClient.Url>,
    cookie: Option<Cookie>,
    whoami: Result<UserStore.User, RpcClient.CallError>,
    blogs: Result<seq<UserStore.Blog>, RpcClient.CallError>): (r: Result<Option<UserSession>, string>)
    ensures cookie.None? ==> r == Ok(None)
    ensures r.Ok? && r.value.Some? ==>
      && cookie.Some? && whoami.Ok? && blogs.Ok?
      && r.value.value.username == whoami.value.username
      && |r.value.value.blogs| == |blogs.value|
      && forall i :: 0 <= i < |blogs.value| ==> r.value.value.blogs[i] == blogs.value[i].slug
    ensures cookie.Some? && (whoami.Err? || blogs.Err?) ==> r.Err?
    ensures cookie.Some? && !Installs(adminUrl, cookie.value) ==> r.Err?
    ensures r.Ok? && r.value.Some? <==> cookie.Some? && Installs(adminUrl, cookie.value) && whoami.Ok? && blogs.Ok?
  {
    match cookie
    case None => Ok(None)
    case Some(c) =>
      var installed := AdminClient.SetAuthCookie(AdminClient.NewClient(adminUrl), Some(c));
      if installed.err.Some? then Err("Error while setting auth cookie: " + installed.err.value)
      else match whoami
        case Err(e) => Err("Error while retrieving user information: " + RpcClient.Message(e))
        case Ok(me) =>
          match blogs
          case Err(e) => Err("Error while retrieving blog list: " + RpcClient.Message(e))
          case Ok(list) => Ok(Some(UserSession(me.username, seq(|list|, i requires 0 <= i < |list| => list[i].slug))))
  }

  /** A request carrying an installable cookie of a user who owns blog `b`
      passes the access check for that user's repository `b.git`, and is
      refused with 401 for any other user's URL. */
  lemma OwnerReachesOwnRepository(
    adminUrl: Option<AdminClient.Url>, cookie: Cookie, me: UserStore.User,
    list: seq<UserStore.Blog>, k: nat, other: string)
    requires adminUrl.Some? && cookie.name == AdminSession.AuthCookieName
    requires AdminClient.DomainResolves(adminUrl.value, cookie) && k < |list|
    requires other != me.username
    ensures var session := UserSessionFromRequest(adminUrl, Some(cookie), Ok(me), Ok(list));
      && WithValidRepository(me.username, list[k].slug + ".git", session) == Pass
      && WithValidRepository(other, list[k].slug + ".git", session) == Deny(401)
  {
  }

  /** What the access check does with a request: answer it, or pass it on. */
  datatype Access = Deny(status: int) | Pass

  /** The access decision for `/{username}/{repository}`: 500 when the
      session could not be resolved, 401 without a session or for another
      user's URL, 404 when the repository (without ".git") is not one of
      the user's blogs. */
  function WithValidRepository(username: string, repository: string, session: Result<Option<UserSession>, string>): (a: Access)
    ensures a == Deny(500) <==> session.Err?
    ensures a == Deny(401) <==> session.Ok? && (session.value.None? || session.value.value.username != username)
    ensures a == Deny(404) <==>
      session.Ok? && session.value.Some? && session.value.value.username == username
      && RemoveGitRepositorySuffix(repository) !in session.value.value.blogs
    ensures a == Pass <==>
      session.Ok? && session.value.Some? && session.value.value.username == username
      && RemoveGitRepositorySuffix(repository) in session.value.value.blogs
  {
    match session
    case Err(_) => Deny(500)
    case Ok(None) => Deny(401)
    case Ok(Some(s)) =>
      if s.username != username then Deny(401)
      else if RemoveGitRepositorySuffix(repository) !in s.blogs then Deny(404)
      else Pass
  }

  // -------------------------------------------------------------- pkt-line

  /** Go's conversion to `int16`: wraps modulo 2^16 into [-32768, 32767]. */
  function Int16(x: int): (r: int)
    ensures -32768 <= r <= 32767
    ensures (r - x) % 65536 == 0
  {
    (x + 32768) % 65536 - 32768
  }

  /** `fmt`'s "%04x" of a signed integer: zero-padded to width 4, the sign
      counting towards the width. */
  function FormatHex04(v: int): string
  {
    if v >= 0 then PadLeft(NatToHex(v), 4, '0') else "-" + PadLeft(NatToHex(-v), 3, '0')
  }

  /** `writeGitPacket` as written: the length goes through `int16`, so a
      packet longer than 32767 bytes gets a negative, five-character header.
      Payloads over 65531 bytes make it panic. */
  function WriteGitPacketAsWritten(s: string): string
    requires |s| <= 65535 - 4
  {
    FormatHex04(Int16(|s| + 4)) + s
  }

  /** A 32764-byte payload (length field 32768) gets the header "-8000",
      which no pkt-line reader accepts. */
  lemma PacketHeaderWraps(s: string)
    requires |s| == 32764
    ensures WriteGitPacketAsWritten(s)[..5] == "-8000"
    ensures ReadPacket(WriteGitPacketAsWritten(s)).None?
  {
    assert Int16(|s| + 4) == -32768;
    assert NatToHex(32768) == "8000" by {
      assert NatToHex(8) == "8";
      assert NatToHex(128) == "80";
      assert NatToHex(2048) == "800";
    }
    var w := WriteGitPacketAsWritten(s);
    assert w == "-8000" + s;
    assert !IsHexDigit(w[0]);
  }

  /** `writeGitPacket` as evidently intended: four lower-case hex digits
      giving the payload length plus four, then the payload. */
  function WriteGitPacket(s: string): (r: string)
    requires |s| <= 65535 - 4
    ensures |r| == |s| + 4 && r[4..] == s
    ensures AllHex(r[..4]) && HexNumber(r[..4]) == |s| + 4
  {
    var n := |s| + 4;
    NatToHexLength(n, 4);
    var h := NatToHex(n);
    HexRoundTrip(n);
    HexNumberLeadingZeros(4 - |h|, h);
    assert PadLeft(h, 4, '0') == seq(4 - |h|, _ => '0') + h;
    PadLeft(h, 4, '0') + s
  }

  /** Up to a length field of 32767 the two writers agree, so the
      advertisement header of `info/refs` is unaffected. */
  lemma WritersAgreeOnShortPackets(s: string)
    requires |s| + 4 <= 32767
    ensures WriteGitPacketAsWritten(s) == WriteGitPacket(s)
  {
  }

  /** One pkt-line read from the front of `data`. */
  datatype Packet = Flush | Data(payload: string)

  datatype Read = Read(packet: Packet, rest: string)

  /** Reads one pkt-line: four hex digits giving the total length, "0000"
      being a flush packet; lengths 1 to 3 and truncated packets are refused. */
  function ReadPacket(data: string): Option<Read>
  {
    if |data| < 4 || !AllHex(data[..4]) then None
    else
      var n := HexNumber(data[..4]);
      if n == 0 then Some(Read(Flush, data[4..]))
      else if n < 4 || n > |data| then None
      else Some(Read(Data(data[4..n]), data[n..]))
  }

  /** Reading back a written packet gives its payload and leaves what follows. */
  lemma PacketRoundTrip(s: string, rest: string)
    requires |s| <= 65535 - 4
    ensures ReadPacket(WriteGitPacket(s) + rest) == Some(Read(Data(s), rest))
  {
    var w := WriteGitPacket(s);
    var d := w + rest;
    assert d[..4] == w[..4];
    assert d[4..|s| + 4] == s;
    assert d[|s| + 4..] == rest;
  }

  // ------------------------------------------------------ service endpoints

  /** The answer of `info/refs` before git runs: 400 for an unknown service,
      otherwise the advertisement content type and the body's first bytes. */
  datatype Advertisement = BadService | Advertise(service: string, contentType: string, bodyStart: string)

  function InfoRefs(serviceParam: string): (r: Advertisement)
    ensures r.Advertise? <==> serviceParam == "git-upload-pack" || serviceParam == "git-receive-pack"
    ensures r.Advertise? ==> "git-" + r.service == serviceParam
    ensures r.Advertise? ==> r.contentType == "application/x-git-" + r.service + "-advertisement"
    ensures r.Advertise? ==>
      ReadPacket(r.bodyStart) == Some(Read(Data("# service=" + serviceParam + "\n"), "0000"))
  {
    if serviceParam != "git-upload-pack" && serviceParam != "git-receive-pack" then BadService
    else
      var service := if serviceParam == "git-upload-pack" then "upload-pack" else "receive-pack";
      assert "git-" + service == serviceParam;
      var line := "# service=git-" + service + "\n";
      assert line == "# service=" + serviceParam + "\n";
      PacketRoundTrip(line, "0000");
      Advertise(service, "application/x-git-" + service + "-advertisement", WriteGitPacket(line) + "0000")
  }

  /** Whether one of the request's `Accept` values is exactly `format`. */
  method ClientAccepts(accept: seq<string>, format: string) returns (ok: bool)
    ensures ok <==> format in accept
  {
    var i := 0;
    while i < |accept|
      invariant 0 <= i <= |accept|
      invariant format !in accept[..i]
    {
      if format == accept[i] {
        return true;
      }
      i := i + 1;
    }
    assert accept[..i] == accept;
    return false;
  }

  /** The job a successful push posts to the render queue. The auth cookie
      field is left empty by the git server. */
  datatype RenderJob = RenderJob(username: string, authCookie: string, repository: string)

  /** The time-to-run a render job is posted with. */
  const RenderJobTtr: Duration := 10 * Minute

  /** A job posted to the queue, with its time-to-run. */
  datatype PostedJob = PostedJob(job: RenderJob, ttr: Duration)

  /** The status answered and the job posted, if any. Whether the queue
      accepted the job does not change the status. */
  datatype ServiceOutcome = ServiceOutcome(status: int, job: Option<PostedJob>)

  /** A `git-upload-pack` or `git-receive-pack` call, after the access check.
      The formats are checked first (400); a push then makes sure the
      repository exists (500 otherwise); git runs (500 if it fails); only a
      push that succeeded posts a render job. `ensured` and `ran` are the
      outcomes of the repository set-up and of the git process. */
  method ServeGitService(
    service: string, username: string, repository: string,
    contentType: string, accept: seq<string>, ensured: bool, ran: bool) returns (r: ServiceOutcome)
    ensures r.status == 400 <==>
      contentType != "application/x-git-" + service + "-request" || "application/x-git-" + service + "-result" !in accept
    ensures r.job.Some? <==> r.status == 200 && service == "receive-pack"
    ensures r.job.Some? ==> r.job.value.job == RenderJob(username, "", RemoveGitRepositorySuffix(repository))
    ensures r.job.Some? ==> r.job.value.ttr == 600 * Second
    ensures r.status == 200 <==>
      && contentType == "application/x-git-" + service + "-request"
      && "application/x-git-" + service + "-result" in accept
      && ran && (service == "receive-pack" ==> ensured)
    ensures r.status in {200, 400, 500}
  {
    var accepts := ClientAccepts(accept, "application/x-git-" + service + "-result");
    if contentType != "application/x-git-" + service + "-request" || !accepts {
      return ServiceOutcome(400, None);
    }
    var isPush := service == "receive-pack";
    if isPush && !ensured {
      return ServiceOutcome(500, None);
    }
    if !ran {
      return ServiceOutcome(500, None);
    }
    if isPush {
      return ServiceOutcome(200, Some(PostedJob(RenderJob(username, "", RemoveGitRepositorySuffix(repository)), RenderJobTtr)));
    }
    return ServiceOutcome(200, None);
  }

  /** A well-formed push to `slug.git` that git completes answers 200 and
      posts a render job for `slug`, the name the access check looked up
      among the user's blogs; a fetch answers 200 and posts nothing. */
  method PushPostsRenderJob(username: string, slug: string) returns (push: ServiceOutcome, fetch: ServiceOutcome)
    ensures push.status == 200 && push.job.Some?
    ensures push.job.value.job.username == username && push.job.value.job.repository == slug
    ensures fetch.status == 200 && fetch.job.None?
  {
    RemoveSuffixRoundTrip(slug);
    assert "application/x-git-" + "receive-pack" + "-request" == "application/x-git-receive-pack-request";
    assert "application/x-git-" + "receive-pack" + "-result" == "application/x-git-receive-pack-result";
    assert "application/x-git-" + "upload-pack" + "-request" == "application/x-git-upload-pack-request";
    assert "application/x-git-" + "upload-pack" + "-result" == "application/x-git-upload-pack-result";
    push := ServeGitService("receive-pack", username, slug + ".git",
      "application/x-git-receive-pack-request", ["application/x-git-receive-pack-result"], true, true);
    fetch := ServeGitService("upload-pack", username, slug + ".git",
      "application/x-git-upload-pack-request", ["application/x-git-upload-pack-result"], false, true);
  }
}

=== FILE: gotime.dfy ===
/** Go's `time.Time` and `time.Duration`, reduced to integers of nanoseconds.
    Monotonic clock readings and time zones are not modelled. */
module GoTime {

  /** An instant, in nanoseconds since the Unix epoch. */
  type Instant = int

  /** A `time.Duration`, in nanoseconds. */
  type Duration = int

  const Microsecond: Duration := 1000
  const Millisecond: Duration := 1000 * Microsecond
  const Second: Duration := 1000 * Millisecond
  const Minute: Duration := 60 * Second
  const Hour: Duration := 60 * Minute

  /** The zero `time.Time`, January 1 of year 1 UTC, 62135596800 seconds before the epoch. */
  const ZeroTime: Instant := -62135596800 * Second

  /** `time.Unix(0, 0)`. */
  const UnixEpoch: Instant := 0

  predicate IsZero(t: Instant) { t == ZeroTime }

  /** `t.After(u)`. */
  predicate After(t: Instant, u: Instant) { t > u }

  /** `t.Unix()`: whole seconds since the epoch, rounded towards the past. */
  function Unix(t: Instant): (secs: int)
    ensures secs * Second <= t < (secs + 1) * Second
  {
    t / Second
  }
}

=== FILE: httpcookie.dfy ===
/** The fields of Go's `http.Cookie` that the modelled code reads or writes. */
module HttpCookie {

  import opened GoTime

  datatype Cookie = Cookie(
    name: string,
    value: string,
    path: string,
    domain: string,
    expires: Instant,
    secure: bool,
    httpOnly: bool)

  /** `http.Cookie{}`: every field at its zero value. */
  const EmptyCookie: Cookie := Cookie("", "", "", "", ZeroTime, false, false)
}

=== FILE: idgenerator.dfy ===
/** A counter that hands out decimal string identifiers "1", "2", ...
    The counter is a 64-bit unsigned integer that wraps around. */
module IdGenerator {

  import opened Strings

  const Uint64Modulus: nat := 0x1_0000_0000_0000_0000

  /** The generator's state: the last identifier handed out (0 initially). */
  datatype Generator = Generator(lastId: nat)
  {
    ghost predicate Valid() { lastId < Uint64Modulus }
  }

  /** The zero-value generator. */
  const Zero: Generator := Generator(0)

  datatype Issued = Issued(gen: Generator, id: string)

  /** Increments the counter (modulo 2^64) and renders the new value in decimal. */
  function Next(g: Generator): (r: Issued)
    requires g.Valid()
    ensures r.gen.Valid()
    ensures g.lastId + 1 < Uint64Modulus ==> r.gen.lastId == g.lastId + 1
    ensures g.lastId + 1 == Uint64Modulus ==> r.gen.lastId == 0
    ensures AllDigits(r.id) && |r.id| >= 1 && (r.id[0] != '0' || r.id == "0")
    ensures DecimalValue(r.id) == r.gen.lastId
  {
    var n := (g.lastId + 1) % Uint64Modulus;
    DecimalRoundTrip(n);
    Issued(Generator(n), NatToDecimal(n))
  }

  /** The first identifier of a fresh generator is "1". */
  lemma FirstIsOne()
    ensures Next(Zero).id == "1"
  {
  }

  /** The identifiers issued by `k` successive calls on `g`: the i-th
      denotes `lastId + i + 1` modulo 2^64. */
  function Issue(g: Generator, k: nat): (ids: seq<string>)
    requires g.Valid()
    ensures |ids| == k
    ensures forall i :: 0 <= i < k ==> AllDigits(ids[i]) && DecimalValue(ids[i]) == (g.lastId + i + 1) % Uint64Modulus
    decreases k
  {
    if k == 0 then []
    else
      var next := Next(g);
      var rest := Issue(next.gen, k - 1);
      var ids := [next.id] + rest;
      assert forall i :: 0 <= i < k ==> AllDigits(ids[i]) && DecimalValue(ids[i]) == (g.lastId + i + 1) % Uint64Modulus by {
        forall i | 0 <= i < k
          ensures AllDigits(ids[i]) && DecimalValue(ids[i]) == (g.lastId + i + 1) % Uint64Modulus
        {
          if i > 0 {
            assert ids[i] == rest[i - 1];
            if g.lastId + 1 == Uint64Modulus {
              assert (g.lastId + i + 1) % Uint64Modulus == (i - 1 + 1) % Uint64Modulus;
            }
          }
        }
      }
      ids
  }

  /** Before the counter wraps, successive identifiers strictly increase and
      never repeat. */
  lemma IssueIncreasing(g: Generator, k: nat)
    requires g.Valid()
    requires g.lastId + k < Uint64Modulus
    ensures forall i :: 0 <= i < k ==> DecimalValue(Issue(g, k)[i]) == g.lastId + i + 1
    ensures forall i, j :: 0 <= i < j < k ==> Issue(g, k)[i] != Issue(g, k)[j]
  {
  }
}

=== FILE: loadable.dfy ===
/** The admin UI's four-state wrapper around data fetched from the server. */
module Loadable {

  import opened Wrappers

  /** The state tag of a value. */
  datatype Tag = UninitializedTag | LoadingTag | LoadedTag | ErrorTag

  /** Not asked for yet, being fetched, fetched, or failed with a message. */
  datatype Data<T> = Uninitialized | Loading | Loaded(data: T) | Error(error: string)

  function StateOf<T>(d: Data<T>): Tag
  {
    match d
    case Uninitialized => UninitializedTag
    case Loading => LoadingTag
    case Loaded(_) => LoadedTag
    case Error(_) => ErrorTag
  }

  /** The payload, present only in the loaded state. */
  function DataOf<T>(d: Data<T>): Option<T>
  {
    if d.Loaded? then Some(d.data) else None
  }

  /** The message, present only in the error state. */
  function ErrorOf<T>(d: Data<T>): Option<string>
  {
    if d.Error? then Some(d.error) else None
  }

  /** `uninitialized`: the tag and nothing else. */
  function MakeUninitialized<T>(): (d: Data<T>)
    ensures StateOf(d) == UninitializedTag && DataOf(d).None? && ErrorOf(d).None?
  {
    Uninitialized
  }

  /** `loading`: the tag and nothing else. */
  function MakeLoading<T>(): (d: Data<T>)
    ensures StateOf(d) == LoadingTag && DataOf(d).None? && ErrorOf(d).None?
  {
    Loading
  }

  /** `loaded(data)`: carries the data unchanged. */
  function MakeLoaded<T>(data: T): (d: Data<T>)
    ensures StateOf(d) == LoadedTag && DataOf(d) == Some(data) && ErrorOf(d).None?
  {
    Loaded(data)
  }

  /** `error(err)`: carries the message unchanged. */
  function MakeError<T>(err: string): (d: Data<T>)
    ensures StateOf(d) == ErrorTag && ErrorOf(d) == Some(err) && DataOf(d).None?
  {
    Error(err)
  }

  /** Every value is exactly one of the four, only a loaded value has data,
      only an error has a message, and the tag with its payload rebuilds it. */
  lemma Classification<T>(d: Data<T>)
    ensures DataOf(d).Some? <==> StateOf(d) == LoadedTag
    ensures ErrorOf(d).Some? <==> StateOf(d) == ErrorTag
    ensures StateOf(d) == UninitializedTag ==> d == MakeUninitialized()
    ensures StateOf(d) == LoadingTag ==> d == MakeLoading()
    ensures StateOf(d) == LoadedTag ==> d == MakeLoaded(DataOf(d).value)
    ensures StateOf(d) == ErrorTag ==> d == MakeError(ErrorOf(d).value)
  {
  }
}

=== FILE: memoryuserstore.dfy ===
/** The in-memory account store: a map from user name to the user's record and
    the user's blogs, keyed by slug. It is the reference semantics of every
    account and blog operation of the admin server. */
module MemoryUserStore {

  import opened Wrappers
  import opened UserStore

  datatype Record = Record(user: User, blogs: map<string, Blog>)

  type Users = map<string, Record>

  /** A store operation's effect: the new map and the error it reports, if any. */
  datatype Step = Step(users: Users, err: Option<StoreError>)

  const Empty: Users := map[]

  /** Every record sits under its own non-empty user name and every blog under
      its own non-empty slug. */
  ghost predicate Valid(s: Users)
  {
    forall u :: u in s ==>
      && u != ""
      && s[u].user.username == u
      && forall b :: b in s[u].blogs ==> b != "" && s[u].blogs[b].slug == b
  }

  lemma EmptyIsValid()
    ensures Valid(Empty)
  {
  }

  /** Adds a user with no blogs. The password is required; the map is left
      alone on every error. */
  function CreateUser(s: Users, user: User): (r: Step)
    ensures r.err.None? <==> ValidateUser(user, false).None? && user.username !in s
    ensures ValidateUser(user, false).Some? ==> r.err == ValidateUser(user, false)
    ensures ValidateUser(user, false).None? && user.username in s ==> r.err == Some(AlreadyExists)
    ensures r.err.Some? ==> r.users == s
    ensures r.err.None? ==> r.users == s[user.username := Record(user, map[])]
    ensures Valid(s) ==> Valid(r.users)
  {
    match ValidateUser(user, false)
    case Some(e) => Step(s, Some(e))
    case None =>
      if user.username in s then Step(s, Some(AlreadyExists))
      else Step(s[user.username := Record(user, map[])], None)
  }

  /** Replaces the whole user record, password included (an empty one too),
      and keeps the user's blogs. */
  function UpdateUser(s: Users, user: User): (r: Step)
    ensures user.username == "" ==> r == Step(s, Some(UsernameEmpty))
    ensures user.username != "" && user.username !in s ==> r == Step(s, Some(DoesNotExist))
    ensures user.username != "" && user.username in s ==>
      && r.err.None?
      && user.username in r.users
      && r.users[user.username].user == user
      && r.users[user.username].blogs == s[user.username].blogs
      && r.users.Keys == s.Keys
      && forall u :: u in s && u != user.username ==> r.users[u] == s[u]
    ensures Valid(s) ==> Valid(r.users)
  {
    match ValidateUser(user, true)
    case Some(e) => Step(s, Some(e))
    case None =>
      if user.username !in s then Step(s, Some(DoesNotExist))
      else Step(s[user.username := s[user.username].(user := user)], None)
  }

  /** The stored record with its password blanked, or nothing for an unknown name. */
  function GetUser(s: Users, username: string): (r: Option<User>)
    ensures r.Some? <==> username in s
    ensures r.Some? ==> r.value.password == ""
    ensures r.Some? ==> r.value.displayName == s[username].user.displayName
    ensures r.Some? && Valid(s) ==> r.value.username == username
  {
    if username in s then Some(s[username].user.(password := "")) else None
  }

  /** True exactly when the user exists and the stored password is the one given. */
  function AuthenticateUser(s: Users, username: string, password: string): (ok: bool)
    ensures ok <==> username in s && s[username].user.password == password
  {
    username in s && s[username].user.password == password
  }

  /** Removes a user and the user's blogs. */
  function DeleteUser(s: Users, username: string): (r: Step)
    ensures username !in s ==> r == Step(s, Some(DoesNotExist))
    ensures username in s ==> r.err.None? && r.users.Keys == s.Keys - {username}
    ensures forall u :: u in r.users ==> u in s && r.users[u] == s[u]
    ensures Valid(s) ==> Valid(r.users)
  {
    if username !in s then Step(s, Some(DoesNotExist))
    else Step(s - {username}, None)
  }

  /** Adds a blog to a user; the slug is checked first, then the user, then
      that the slug is free. */
  function AddBlog(s: Users, username: string, blog: Blog): (r: Step)
    ensures blog.slug == "" ==> r == Step(s, Some(BlogSlugEmpty))
    ensures blog.slug != "" && username !in s ==> r == Step(s, Some(DoesNotExist))
    ensures blog.slug != "" && username in s && blog.slug in s[username].blogs ==>
      r == Step(s, Some(BlogAlreadyExists))
    ensures r.err.None? <==> blog.slug != "" && username in s && blog.slug !in s[username].blogs
    ensures r.err.None? ==> r.users == s[username := s[username].(blogs := s[username].blogs[blog.slug := blog])]
    ensures Valid(s) ==> Valid(r.users)
  {
    match ValidateBlog(blog)
    case Some(e) => Step(s, Some(e))
    case None =>
      if username !in s then Step(s, Some(DoesNotExist))
      else if blog.slug in s[username].blogs then Step(s, Some(BlogAlreadyExists))
      else Step(s[username := s[username].(blogs := s[username].blogs[blog.slug := blog])], None)
  }

  /** Replaces an existing blog; the slug is checked first, then the user,
      then that the blog exists. */
  function UpdateBlog(s: Users, username: string, blog: Blog): (r: Step)
    ensures blog.slug == "" ==> r == Step(s, Some(BlogSlugEmpty))
    ensures blog.slug != "" && username !in s ==> r == Step(s, Some(DoesNotExist))
    ensures blog.slug != "" && username in s && blog.slug !in s[username].blogs ==>
      r == Step(s, Some(BlogDoesNotExist))
    ensures r.err.None? <==> blog.slug != "" && username in s && blog.slug in s[username].blogs
    ensures r.err.None? ==> r.users == s[username := s[username].(blogs := s[username].blogs[blog.slug := blog])]
    ensures Valid(s) ==> Valid(r.users)
  {
    match ValidateBlog(blog)
    case Some(e) => Step(s, Some(e))
    case None =>
      if username !in s then Step(s, Some(DoesNotExist))
      else if blog.slug !in s[username].blogs then Step(s, Some(BlogDoesNotExist))
      else Step(s[username := s[username].(blogs := s[username].blogs[blog.slug := blog])], None)
  }

  /** A user's blog: an error for an unknown user, but nothing (and no error)
      for an unknown slug. */
  function GetBlog(s: Users, username: string, slug: string): (r: Result<Option<Blog>, StoreError>)
    ensures r == Err(DoesNotExist) <==> username !in s
    ensures r.Ok? ==> (r.value.Some? <==> slug in s[username].blogs)
    ensures r.Ok? && r.value.Some? ==> r.value.value == s[username].blogs[slug]
  {
    if username !in s then Err(DoesNotExist)
    else if slug in s[username].blogs then Ok(Some(s[username].blogs[slug]))
    else Ok(None)
  }

  /** Every blog of a user, one per slug, in the unspecified order of Go's map
      iteration (any order may be chosen). */
  method ListBlogs(s: Users, username: string) returns (r: Result<seq<Blog>, StoreError>)
    ensures r == Err(DoesNotExist) <==> username !in s
    ensures r.Ok? <==> username in s
    ensures r.Ok? ==> |r.value| == |s[username].blogs|
    ensures r.Ok? ==> forall b :: b in r.value <==> b in s[username].blogs.Values
    ensures r.Ok? && Valid(s) ==> forall i, j :: 0 <= i < j < |r.value| ==> r.value[i].slug != r.value[j].slug
  {
    if username !in s {
      return Err(DoesNotExist);
    }
    var blogs := s[username].blogs;
    var remaining := blogs.Keys;
    var out: seq<Blog> := [];
    while remaining != {}
      invariant remaining <= blogs.Keys
      invariant |out| + |remaining| == |blogs|
      invariant forall b :: b in out ==> b in blogs.Values
      invariant forall k :: k in blogs && k !in remaining ==> blogs[k] in out
      invariant forall i :: 0 <= i < |out| ==> exists k :: k in blogs && k !in remaining && blogs[k] == out[i]
      invariant Valid(s) ==> forall i :: 0 <= i < |out| ==> out[i].slug in blogs && out[i].slug !in remaining
      invariant Valid(s) ==> forall i, j :: 0 <= i < j < |out| ==> out[i].slug != out[j].slug
      decreases |remaining|
    {
      var k :| k in remaining;
      if Valid(s) {
        assert blogs[k].slug == k;
      }
      out := out + [blogs[k]];
      remaining := remaining - {k};
    }
    assert |blogs.Keys| == |blogs|;
    return Ok(out);
  }

  /** Removes one blog of one user; every other blog and user is untouched. */
  function DeleteBlog(s: Users, username: string, slug: string): (r: Step)
    ensures username !in s ==> r == Step(s, Some(DoesNotExist))
    ensures username in s && slug !in s[username].blogs ==> r == Step(s, Some(BlogDoesNotExist))
    ensures r.err.None? <==> username in s && slug in s[username].blogs
    ensures r.err.None? ==>
      && r.users.Keys == s.Keys
      && r.users[username].user == s[username].user
      && r.users[username].blogs.Keys == s[username].blogs.Keys - {slug}
      && (forall b :: b in r.users[username].blogs ==> r.users[username].blogs[b] == s[username].blogs[b])
      && (forall u :: u in s && u != username ==> r.users[u] == s[u])
    ensures Valid(s) ==> Valid(r.users)
  {
    if username !in s then Step(s, Some(DoesNotExist))
    else if slug !in s[username].blogs then Step(s, Some(BlogDoesNotExist))
    else Step(s[username := s[username].(blogs := s[username].blogs - {slug})], None)
  }

  // ------------------------------------------------------------ properties

  /** A freshly created user reads back without password and with no blogs. */
  lemma CreateThenGet(s: Users, user: User)
    requires Valid(s)
    requires CreateUser(s, user).err.None?
    ensures GetUser(CreateUser(s, user).users, user.username) == Some(user.(password := ""))
    ensures GetBlog(CreateUser(s, user).users, user.username, user.username) == Ok(None)
    ensures CreateUser(CreateUser(s, user).users, user).err == Some(AlreadyExists)
  {
  }

  /** After a successful delete the user is gone and a second delete fails. */
  lemma DeleteUserThenGet(s: Users, username: string)
    requires DeleteUser(s, username).err.None?
    ensures GetUser(DeleteUser(s, username).users, username).None?
    ensures DeleteUser(DeleteUser(s, username).users, username).err == Some(DoesNotExist)
    ensures !AuthenticateUser(DeleteUser(s, username).users, username, "")
  {
  }

  /** A password change takes effect: the new password authenticates and a
      different old one no longer does. */
  lemma UpdatePasswordTakesEffect(s: Users, user: User, previous: string)
    requires UpdateUser(s, user).err.None?
    requires previous != user.password
    ensures AuthenticateUser(UpdateUser(s, user).users, user.username, user.password)
    ensures !AuthenticateUser(UpdateUser(s, user).users, user.username, previous)
  {
  }

  /** Adding a blog and deleting it again gives back the original store. */
  lemma AddThenDeleteBlog(s: Users, username: string, blog: Blog)
    requires AddBlog(s, username, blog).err.None?
    ensures DeleteBlog(AddBlog(s, username, blog).users, username, blog.slug) == Step(s, None)
  {
    var s1 := AddBlog(s, username, blog).users;
    var s2 := DeleteBlog(s1, username, blog.slug).users;
    assert s2[username].blogs == s[username].blogs;
    assert s2[username] == s[username];
    assert s2 == s;
  }

  /** A deleted blog is gone and a second delete reports it missing. */
  lemma DeleteBlogTwice(s: Users, username: string, slug: string)
    requires DeleteBlog(s, username, slug).err.None?
    ensures GetBlog(DeleteBlog(s, username, slug).users, username, slug) == Ok(None)
    ensures DeleteBlog(DeleteBlog(s, username, slug).users, username, slug).err == Some(BlogDoesNotExist)
  {
  }
}

=== FILE: memoryworkqueue.dfy ===
/** The in-process job queue: a bounded FIFO of pending entries and a map of
    reserved entries with the instant each was picked. The groom ticker and
    the locking become explicit steps taking the current instant. */
module MemoryWorkQueue {

  import opened Wrappers
  import opened GoTime
  import opened WorkQueue
  import IdGenerator

  /** Capacity of the pending channel. */
  const MaxPendingJobs: nat := 1000

  datatype Reservation<D> = Reservation(entry: JobEntry<D>, started: Instant)

  datatype MemoryQueue<D> = MemoryQueue(
    gen: IdGenerator.Generator,
    pending: seq<JobEntry<D>>,
    reserved: map<string, Reservation<D>>)

  /** The generator stays in range and each reservation is filed under its
      entry's identifier. */
  ghost predicate Filed<D>(q: MemoryQueue<D>)
  {
    && q.gen.Valid()
    && forall id :: id in q.reserved ==> q.reserved[id].entry.id == id
  }

  /** Filed, and the channel within its capacity. */
  ghost predicate Valid<D>(q: MemoryQueue<D>)
  {
    Filed(q) && |q.pending| <= MaxPendingJobs
  }

  function New<D>(): (q: MemoryQueue<D>)
    ensures Valid(q) && q.pending == [] && q.reserved == map[]
  {
    MemoryQueue(IdGenerator.Zero, [], map[])
  }

  datatype Posted<D> = Posted(queue: MemoryQueue<D>, err: Option<QueueError>)

  /** Posts a job: a fresh identifier is drawn first, then the entry joins the
      back of the pending queue unless the queue already holds
      `MaxPendingJobs` entries. */
  function Post<D>(q: MemoryQueue<D>, job: D, ttr: Duration): (r: Posted<D>)
    requires Filed(q)
    ensures Filed(r.queue)
    ensures Valid(q) ==> Valid(r.queue)
    ensures r.queue.gen == IdGenerator.Next(q.gen).gen && r.queue.reserved == q.reserved
    ensures r.err == Some(QueueFull) <==> |q.pending| >= MaxPendingJobs
    ensures r.err.Some? ==> r.err == Some(QueueFull) && r.queue.pending == q.pending
    ensures r.err.None? ==> r.queue.pending == q.pending + [JobEntry(IdGenerator.Next(q.gen).id, ttr, job)]
  {
    var issued := IdGenerator.Next(q.gen);
    var entry := JobEntry(issued.id, ttr, job);
    if |q.pending| < MaxPendingJobs then Posted(q.(gen := issued.gen, pending := q.pending + [entry]), None)
    else Posted(q.(gen := issued.gen), Some(QueueFull))
  }

  datatype Picked<D> = Picked(queue: MemoryQueue<D>, entry: Option<JobEntry<D>>)

  /** Takes the oldest pending entry and reserves it as started at `now`;
      with nothing pending the wait times out and nothing is returned. */
  function Pick<D>(q: MemoryQueue<D>, now: Instant): (r: Picked<D>)
    requires Filed(q)
    ensures Filed(r.queue) && r.queue.gen == q.gen
    ensures Valid(q) ==> Valid(r.queue)
    ensures r.entry.None? <==> q.pending == []
    ensures r.entry.None? ==> r.queue == q
    ensures r.entry.Some? ==>
      && r.entry.value == q.pending[0]
      && r.queue.pending == q.pending[1..]
      && r.queue.reserved == q.reserved[r.entry.value.id := Reservation(r.entry.value, now)]
  {
    if q.pending == [] then Picked(q, None)
    else
      var entry := q.pending[0];
      Picked(q.(pending := q.pending[1..], reserved := q.reserved[entry.id := Reservation(entry, now)]), Some(entry))
  }

  /** Forgets the entry's reservation; always succeeds. */
  function Finish<D>(q: MemoryQueue<D>, entry: JobEntry<D>): (r: MemoryQueue<D>)
    requires Filed(q)
    ensures Filed(r)
    ensures Valid(q) ==> Valid(r)
    ensures entry.id !in r.reserved
    ensures r.gen == q.gen && r.pending == q.pending
    ensures forall id :: id in q.reserved && id != entry.id ==> id in r.reserved && r.reserved[id] == q.reserved[id]
    ensures forall id :: id in r.reserved ==> id in q.reserved
  {
    q.(reserved := q.reserved - {entry.id})
  }

  /** Finishing twice is finishing once. */
  lemma FinishIdempotent<D>(q: MemoryQueue<D>, entry: JobEntry<D>)
    requires Filed(q)
    ensures Finish(Finish(q, entry), entry) == Finish(q, entry)
  {
  }

  /** A reservation has outlived its time-to-run at `now`. */
  predicate Expired<D>(m: Reservation<D>, now: Instant)
  {
    After(now, m.started + m.entry.ttr)
  }

  /** The reservations that survive a groom at `now`. */
  function Surviving<D>(reserved: map<string, Reservation<D>>, now: Instant): map<string, Reservation<D>>
  {
    map id | id in reserved && !Expired(reserved[id], now) :: reserved[id]
  }

  /** What a groom at `now` may leave behind, `order` being the order in which
      the map iteration met the expired reservations: those are dropped and
      their entries appended to the pending queue in that order, and nothing
      else changes. The iteration order of a Go map is unspecified. */
  ghost predicate Groomed<D>(q: MemoryQueue<D>, now: Instant, r: MemoryQueue<D>, order: seq<string>)
  {
    && r.gen == q.gen
    && r.reserved == Surviving(q.reserved, now)
    && |r.pending| == |q.pending| + |order|
    && r.pending[..|q.pending|] == q.pending
    && (forall j :: 0 <= j < |order| ==>
          order[j] in q.reserved && Expired(q.reserved[order[j]], now)
          && r.pending[|q.pending| + j] == q.reserved[order[j]].entry)
    && (forall id :: id in q.reserved && Expired(q.reserved[id], now) ==> id in order)
    && (forall i, j :: 0 <= i < j < |order| ==> order[i] != order[j])
  }

  /** Puts every reservation that outlived its time-to-run back at the end of
      the pending queue. The wait for room in a full channel is not modelled:
      the pending queue may grow past its capacity here, and stays within it
      whenever the requeued entries fit. */
  method Groom<D>(q: MemoryQueue<D>, now: Instant) returns (r: MemoryQueue<D>, order: seq<string>)
    ensures Groomed(q, now, r, order)
    ensures Filed(q) ==> Filed(r)
    ensures Valid(q) && |q.pending| + |order| <= MaxPendingJobs ==> Valid(r)
    ensures |order| == |ExpiredIds(q.reserved, now)|
  {
    var keys := q.reserved.Keys;
    var reserved := q.reserved;
    var pending := q.pending;
    order := [];
    while keys != {}
      invariant keys <= q.reserved.Keys
      invariant reserved == map id | id in q.reserved && (id in keys || !Expired(q.reserved[id], now)) :: q.reserved[id]
      invariant |pending| == |q.pending| + |order| && pending[..|q.pending|] == q.pending
      invariant forall j :: 0 <= j < |order| ==>
        order[j] in q.reserved && order[j] !in keys && Expired(q.reserved[order[j]], now)
        && pending[|q.pending| + j] == q.reserved[order[j]].entry
      invariant forall id :: id in q.reserved && id !in keys && Expired(q.reserved[id], now) ==> id in order
      invariant forall i, j :: 0 <= i < j < |order| ==> order[i] != order[j]
      decreases |keys|
    {
      var id :| id in keys;
      if Expired(q.reserved[id], now) {
        reserved := reserved - {id};
        pending := pending + [q.reserved[id].entry];
        order := order + [id];
      }
      keys := keys - {id};
    }
    r := q.(reserved := reserved, pending := pending);
    GroomKeepsFiling(q, now, r, order);
    GroomCountsExpired(q, now, r, order);
  }

  /** The identifiers of the reservations expired at `now`. */
  function ExpiredIds<D>(reserved: map<string, Reservation<D>>, now: Instant): set<string>
  {
    set id | id in reserved && Expired(reserved[id], now)
  }

  /** A groom requeues each expired reservation exactly once. */
  lemma GroomCountsExpired<D>(q: MemoryQueue<D>, now: Instant, r: MemoryQueue<D>, order: seq<string>)
    requires Groomed(q, now, r, order)
    ensures |order| == |ExpiredIds(q.reserved, now)|
  {
    var ids := ExpiredIds(q.reserved, now);
    assert (set j | 0 <= j < |order| :: order[j]) == ids;
    DistinctCard(order);
  }

  /** A sequence without repeats has as many elements as its set. */
  lemma {:induction false} DistinctCard(s: seq<string>)
    requires forall i, j :: 0 <= i < j < |s| ==> s[i] != s[j]
    ensures |set j | 0 <= j < |s| :: s[j]| == |s|
    decreases |s|
  {
    if |s| > 0 {
      var last := |s| - 1;
      DistinctCard(s[..last]);
      assert (set j | 0 <= j < |s| :: s[j]) == (set j | 0 <= j < last :: s[..last][j]) + {s[last]};
      assert s[last] !in (set j | 0 <= j < last :: s[..last][j]);
    }
  }

  /** Grooming keeps the reservations filed under their identifiers, and
      what it requeues are entries of the expired reservations. */
  lemma GroomKeepsFiling<D>(q: MemoryQueue<D>, now: Instant, r: MemoryQueue<D>, order: seq<string>)
    requires Groomed(q, now, r, order)
    ensures Filed(q) ==> Filed(r)
    ensures Filed(q) ==> forall j :: |q.pending| <= j < |r.pending| ==> r.pending[j].id in order
  {
    if Filed(q) {
      forall j | |q.pending| <= j < |r.pending|
        ensures r.pending[j].id in order
      {
        var k := j - |q.pending|;
        assert r.pending[|q.pending| + k] == q.reserved[order[k]].entry;
      }
    }
  }

  /** A finished entry is not put back by a later groom. */
  lemma {:induction false} FinishedNotRequeued<D>(q: MemoryQueue<D>, entry: JobEntry<D>, now: Instant, r: MemoryQueue<D>, order: seq<string>)
    requires Filed(q)
    requires Groomed(Finish(q, entry), now, r, order)
    ensures entry.id !in r.reserved
    ensures forall j :: |q.pending| <= j < |r.pending| ==> r.pending[j].id != entry.id
  {
    var f := Finish(q, entry);
    forall j | |q.pending| <= j < |r.pending|
      ensures r.pending[j].id != entry.id
    {
      var k := j - |q.pending|;
      assert r.pending[|q.pending| + k] == f.reserved[order[k]].entry;
    }
  }

  /** A reservation within its time-to-run survives a groom untouched. */
  lemma FreshReservationSurvives<D>(q: MemoryQueue<D>, id: string, now: Instant, r: MemoryQueue<D>, order: seq<string>)
    requires Groomed(q, now, r, order)
    requires id in q.reserved && q.reserved[id].started + q.reserved[id].entry.ttr >= now
    ensures id in r.reserved && r.reserved[id] == q.reserved[id]
    ensures id !in order
  {
  }

  /** A job posted to an empty queue is the next one picked, with its data
      and time-to-run. */
  lemma PostThenPick<D>(q: MemoryQueue<D>, job: D, ttr: Duration, now: Instant)
    requires Valid(q) && q.pending == []
    ensures Post(q, job, ttr).err.None?
    ensures Pick(Post(q, job, ttr).queue, now).entry.Some?
    ensures Pick(Post(q, job, ttr).queue, now).entry.value.data == job
    ensures Pick(Post(q, job, ttr).queue, now).entry.value.ttr == ttr
  {
  }

  /** Of two jobs posted in turn, the first is picked first. */
  lemma PostOrderIsPickOrder<D>(q: MemoryQueue<D>, a: D, b: D, ttr: Duration, now: Instant)
    requires Valid(q) && q.pending == []
    ensures var q2 := Post(Post(q, a, ttr).queue, b, ttr).queue;
      && Pick(q2, now).entry.Some? && Pick(q2, now).entry.value.data == a
      && Pick(Pick(q2, now).queue, now).entry.Some? && Pick(Pick(q2, now).queue, now).entry.value.data == b
  {
  }

  /** A groom that finds room leaves a queue that `Post` accepts jobs into
      while there is space, and the requeued entry is picked before a job
      posted after the groom. */
  method GroomThenPost<D>(q: MemoryQueue<D>, now: Instant, job: D, ttr: Duration) returns (r: Posted<D>)
    requires Valid(q) && |q.pending| + |ExpiredIds(q.reserved, now)| < MaxPendingJobs
    ensures Valid(r.queue) && r.err.None?
    ensures |r.queue.pending| == |q.pending| + |ExpiredIds(q.reserved, now)| + 1
    ensures r.queue.pending[|r.queue.pending| - 1].data == job
  {
    var groomed, order := Groom(q, now);
    r := Post(groomed, job, ttr);
  }
}

=== FILE: netscapecookies.dfy ===
/** Serialisation of one cookie as a line of a Netscape `cookies.txt` file:
    seven tab-separated fields (domain, include-subdomains flag, path, secure
    flag, expiry in Unix seconds, name, value) and a newline. */
module NetscapeCookies {

  import opened Wrappers
  import opened Strings
  import opened GoTime
  import opened HttpCookie

  const Tab: char := '\t'

  /** The file format's spelling of a flag. */
  function BoolStr(b: bool): (s: string)
    ensures |s| >= 4 && Free(s, Tab)
  {
    if b then "TRUE" else "FALSE"
  }

  /** Reads a flag back; only the two upper-case spellings are flags. */
  function ParseBool(s: string): (r: Option<bool>)
    ensures r.Some? <==> s == "TRUE" || s == "FALSE"
  {
    if s == "TRUE" then Some(true) else if s == "FALSE" then Some(false) else None
  }

  /** The two spellings are exactly the two flags. */
  lemma BoolRoundTrip(b: bool, s: string)
    ensures ParseBool(BoolStr(b)) == Some(b)
    ensures ParseBool(s).Some? ==> BoolStr(ParseBool(s).value) == s
  {
  }

  /** The reasons a cookie cannot be written. */
  datatype CookieError = NoDomain | NoExpires | NoName | NoValue

  function Message(e: CookieError): string
  {
    match e
    case NoDomain => "Cookie has no domain"
    case NoExpires => "Cookie has no expiration time"
    case NoName => "Cookie has no name"
    case NoValue => "Cookie has no value"
  }

  /** Joins at least one field with `sep`. */
  function Join(fields: seq<string>, sep: char): string
    requires |fields| >= 1
  {
    if |fields| == 1 then fields[0] else fields[0] + [sep] + Join(fields[1..], sep)
  }

  /** Cuts `s` at every `sep`; there is always at least one field. */
  function Split(s: string, sep: char): (r: seq<string>)
    ensures |r| >= 1
  {
    if |s| == 0 then [""]
    else if s[0] == sep then [""] + Split(s[1..], sep)
    else
      var rest := Split(s[1..], sep);
      [[s[0]] + rest[0]] + rest[1..]
  }

  predicate Free(s: string, sep: char) { forall i :: 0 <= i < |s| ==> s[i] != sep }

  /** A field without separators followed by a separator splits off whole. */
  lemma {:induction false} SplitField(a: string, sep: char, b: string)
    requires Free(a, sep)
    ensures Split(a + [sep] + b, sep) == [a] + Split(b, sep)
    decreases |a|
  {
    if |a| == 0 {
      assert a + [sep] + b == [sep] + b;
      assert ([sep] + b)[1..] == b;
    } else {
      var s := a + [sep] + b;
      assert s[0] == a[0];
      assert s[1..] == a[1..] + [sep] + b;
      SplitField(a[1..], sep, b);
      assert [a[0]] + a[1..] == a;
    }
  }

  /** A separator-free string is a single field. */
  lemma {:induction false} SplitFree(a: string, sep: char)
    requires Free(a, sep)
    ensures Split(a, sep) == [a]
    decreases |a|
  {
    if |a| > 0 {
      SplitFree(a[1..], sep);
      assert [a[0]] + a[1..] == a;
    }
  }

  /** Splitting undoes joining when no field holds the separator. */
  lemma {:induction false} SplitJoin(fields: seq<string>, sep: char)
    requires |fields| >= 1
    requires forall i :: 0 <= i < |fields| ==> Free(fields[i], sep)
    ensures Split(Join(fields, sep), sep) == fields
    decreases |fields|
  {
    if |fields| == 1 {
      SplitFree(fields[0], sep);
    } else {
      SplitField(fields[0], sep, Join(fields[1..], sep));
      SplitJoin(fields[1..], sep);
      assert [fields[0]] + fields[1..] == fields;
    }
  }

  /** The path written for a cookie: "/" stands in for an empty one. */
  function WrittenPath(cookie: Cookie): (p: string)
    ensures p != ""
    ensures cookie.path != "" ==> p == cookie.path
  {
    if cookie.path == "" then "/" else cookie.path
  }

  /** The seven fields of the line for `cookie`. */
  function Fields(cookie: Cookie): seq<string>
  {
    [cookie.domain, BoolStr(false), WrittenPath(cookie), BoolStr(cookie.secure),
     IntToDecimal(Unix(cookie.expires)), cookie.name, cookie.value]
  }

  /** Writes one cookie line, after checking domain, expiry, name and value
      in that order. */
  function WriteCookie(cookie: Cookie): (r: Result<string, CookieError>)
    ensures cookie.domain == "" ==> r == Err(NoDomain)
    ensures cookie.domain != "" && IsZero(cookie.expires) ==> r == Err(NoExpires)
    ensures cookie.domain != "" && !IsZero(cookie.expires) && cookie.name == "" ==> r == Err(NoName)
    ensures cookie.domain != "" && !IsZero(cookie.expires) && cookie.name != "" && cookie.value == "" ==> r == Err(NoValue)
    ensures r.Ok? <==> cookie.domain != "" && !IsZero(cookie.expires) && cookie.name != "" && cookie.value != ""
    ensures r.Ok? ==> |r.value| >= 1 && r.value[|r.value| - 1] == '\n'
  {
    if cookie.domain == "" then Err(NoDomain)
    else if IsZero(cookie.expires) then Err(NoExpires)
    else if cookie.name == "" then Err(NoName)
    else if cookie.value == "" then Err(NoValue)
    else Ok(Join(Fields(cookie), Tab) + "\n")
  }

  /** One parsed line of a cookie file. */
  datatype CookieLine = CookieLine(
    domain: string, includeSubdomains: bool, path: string, secure: bool,
    expiresUnix: int, name: string, value: string)

  predicate IsSignedDecimal(s: string)
  {
    |s| >= 1 && (if s[0] == '-' then AllDigits(s[1..]) else AllDigits(s))
  }

  /** Reads a line back: a trailing newline and seven tab-separated fields,
      the flags spelled TRUE or FALSE and the expiry a decimal integer. */
  function ParseLine(line: string): Option<CookieLine>
  {
    if |line| == 0 || line[|line| - 1] != '\n' then None
    else
      var f := Split(line[..|line| - 1], Tab);
      if |f| != 7 || ParseBool(f[1]).None? || ParseBool(f[3]).None? || !IsSignedDecimal(f[4]) then None
      else Some(CookieLine(f[0], ParseBool(f[1]).value, f[2], ParseBool(f[3]).value, SignedDecimalValue(f[4]), f[5], f[6]))
  }

  /** A written cookie reads back with every field intact, subdomains
      excluded, the empty path turned into "/", and the expiry in seconds. */
  lemma WriteThenParse(cookie: Cookie)
    requires WriteCookie(cookie).Ok?
    requires Free(cookie.domain, Tab) && Free(cookie.path, Tab) && Free(cookie.name, Tab) && Free(cookie.value, Tab)
    ensures ParseLine(WriteCookie(cookie).value) ==
      Some(CookieLine(cookie.domain, false, WrittenPath(cookie), cookie.secure, Unix(cookie.expires), cookie.name, cookie.value))
  {
    var f := Fields(cookie);
    var e := IntToDecimal(Unix(cookie.expires));
    assert Free(e, Tab) by {
      forall i | 0 <= i < |e| ensures e[i] != Tab {
        if e[0] == '-' && i > 0 {
          assert e[i] == e[1..][i - 1];
        }
      }
    }
    assert forall i :: 0 <= i < 7 ==> Free(f[i], Tab);
    SplitJoin(f, Tab);
    var line := Join(f, Tab) + "\n";
    assert line[..|line| - 1] == Join(f, Tab);
    IntToDecimalRoundTrip(Unix(cookie.expires));
  }
}

=== FILE: omnibus.dfy ===
/** Helpers of the all-in-one server binary: decoding the cookie keys given
    on the command line, trimming the admin-UI prefix from asset paths, and
    the internal URLs of the admin and git servers. A fatal log line ends the
    process, so it is modelled as an error result carrying the message. */
module Omnibus {

  import opened Wrappers
  import opened Strings

  const AdminUiPrefix: string := "admin"

  // ------------------------------------------------------------- parseKey

  type Byte = b: int | 0 <= b < 256

  /** Why `hex.DecodeString` refuses its input. */
  datatype HexError = InvalidByte(c: char) | OddLength

  /** `hex.DecodeString`: pairs of hex digits become bytes; a bad digit is
      reported before an odd length, and within the trailing odd digit too. */
  function HexDecode(s: string): (r: Result<seq<Byte>, HexError>)
    ensures r.Ok? <==> |s| % 2 == 0 && AllHex(s)
    ensures r.Ok? ==> 2 * |r.value| == |s|
    ensures r == Err(OddLength) <==> |s| % 2 == 1 && AllHex(s)
    decreases |s|
  {
    if |s| == 0 then Ok([])
    else if |s| == 1 then (if IsHexDigit(s[0]) then Err(OddLength) else Err(InvalidByte(s[0])))
    else if !IsHexDigit(s[0]) then Err(InvalidByte(s[0]))
    else if !IsHexDigit(s[1]) then Err(InvalidByte(s[1]))
    else
      AllHexAfterPair(s);
      match HexDecode(s[2..])
      case Err(e) => Err(e)
      case Ok(rest) => Ok([HexValue(s[0]).value * 16 + HexValue(s[1]).value] + rest)
  }

  /** Text that starts with two hex digits is hex iff the rest is. */
  lemma AllHexAfterPair(s: string)
    requires |s| >= 2 && IsHexDigit(s[0]) && IsHexDigit(s[1])
    ensures AllHex(s) <==> AllHex(s[2..])
  {
  }

  /** `hex.EncodeToString`: two lower-case digits per byte. */
  function HexEncode(b: seq<Byte>): (s: string)
    ensures |s| == 2 * |b| && AllHex(s)
  {
    if |b| == 0 then ""
    else
      var rest := HexEncode(b[1..]);
      var s := [HexDigit(b[0] / 16), HexDigit(b[0] % 16)] + rest;
      assert forall i :: 2 <= i < |s| ==> s[i] == rest[i - 2];
      s
  }

  /** Decoding undoes encoding. */
  lemma {:induction false} HexDecodeEncode(b: seq<Byte>)
    ensures HexDecode(HexEncode(b)) == Ok(b)
    decreases |b|
  {
    if |b| > 0 {
      var s := HexEncode(b);
      HexDecodeEncode(b[1..]);
      assert s[2..] == HexEncode(b[1..]);
      assert [b[0]] + b[1..] == b;
    }
  }

  /** An upper-case hexadecimal digit character stays a digit of the same value. */
  function UpperHexChar(c: char): (u: char)
    ensures IsHexDigit(c) ==> IsHexDigit(u) && HexValue(u) == HexValue(c) && !('a' <= u <= 'z')
  {
    if 'a' <= c <= 'f' then (c as int - 32) as char else c
  }

  /** Printable in the sense of Go's `strconv.IsPrint`, for ASCII. */
  predicate IsPrintAscii(c: char) { ' ' <= c <= '~' }

  /** Go's `%#U` of a character: "U+", at least four upper-case hexadecimal
      digits of its code point, then the character in single quotes when it
      is printable. */
  function CodePointText(c: char): (s: string)
    ensures HasPrefix(s, "U+")
    ensures IsPrintAscii(c) ==> HasSuffix(s, " '" + [c] + "'")
    ensures !IsPrintAscii(c) ==> |s| >= 6 && AllHex(s[2..])
  {
    var h := PadLeft(NatToHex(c as int), 4, '0');
    assert AllHex(h);
    var digits := seq(|h|, i requires 0 <= i < |h| => UpperHexChar(h[i]));
    var plain := "U+" + digits;
    assert plain[2..] == digits;
    if IsPrintAscii(c) then plain + " '" + [c] + "'" else plain
  }

  /** The text of `hex.DecodeString`'s two errors. */
  function HexErrorText(e: HexError): (s: string)
    ensures HasPrefix(s, "encoding/hex: ")
    ensures e.OddLength? <==> s == "encoding/hex: odd length hex string"
    ensures e.InvalidByte? ==> s[|"encoding/hex: "|..] == "invalid byte: " + CodePointText(e.c)
  {
    match e
    case OddLength => "encoding/hex: odd length hex string"
    case InvalidByte(c) =>
      var s := "encoding/hex: invalid byte: " + CodePointText(c);
      assert s[14..28] == "invalid byte: ";
      assert s[14] == 'i' != "encoding/hex: odd length hex string"[14];
      s
  }

  /** The message of the fatal error for a key that does not decode. */
  function DecodeMessage(usage: string, e: HexError): string
  {
    "Error while decoding " + usage + " key: " + HexErrorText(e)
  }

  /** The code point of 'z' renders as Go prints it. */
  lemma CodePointOfZ()
    ensures CodePointText('z') == "U+007A 'z'"
  {
    assert NatToHex(122) == "7a" by {
      assert NatToHex(7) == "7";
    }
    var h := PadLeft(NatToHex(122), 4, '0');
    assert h == "007a";
    var digits := seq(|h|, i requires 0 <= i < |h| => UpperHexChar(h[i]));
    assert digits == "007A" by {
      assert |digits| == 4;
      assert digits[0] == '0' && digits[1] == '0' && digits[2] == '7' && digits[3] == 'A';
    }
  }

  /** The message names the offending character: a key starting with 'z'
      is refused with its code point. */
  lemma InvalidByteExample(usage: string)
    ensures ParseKey("zz", usage, 32) == Err(DecodeMessage(usage, InvalidByte('z')))
    ensures HexErrorText(InvalidByte('z')) == "encoding/hex: invalid byte: U+007A 'z'"
  {
    CodePointOfZ();
    assert HexDecode("zz") == Err(InvalidByte('z'));
  }

  /** A single digit is refused for its odd length. */
  lemma OddLengthExample(usage: string)
    ensures ParseKey("a", usage, 32) == Err(DecodeMessage(usage, OddLength))
    ensures HexErrorText(OddLength) == "encoding/hex: odd length hex string"
  {
    assert HexDecode("a") == Err(OddLength);
  }

  function LengthMessage(usage: string, expected: nat, got: nat): string
  {
    "Invalid length for " + usage + " key: expected " + NatToDecimal(expected) + " bytes, got " + NatToDecimal(got)
  }

  /** The outcome of `parseKey`: the key, or the message of the fatal error. */
  function ParseKeyAsWritten(key: string, usage: string, length: nat): (r: Result<seq<Byte>, string>)
    ensures r.Ok? <==> key != "" && HexDecode(key).Ok? && |HexDecode(key).value| == length
    ensures r.Ok? ==> r.value == HexDecode(key).value
    ensures key == "" ==> r == Err("Cookie " + usage + " key is required")
    ensures key != "" && HexDecode(key).Err? ==> r == Err(DecodeMessage(usage, HexDecode(key).error))
  {
    if |key| == 0 then Err("Cookie " + usage + " key is required")
    else match HexDecode(key)
      case Err(e) => Err(DecodeMessage(usage, e))
      case Ok(decoded) =>
        if |decoded| != length then
          Err(LengthMessage(usage, length, |key|))
        else Ok(decoded)
  }

  /** The length message counts hex digits where it announces bytes: a key
      decoding to n bytes is said to be 2n bytes long, so the message differs
      from the one reporting the decoded size. */
  lemma ParseKeyReportsHexLength(key: string, usage: string, length: nat)
    requires key != "" && HexDecode(key).Ok? && |HexDecode(key).value| != length
    ensures ParseKeyAsWritten(key, usage, length) == Err(LengthMessage(usage, length, 2 * |HexDecode(key).value|))
    ensures ParseKeyAsWritten(key, usage, length) != ParseKey(key, usage, length)
  {
    var n := |HexDecode(key).value|;
    NatToDecimalInjective(2 * n, n);
    var pre := "Invalid length for " + usage + " key: expected " + NatToDecimal(length) + " bytes, got ";
    assert LengthMessage(usage, length, 2 * n)[|pre|..] == NatToDecimal(2 * n);
    assert LengthMessage(usage, length, n)[|pre|..] == NatToDecimal(n);
  }

  /** `parseKey` with the length message reporting the decoded byte count. */
  function ParseKey(key: string, usage: string, length: nat): (r: Result<seq<Byte>, string>)
    ensures r.Ok? <==> key != "" && HexDecode(key).Ok? && |HexDecode(key).value| == length
    ensures r.Ok? ==> r.value == HexDecode(key).value && |r.value| == length
    ensures key == "" ==> r == Err("Cookie " + usage + " key is required")
    ensures key != "" && HexDecode(key).Err? ==> r == Err(DecodeMessage(usage, HexDecode(key).error))
    ensures key != "" && HexDecode(key).Ok? && |HexDecode(key).value| != length ==>
      r == Err(LengthMessage(usage, length, |HexDecode(key).value|))
  {
    if |key| == 0 then Err("Cookie " + usage + " key is required")
    else match HexDecode(key)
      case Err(e) => Err(DecodeMessage(usage, e))
      case Ok(decoded) =>
        if |decoded| != length then
          Err(LengthMessage(usage, length, |decoded|))
        else Ok(decoded)
  }

  /** The two versions accept the same keys and differ only in that message. */
  lemma ParseKeyVersionsAgree(key: string, usage: string, length: nat)
    ensures ParseKey(key, usage, length).Ok? <==> ParseKeyAsWritten(key, usage, length).Ok?
    ensures ParseKey(key, usage, length).Ok? ==> ParseKey(key, usage, length) == ParseKeyAsWritten(key, usage, length)
  {
  }

  /** An encoded key of the right size is accepted and read back. */
  lemma ParseEncodedKey(b: seq<Byte>, usage: string)
    requires |b| > 0
    ensures ParseKey(HexEncode(b), usage, |b|) == Ok(b)
  {
    HexDecodeEncode(b);
  }

  // ---------------------------------------------------- stripAdminPrefix

  /** `s` without its leading slashes. */
  function TrimLeadingSlashes(s: string): (r: string)
    ensures |r| <= |s| && r == s[|s| - |r|..]
    ensures r == [] || r[0] != '/'
  {
    if |s| > 0 && s[0] == '/' then TrimLeadingSlashes(s[1..]) else s
  }

  /** `n` slashes. */
  function Slashes(n: nat): (r: string)
    ensures |r| == n
  {
    if n == 0 then "" else "/" + Slashes(n - 1)
  }

  /** What trimming removes is slashes only. */
  lemma {:induction false} TrimmedAreSlashes(s: string)
    ensures s == Slashes(|s| - |TrimLeadingSlashes(s)|) + TrimLeadingSlashes(s)
    decreases |s|
  {
    if |s| > 0 && s[0] == '/' {
      TrimmedAreSlashes(s[1..]);
      var t := TrimLeadingSlashes(s[1..]);
      var m := |s[1..]| - |t|;
      assert TrimLeadingSlashes(s) == t;
      assert Slashes(m + 1) == "/" + Slashes(m);
      assert s == [s[0]] + s[1..];
    }
  }

  /** Trimming twice is trimming once. */
  lemma TrimLeadingSlashesIdempotent(s: string)
    ensures TrimLeadingSlashes(TrimLeadingSlashes(s)) == TrimLeadingSlashes(s)
  {
    var t := TrimLeadingSlashes(s);
    assert t == [] || t[0] != '/';
  }

  /** Slashes put in front are trimmed away. */
  lemma {:induction false} TrimLeadingSlashesAbsorbs(n: nat, s: string)
    ensures TrimLeadingSlashes(Slashes(n) + s) == TrimLeadingSlashes(s)
    decreases n
  {
    if n > 0 {
      var u := Slashes(n) + s;
      assert u[0] == '/';
      assert u[1..] == Slashes(n - 1) + s;
      TrimLeadingSlashesAbsorbs(n - 1, s);
    } else {
      assert Slashes(0) + s == s;
    }
  }

  /** Drops the first five characters of an asset path, whatever they are
      (the path must be at least that long), then every leading slash. */
  method StripAdminPrefix(path: string) returns (r: string)
    requires |path| >= |AdminUiPrefix|
    ensures r == TrimLeadingSlashes(path[|AdminUiPrefix|..])
    ensures |r| <= |path| - 5 && r == path[|path| - |r|..]
    ensures r == [] || r[0] != '/'
  {
    var i := 5;
    while i < |path| && path[i] == '/'
      invariant 5 <= i <= |path|
      invariant TrimLeadingSlashes(path[i..]) == TrimLeadingSlashes(path[5..])
    {
      assert path[i..][1..] == path[i + 1..];
      i := i + 1;
    }
    r := path[i..];
  }

  // --------------------------------------------------------- internal URLs

  /** The host the other components use to reach this process: the wildcard
      listen address is replaced by the loopback address. */
  function ReachableHost(host: string): (h: string)
    ensures host == "0.0.0.0" ==> h == "127.0.0.1"
    ensures host != "0.0.0.0" ==> h == host
  {
    if host == "0.0.0.0" then "127.0.0.1" else host
  }

  datatype InternalUrls = InternalUrls(adminServer: string, gitServer: string)

  /** The admin-server and git-server URLs derived from the listen address,
      given `net.SplitHostPort`'s answer for it. */
  function InternalUrlsFor(listenAddress: string, split: Option<(string, string)>): (r: Result<InternalUrls, string>)
    ensures split.None? ==> r == Err("Could not parse port from listen address " + listenAddress)
    ensures split.Some? ==> r.Ok?
    ensures r.Ok? ==>
      && r.value.adminServer == "http://" + ReachableHost(split.value.0) + ":" + split.value.1 + "/api"
      && r.value.gitServer == "http://" + ReachableHost(split.value.0) + ":" + split.value.1 + "/git"
  {
    match split
    case None => Err("Could not parse port from listen address " + listenAddress)
    case Some((host, port)) =>
      var h := ReachableHost(host);
      Ok(InternalUrls("http://" + h + ":" + port + "/api", "http://" + h + ":" + port + "/git"))
  }

  /** Listening on every interface still yields loopback URLs. */
  lemma WildcardBecomesLoopback(port: string)
    ensures InternalUrlsFor("0.0.0.0:" + port, Some(("0.0.0.0", port))) ==
      Ok(InternalUrls("http://127.0.0.1:" + port + "/api", "http://127.0.0.1:" + port + "/git"))
  {
    assert "http://" + "127.0.0.1" + ":" == "http://127.0.0.1:";
  }
}

=== FILE: redisqueue.dfy ===
/** The Redis-backed job queue. Redis holds two lists of JSON entries,
    "jobs-pending" and "jobs-reserved"; index 0 is the left end. Posting
    pushes on the left, picking moves the rightmost pending entry to the left
    of the reserved list, and two Lua scripts finish and groom reserved
    entries. Lua's JSON decoding fails on the bare marker strings the scripts
    write, which the model keeps as a separate kind of list slot. The gob
    encoding of job payloads is treated as a faithful round trip. */
module RedisQueue {

  import opened Wrappers
  import opened GoTime
  import opened WorkQueue
  import IdGenerator

  const PendingKey: string := "jobs-pending"
  const ReservedKey: string := "jobs-reserved"
  const FinishedMarker: string := "finished"
  const ExpiredMarker: string := "expired"

  /** An entry as stored in Redis: time-to-run in whole microseconds, plus the
      start time (in microseconds) the groom script stamps on reserved entries. */
  datatype StoredEntry<D> = StoredEntry(id: string, ttrUs: int, data: D, started: Option<int>)

  /** One element of a Redis list: a JSON entry or a bare marker string. */
  datatype Slot<D> = Entry(entry: StoredEntry<D>) | Marker(name: string)

  datatype Lists<D> = Lists(pending: seq<Slot<D>>, reserved: seq<Slot<D>>)

  /** One process's view of the queue: its identifier (host name and a random
      UUID, both inputs here) and its entry counter. */
  datatype Node = Node(queueId: string, gen: IdGenerator.Generator)

  // ------------------------------------------------------------- TTR codec

  /** Go's integer division, which truncates towards zero. */
  function Quot(a: int, b: int): (q: int)
    requires b > 0
    ensures a >= 0 ==> q * b <= a < q * b + b
    ensures a < 0 ==> q * b - b < a <= q * b
  {
    if a >= 0 then a / b else -((-a) / b)
  }

  /** `ttr / time.Microsecond`. */
  function EncodeTtr(ttr: Duration): int
  {
    Quot(ttr, Microsecond)
  }

  /** `time.Duration(TTRus) * time.Microsecond`. */
  function DecodeTtr(ttrUs: int): Duration
  {
    ttrUs * Microsecond
  }

  /** The stored time-to-run reads back exactly iff it is a whole number of
      microseconds; otherwise it loses the sub-microsecond part, towards zero. */
  lemma TtrRoundTrip(ttr: Duration)
    ensures DecodeTtr(EncodeTtr(ttr)) == ttr <==> ttr % Microsecond == 0
    ensures ttr >= 0 ==> 0 <= ttr - DecodeTtr(EncodeTtr(ttr)) < Microsecond
    ensures ttr < 0 ==> 0 <= DecodeTtr(EncodeTtr(ttr)) - ttr < Microsecond
  {
  }

  function EncodeEntry<D>(id: string, ttr: Duration, job: D): (s: StoredEntry<D>)
    ensures s.started.None?
  {
    StoredEntry(id, EncodeTtr(ttr), job, None)
  }

  /** Decoding a list element: a marker is not an entry. */
  function DecodeEntry<D>(slot: Slot<D>): (r: Result<JobEntry<D>, QueueError>)
    ensures r.Ok? <==> slot.Entry?
    ensures r.Ok? ==> r.value.id == slot.entry.id && r.value.data == slot.entry.data
  {
    match slot
    case Marker(_) => Err(DecodeFailed)
    case Entry(e) => Ok(JobEntry(e.id, DecodeTtr(e.ttrUs), e.data))
  }

  /** Encoding then decoding keeps the identifier and payload, and the
      time-to-run when it is a whole number of microseconds. */
  lemma EntryRoundTrip<D>(id: string, ttr: Duration, job: D)
    requires ttr % Microsecond == 0
    ensures DecodeEntry(Entry(EncodeEntry(id, ttr, job))) == Ok(JobEntry(id, ttr, job))
  {
    TtrRoundTrip(ttr);
  }

  // ---------------------------------------------------------- post and pick

  datatype Posted<D> = Posted(node: Node, lists: Lists<D>, err: Option<QueueError>)

  /** Posts a job under `queueId-N`, N being the node's next counter value,
      on the left of the pending list. `encodes` is whether the payload's
      encoder succeeds and `pushErr` the error the `LPUSH` reports, if any;
      the counter advances either way. */
  function Post<D>(n: Node, l: Lists<D>, job: D, ttr: Duration, encodes: bool, pushErr: Option<string>): (r: Posted<D>)
    requires n.gen.Valid()
    ensures r.node == n.(gen := IdGenerator.Next(n.gen).gen) && r.node.gen.Valid()
    ensures r.lists.reserved == l.reserved
    ensures r.err.None? <==> encodes && pushErr.None?
    ensures !encodes ==> r.lists == l && r.err == Some(EncodeFailed)
    ensures encodes && pushErr.Some? ==> r.lists == l && r.err == Some(PushFailed(pushErr.value))
    ensures r.err.None? ==>
      && |r.lists.pending| == |l.pending| + 1
      && r.lists.pending[1..] == l.pending
      && r.lists.pending[0] == Entry(EncodeEntry(n.queueId + "-" + IdGenerator.Next(n.gen).id, ttr, job))
  {
    var issued := IdGenerator.Next(n.gen);
    var id := n.queueId + "-" + issued.id;
    if !encodes then Posted(n.(gen := issued.gen), l, Some(EncodeFailed))
    else if pushErr.Some? then Posted(n.(gen := issued.gen), l, Some(PushFailed(pushErr.value)))
    else Posted(n.(gen := issued.gen), l.(pending := [Entry(EncodeEntry(id, ttr, job))] + l.pending), None)
  }

  /** Redis cannot block for less than a second. */
  function PickTimeout(timeout: Duration): (t: Duration)
    ensures t >= Second
    ensures timeout >= Second ==> t == timeout
  {
    if timeout < Second then Second else timeout
  }

  datatype Picked<D> = Picked(lists: Lists<D>, result: Result<Option<JobEntry<D>>, QueueError>)

  /** Moves the rightmost pending element to the left of the reserved list and
      decodes it; an empty pending list times out with no entry. `popErr` is
      an error of `BRPOPLPUSH` other than its time-out, which moves nothing. */
  function Pick<D>(l: Lists<D>, popErr: Option<string>): (r: Picked<D>)
    ensures popErr.Some? ==> r == Picked(l, Err(PickFailed(popErr.value)))
    ensures popErr.None? && l.pending == [] ==> r == Picked(l, Ok(None))
    ensures popErr.None? && l.pending != [] ==>
      && r.lists.pending == l.pending[..|l.pending| - 1]
      && r.lists.reserved == [l.pending[|l.pending| - 1]] + l.reserved
    ensures popErr.None? && l.pending != [] ==>
      (r.result.Ok? <==> l.pending[|l.pending| - 1].Entry?)
    ensures popErr.None? && l.pending != [] && r.result.Ok? ==>
      r.result.value == Some(DecodeEntry(l.pending[|l.pending| - 1]).value)
  {
    if popErr.Some? then Picked(l, Err(PickFailed(popErr.value)))
    else if l.pending == [] then Picked(l, Ok(None))
    else
      var last := l.pending[|l.pending| - 1];
      var moved := Lists(l.pending[..|l.pending| - 1], [last] + l.reserved);
      match DecodeEntry(last)
      case Err(e) => Picked(moved, Err(e))
      case Ok(entry) => Picked(moved, Ok(Some(entry)))
  }

  /** Entries are picked in the order they were posted. */
  lemma PickIsFifo<D>(n: Node, l: Lists<D>, a: D, b: D, ttr: Duration)
    requires n.gen.Valid() && l.pending == []
    ensures var p1 := Post(n, l, a, ttr, true, None);
      var p2 := Post(p1.node, p1.lists, b, ttr, true, None);
      && Pick(p2.lists, None).result.Ok? && Pick(p2.lists, None).result.value.Some?
      && Pick(p2.lists, None).result.value.value.data == a
      && Pick(Pick(p2.lists, None).lists, None).result.Ok? && Pick(Pick(p2.lists, None).lists, None).result.value.Some?
      && Pick(Pick(p2.lists, None).lists, None).result.value.value.data == b
  {
  }

  // ----------------------------------------------------------- list helpers

  predicate IsMarker<D>(slot: Slot<D>, name: string) { slot.Marker? && slot.name == name }

  /** `LREM key 1 name`: removes the leftmost `name` marker. */
  function RemoveFirst<D>(s: seq<Slot<D>>, name: string): (r: seq<Slot<D>>)
    ensures (forall i :: 0 <= i < |s| ==> !IsMarker(s[i], name)) ==> r == s
    ensures (exists i :: 0 <= i < |s| && IsMarker(s[i], name)) ==> |r| == |s| - 1
  {
    if |s| == 0 then []
    else if IsMarker(s[0], name) then s[1..]
    else
      var rest := RemoveFirst(s[1..], name);
      assert (exists i :: 0 <= i < |s| && IsMarker(s[i], name)) ==> (exists i :: 0 <= i < |s[1..]| && IsMarker(s[1..][i], name)) by {
        if exists i :: 0 <= i < |s| && IsMarker(s[i], name) {
          var i :| 0 <= i < |s| && IsMarker(s[i], name);
          assert IsMarker(s[1..][i - 1], name);
        }
      }
      [s[0]] + rest
  }

  /** `LREM key 0 name`: removes every `name` marker and keeps the rest in order. */
  function RemoveAll<D>(s: seq<Slot<D>>, name: string): (r: seq<Slot<D>>)
    ensures forall i :: 0 <= i < |r| ==> !IsMarker(r[i], name)
    ensures |r| <= |s|
  {
    if |s| == 0 then []
    else if IsMarker(s[0], name) then RemoveAll(s[1..], name)
    else [s[0]] + RemoveAll(s[1..], name)
  }

  predicate NoMarkers<D>(s: seq<Slot<D>>) { forall i :: 0 <= i < |s| ==> s[i].Entry? }

  /** The outcome of a Lua script: the list it leaves and whether it stopped
      on an error. Redis does not undo the writes made before an error. */
  datatype ScriptRun<D> = ScriptRun(slots: seq<Slot<D>>, pushed: seq<Slot<D>>, failed: bool)

  // ---------------------------------------------------------- finish script

  /** The finish script's loop over a snapshot of the reserved list: every
      entry carrying `id` is overwritten with the "finished" marker; decoding
      a marker raises an error that stops the script. */
  function FinishMark<D>(slots: seq<Slot<D>>, id: string): (r: ScriptRun<D>)
    ensures |r.slots| == |slots| && r.pushed == []
    ensures r.failed <==> !NoMarkers(slots)
    ensures !r.failed ==> forall i :: 0 <= i < |slots| ==>
      r.slots[i] == (if slots[i].entry.id == id then Marker(FinishedMarker) else slots[i])
  {
    if |slots| == 0 then ScriptRun([], [], false)
    else if slots[0].Marker? then ScriptRun(slots, [], true)
    else
      var rest := FinishMark(slots[1..], id);
      assert NoMarkers(slots) <==> NoMarkers(slots[1..]) by {
        if NoMarkers(slots[1..]) {
          forall i | 0 <= i < |slots| ensures slots[i].Entry? {
            if i > 0 { assert slots[i] == slots[1..][i - 1]; }
          }
        }
      }
      var head := if slots[0].entry.id == id then Marker(FinishedMarker) else slots[0];
      ScriptRun([head] + rest.slots, [], rest.failed)
  }

  /** The whole finish script: mark, then `LREM reserved 1 finished`. */
  function FinishScript<D>(reserved: seq<Slot<D>>, id: string): (r: ScriptRun<D>)
    ensures r.failed <==> !NoMarkers(reserved)
  {
    var run := FinishMark(reserved, id);
    if run.failed then run else run.(slots := RemoveFirst(run.slots, FinishedMarker))
  }

  /** `Finish` runs the script and reports its failure; `evalErr` is an
      error of the `EVALSHA` call itself, which runs nothing. */
  function Finish<D>(l: Lists<D>, entry: JobEntry<D>, evalErr: Option<string>): (r: (Lists<D>, Option<QueueError>))
    ensures r.0.pending == l.pending
    ensures evalErr.Some? ==> r == (l, Some(RemoveFailed(evalErr.value)))
    ensures evalErr.None? ==> (r.1.Some? <==> !NoMarkers(l.reserved))
    ensures evalErr.None? && r.1.Some? ==> r.1 == Some(ScriptFailed)
    ensures evalErr.None? ==> r.0.reserved == FinishScript(l.reserved, entry.id).slots
  {
    if evalErr.Some? then (l, Some(RemoveFailed(evalErr.value)))
    else
      var run := FinishScript(l.reserved, entry.id);
      (l.(reserved := run.slots), if run.failed then Some(ScriptFailed) else None)
  }

  /** With no entry carrying the identifier, finishing leaves the list alone. */
  lemma FinishUnknownIsNoOp<D>(reserved: seq<Slot<D>>, id: string)
    requires NoMarkers(reserved)
    requires forall i :: 0 <= i < |reserved| ==> reserved[i].entry.id != id
    ensures FinishScript(reserved, id) == ScriptRun(reserved, [], false)
  {
    var run := FinishMark(reserved, id);
    assert run.slots == reserved;
  }

  /** With exactly one entry carrying the identifier, finishing removes that
      entry and keeps the others in order. */
  lemma {:induction false} FinishRemovesSole<D>(reserved: seq<Slot<D>>, id: string, k: nat)
    requires NoMarkers(reserved) && k < |reserved| && reserved[k].entry.id == id
    requires forall i :: 0 <= i < |reserved| && i != k ==> reserved[i].entry.id != id
    ensures FinishScript(reserved, id) == ScriptRun(reserved[..k] + reserved[k + 1..], [], false)
  {
    var run := FinishMark(reserved, id);
    var marked := run.slots;
    assert marked == reserved[..k] + [Marker(FinishedMarker)] + reserved[k + 1..];
    RemoveFirstAt(reserved[..k], FinishedMarker, reserved[k + 1..]);
  }

  lemma {:induction false} RemoveFirstAt<D>(a: seq<Slot<D>>, name: string, b: seq<Slot<D>>)
    requires forall i :: 0 <= i < |a| ==> !IsMarker(a[i], name)
    ensures RemoveFirst(a + [Marker(name)] + b, name) == a + b
    decreases |a|
  {
    var s := a + [Marker(name)] + b;
    if |a| == 0 {
      assert s == [Marker(name)] + b;
    } else {
      assert s[0] == a[0] && !IsMarker(s[0], name);
      assert s[1..] == a[1..] + [Marker(name)] + b;
      assert RemoveFirst(s, name) == [s[0]] + RemoveFirst(s[1..], name);
      RemoveFirstAt(a[1..], name, b);
      assert a + b == [a[0]] + (a[1..] + b);
    }
  }

  /** With two entries carrying the identifier, one "finished" marker stays in
      the reserved list, and every later script run on it fails. */
  lemma FinishDuplicateLeavesMarker<D>(e: StoredEntry<D>)
    ensures FinishScript([Entry(e), Entry(e)], e.id) == ScriptRun([Marker(FinishedMarker)], [], false)
    ensures FinishScript(FinishScript([Entry(e), Entry(e)], e.id).slots, e.id).failed
  {
    var run := FinishMark([Entry(e), Entry(e)], e.id);
    assert run.slots == [Marker(FinishedMarker), Marker(FinishedMarker)];
    var left: seq<Slot<D>> := [Marker(FinishedMarker)];
    assert !NoMarkers(left);
  }

  // ----------------------------------------------------------- groom script

  /** The start time a reserved entry has after the groom script looked at it. */
  function Stamp<D>(e: StoredEntry<D>, nowUs: int): StoredEntry<D>
  {
    if e.started.None? then e.(started := Some(nowUs)) else e
  }

  predicate ExpiredAt<D>(e: StoredEntry<D>, nowUs: int)
  {
    nowUs > Stamp(e, nowUs).started.value + e.ttrUs
  }

  /** The groom script's loop over a snapshot of the reserved list, at Redis
      time `nowUs`: entries without a start time get one; an entry past its
      time-to-run is overwritten with the "expired" marker and pushed (start
      time cleared) on the left of the pending list, one push per entry in
      list order. A marker stops the script with an error. */
  function GroomMark<D>(slots: seq<Slot<D>>, nowUs: int): (r: ScriptRun<D>)
    ensures |r.slots| == |slots|
    ensures r.failed <==> !NoMarkers(slots)
  {
    if |slots| == 0 then ScriptRun([], [], false)
    else if slots[0].Marker? then ScriptRun(slots, [], true)
    else
      var e := Stamp(slots[0].entry, nowUs);
      var rest := GroomMark(slots[1..], nowUs);
      assert NoMarkers(slots) <==> NoMarkers(slots[1..]) by {
        if NoMarkers(slots[1..]) {
          forall i | 0 <= i < |slots| ensures slots[i].Entry? {
            if i > 0 { assert slots[i] == slots[1..][i - 1]; }
          }
        }
      }
      if ExpiredAt(e, nowUs) then
        ScriptRun([Marker(ExpiredMarker)] + rest.slots, [Entry(e.(started := None))] + rest.pushed, rest.failed)
      else
        ScriptRun([Entry(e)] + rest.slots, rest.pushed, rest.failed)
  }

  /** The whole groom script: the pushes land on the pending list (the last
      one pushed leftmost), then every "expired" marker is removed. */
  function GroomScript<D>(l: Lists<D>, nowUs: int): (r: (Lists<D>, bool))
    ensures r.1 <==> !NoMarkers(l.reserved)
  {
    var run := GroomMark(l.reserved, nowUs);
    var pending := Reverse(run.pushed) + l.pending;
    if run.failed then (Lists(pending, run.slots), true)
    else (Lists(pending, RemoveAll(run.slots, ExpiredMarker)), false)
  }

  function Reverse<T>(s: seq<T>): (r: seq<T>)
    ensures |r| == |s|
    ensures forall i :: 0 <= i < |s| ==> r[i] == s[|s| - 1 - i]
  {
    if |s| == 0 then [] else Reverse(s[1..]) + [s[0]]
  }

  /** Reference result of a groom over a marker-free reserved list: the
      entries still within their time-to-run, stamped, in order. */
  function Kept<D>(slots: seq<Slot<D>>, nowUs: int): seq<Slot<D>>
    requires NoMarkers(slots)
  {
    if |slots| == 0 then []
    else
      var e := Stamp(slots[0].entry, nowUs);
      (if ExpiredAt(e, nowUs) then [] else [Entry(e)]) + Kept(slots[1..], nowUs)
  }

  /** Reference list of expired entries, start time cleared, in list order. */
  function Requeued<D>(slots: seq<Slot<D>>, nowUs: int): seq<Slot<D>>
    requires NoMarkers(slots)
  {
    if |slots| == 0 then []
    else
      var e := Stamp(slots[0].entry, nowUs);
      (if ExpiredAt(e, nowUs) then [Entry(e.(started := None))] else []) + Requeued(slots[1..], nowUs)
  }

  /** Over a marker-free reserved list, the groom script keeps exactly the
      live entries (stamped, in order) and puts the expired ones, in reverse
      list order, on the left of the pending list, which keeps its old
      elements on the right. */
  lemma {:induction false} GroomMatchesReference<D>(l: Lists<D>, nowUs: int)
    requires NoMarkers(l.reserved)
    ensures !GroomScript(l, nowUs).1
    ensures GroomScript(l, nowUs).0.reserved == Kept(l.reserved, nowUs)
    ensures GroomScript(l, nowUs).0.pending == Reverse(Requeued(l.reserved, nowUs)) + l.pending
  {
    GroomMarkReference(l.reserved, nowUs);
  }

  lemma {:induction false} GroomMarkReference<D>(slots: seq<Slot<D>>, nowUs: int)
    requires NoMarkers(slots)
    ensures GroomMark(slots, nowUs).pushed == Requeued(slots, nowUs)
    ensures RemoveAll(GroomMark(slots, nowUs).slots, ExpiredMarker) == Kept(slots, nowUs)
    decreases |slots|
  {
    if |slots| > 0 {
      assert NoMarkers(slots[1..]) by {
        forall i | 0 <= i < |slots[1..]| ensures slots[1..][i].Entry? {
          assert slots[1..][i] == slots[i + 1];
        }
      }
      GroomMarkReference(slots[1..], nowUs);
      var run := GroomMark(slots, nowUs);
      var rest := GroomMark(slots[1..], nowUs);
      var e := Stamp(slots[0].entry, nowUs);
      if ExpiredAt(e, nowUs) {
        assert run.slots == [Marker(ExpiredMarker)] + rest.slots;
        assert RemoveAll(run.slots, ExpiredMarker) == RemoveAll(rest.slots, ExpiredMarker);
      } else {
        assert run.slots == [Entry(e)] + rest.slots;
        assert ([Entry(e)] + rest.slots)[1..] == rest.slots;
        assert RemoveAll(run.slots, ExpiredMarker) == [Entry(e)] + RemoveAll(rest.slots, ExpiredMarker);
      }
    }
  }

  /** An entry first seen by a groom gets the groom's time and is not expired
      by that same run, whatever its (non-negative) time-to-run. */
  lemma FirstGroomOnlyStamps<D>(e: StoredEntry<D>, nowUs: int, pending: seq<Slot<D>>)
    requires e.started.None? && e.ttrUs >= 0
    ensures GroomScript(Lists(pending, [Entry(e)]), nowUs) == (Lists(pending, [Entry(e.(started := Some(nowUs)))]), false)
  {
    var slots := [Entry(e)];
    assert slots[1..] == [];
    assert Stamp(e, nowUs) == e.(started := Some(nowUs));
    assert !ExpiredAt(Stamp(e, nowUs), nowUs);
    assert GroomMark(slots[1..], nowUs) == ScriptRun([], [], false);
    var run := GroomMark(slots, nowUs);
    var stamped := Entry(e.(started := Some(nowUs)));
    assert run.slots == [stamped] && run.pushed == [];
    assert RemoveAll([stamped], ExpiredMarker) == [stamped] + RemoveAll([stamped][1..], ExpiredMarker);
    assert [stamped][1..] == [];
    assert RemoveAll(run.slots, ExpiredMarker) == [stamped];
    assert Reverse(run.pushed) + pending == pending;
  }

  /** The periodic groom only runs the script on the node holding the lock;
      an error of the `EVALSHA` call (`evalErr`) is logged and runs nothing. */
  function Groom<D>(l: Lists<D>, isMaster: bool, nowUs: int, evalErr: Option<string>): (r: Lists<D>)
    ensures !isMaster || evalErr.Some? ==> r == l
    ensures isMaster && evalErr.None? ==> r == GroomScript(l, nowUs).0
  {
    if !isMaster || evalErr.Some? then l else GroomScript(l, nowUs).0
  }
}

=== FILE: rpcclient.dfy ===
/** The Go JSON-RPC client: call identifiers, the request envelope and the
    validation chain applied to a reply. The HTTP round trip is an input: the
    reply the server sent, already split into its JSON fields. */
module RpcClient {

  import opened Wrappers
  import opened Strings
  import IdGenerator

  /** The client's state: the last call identifier used. */
  datatype Client = Client(url: string, lastUid: nat)
  {
    ghost predicate Valid() { lastUid < IdGenerator.Uint64Modulus }
  }

  /** A new client starts its counter at 1, so its first call carries "2". */
  function New(url: string): (c: Client)
    ensures c.Valid() && c.url == url && c.lastUid == 1
  {
    Client(url, 1)
  }

  /** The JSON request body: params is always a one-element array. */
  datatype Envelope<P> = Envelope(id: string, rpcMethod: string, params: seq<P>)

  /** The decoded JSON reply; `result` is None when it does not decode into
      the caller's result type. */
  datatype ReplyBody<R> = ReplyBody(id: string, error: string, result: Option<R>)

  /** What came back over HTTP: a transport failure, or a status code and a
      body that either decodes as a JSON reply or does not. */
  datatype HttpReply<R> =
    | TransportFailure(reason: string)
    | HttpReply(status: int, body: Option<ReplyBody<R>>)

  datatype CallError =
    | SendFailed(reason: string)
    | BadStatus(status: int)
    | BadBody
    | IdMismatch
    | ServerError(message: string)
    | BadResult

  function Message(e: CallError): string
  {
    match e
    case SendFailed(reason) => "Error while sending request: " + reason
    case BadStatus(status) => "Invalid HTTP reply status: " + IntToDecimal(status)
    case BadBody => "Error while decoding reply body"
    case IdMismatch => "Reply ID does not match call ID"
    case ServerError(message) => "RPC error: " + message
    case BadResult => "Error while decoding reply result"
  }

  datatype CallOutcome<P, R> = CallOutcome(client: Client, request: Envelope<P>, result: Result<R, CallError>)

  /** The checks applied to a reply, in order: status 200, a decodable body,
      a matching id, an empty error, a decodable result. */
  function CheckReply<R>(callId: string, reply: HttpReply<R>): (r: Result<R, CallError>)
    ensures reply.TransportFailure? ==> r == Err(SendFailed(reply.reason))
    ensures reply.HttpReply? && reply.status != 200 ==> r == Err(BadStatus(reply.status))
    ensures reply.HttpReply? && reply.status == 200 && reply.body.Some? && reply.body.value.id != callId ==>
      r == Err(IdMismatch)
    ensures
      (reply.HttpReply? && reply.status == 200 && reply.body.Some? && reply.body.value.id == callId
        && reply.body.value.error != "")
      ==> r == Err(ServerError(reply.body.value.error))
    ensures r.Ok? <==>
      && reply.HttpReply? && reply.status == 200 && reply.body.Some?
      && reply.body.value.id == callId && reply.body.value.error == ""
      && reply.body.value.result.Some?
    ensures r.Ok? ==> r.value == reply.body.value.result.value
  {
    match reply
    case TransportFailure(reason) => Err(SendFailed(reason))
    case HttpReply(status, body) =>
      if status != 200 then Err(BadStatus(status))
      else match body
        case None => Err(BadBody)
        case Some(b) =>
          if b.id != callId then Err(IdMismatch)
          else if b.error != "" then Err(ServerError(b.error))
          else match b.result
            case None => Err(BadResult)
            case Some(v) => Ok(v)
  }

  /** One call: takes the next identifier, builds the envelope, and checks
      the reply against that identifier. */
  function Call<P, R>(c: Client, rpcMethod: string, params: P, reply: HttpReply<R>): (r: CallOutcome<P, R>)
    requires c.Valid()
    ensures r.client.Valid() && r.client.url == c.url
    ensures c.lastUid + 1 < IdGenerator.Uint64Modulus ==> r.client.lastUid == c.lastUid + 1
    ensures AllDigits(r.request.id) && DecimalValue(r.request.id) == r.client.lastUid
    ensures r.request.rpcMethod == rpcMethod && r.request.params == [params]
    ensures r.result == CheckReply(r.request.id, reply)
  {
    var n := (c.lastUid + 1) % IdGenerator.Uint64Modulus;
    DecimalRoundTrip(n);
    var id := NatToDecimal(n);
    CallOutcome(Client(c.url, n), Envelope(id, rpcMethod, [params]), CheckReply(id, reply))
  }

  /** The first call of a new client carries the identifier "2". */
  lemma FirstCallId<P, R>(url: string, rpcMethod: string, params: P, reply: HttpReply<R>)
    ensures Call(New(url), rpcMethod, params, reply).request.id == "2"
  {
  }

  /** A reply echoing a different identifier is refused whatever else it says. */
  lemma ForeignReplyRefused<P, R>(c: Client, rpcMethod: string, params: P, id: string, error: string, result: Option<R>)
    requires c.Valid()
    requires id != Call(c, rpcMethod, params, HttpReply(200, Some(ReplyBody(id, error, result)))).request.id
    ensures Call(c, rpcMethod, params, HttpReply(200, Some(ReplyBody(id, error, result)))).result == Err(IdMismatch)
  {
  }
}

=== FILE: sessionstore.dfy ===
/** The in-memory session store: sessions keyed by id, dropped lazily once
    they have expired. The clock reading is an explicit `now`. */
module SessionStore {

  import opened Wrappers
  import opened GoTime

  datatype Session = Session(sid: string, expires: Instant, username: string)

  type Sessions = map<string, Session>

  /** The zero `Session{}` that a Go map lookup of a missing key yields. */
  const ZeroSession: Session := Session("", ZeroTime, "")

  /** Every session sits under its own id. */
  ghost predicate Valid(s: Sessions)
  {
    forall sid :: sid in s ==> s[sid].sid == sid
  }

  /** Stores `session` under its id, replacing any session with that id.
      An empty id makes the source panic, hence the precondition. */
  function Set(s: Sessions, session: Session): (r: Sessions)
    requires session.sid != ""
    ensures r.Keys == s.Keys + {session.sid}
    ensures r[session.sid] == session
    ensures forall sid :: sid in s && sid != session.sid ==> r[sid] == s[sid]
    ensures Valid(s) ==> Valid(r)
  {
    s[session.sid := session]
  }

  /** The outcome of `Get`: the new map and the session returned. */
  datatype Lookup = Lookup(sessions: Sessions, session: Option<Session>)

  /** Looks a session up at time `now`. A missing id reads as the zero
      session, whose expiry lies in year 1, so it is treated as expired; an
      expired session is removed and nothing is returned. */
  function Get(s: Sessions, sid: string, now: Instant): (r: Lookup)
    ensures sid in s && !After(now, s[sid].expires) ==> r == Lookup(s, Some(s[sid]))
    ensures sid in s && After(now, s[sid].expires) ==> r == Lookup(s - {sid}, None)
    ensures sid !in s && After(now, ZeroTime) ==> r == Lookup(s, None)
    ensures r.sessions.Keys <= s.Keys
    ensures forall k :: k in r.sessions ==> r.sessions[k] == s[k]
    ensures Valid(s) ==> Valid(r.sessions)
  {
    var session := if sid in s then s[sid] else ZeroSession;
    if After(now, session.expires) then Lookup(s - {sid}, None)
    else Lookup(s, Some(session))
  }

  /** Removes a session; an unknown id is a no-op. */
  function Delete(s: Sessions, sid: string): (r: Sessions)
    ensures sid !in r
    ensures r.Keys == s.Keys - {sid}
    ensures forall k :: k in r ==> r[k] == s[k]
    ensures sid !in s ==> r == s
    ensures Valid(s) ==> Valid(r)
  {
    s - {sid}
  }

  // ------------------------------------------------------------ properties

  /** A stored session reads back unchanged until it expires. */
  lemma SetThenGet(s: Sessions, session: Session, now: Instant)
    requires session.sid != ""
    requires !After(now, session.expires)
    ensures Get(Set(s, session), session.sid, now) == Lookup(Set(s, session), Some(session))
  {
  }

  /** Overwriting a session replaces what `Get` returns. */
  lemma OverwriteThenGet(s: Sessions, first: Session, second: Session, now: Instant)
    requires first.sid != "" && second.sid == first.sid
    requires !After(now, second.expires)
    ensures Get(Set(Set(s, first), second), first.sid, now).session == Some(second)
  {
  }

  /** After its expiry a session is no longer returned, and it is gone from the map. */
  lemma ExpiredIsGone(s: Sessions, session: Session, now: Instant)
    requires session.sid != ""
    requires After(now, session.expires)
    ensures Get(Set(s, session), session.sid, now).session.None?
    ensures session.sid !in Get(Set(s, session), session.sid, now).sessions
  {
  }

  /** Deleting another id leaves a session readable; deleting its own id
      makes it unreadable at any time after year 1. */
  lemma DeleteThenGet(s: Sessions, sid: string, other: string, now: Instant)
    requires sid in s && other != sid
    requires !After(now, s[sid].expires)
    requires After(now, ZeroTime)
    ensures Get(Delete(s, other), sid, now).session == Some(s[sid])
    ensures Get(Delete(s, sid), sid, now).session.None?
  {
  }
}

=== FILE: store.dfy ===
/** The admin UI's Vuex store: the signed-in user and their blog list, the
    two mutations, the sorted blog list, the optimistic blog edits and the
    actions that drive the API. An action is modelled as the list of
    mutations it commits, given the settled promises of the API calls it
    makes. */
module Store {

  import opened Wrappers
  import opened Strings
  import opened Loadable
  import opened Api
  import AdminServer

  datatype State = State(user: Data<User>, blogs: Data<seq<Blog>>)

  const Initial: State := State(Uninitialized, Uninitialized)

  datatype Mutation = SetUser(user: Data<User>) | SetBlogs(blogs: Data<seq<Blog>>)

  /** `setUser`: stores the user; the blog list is dropped when the new value
      is not a loaded user or names a different user than the loaded one. */
  function ApplySetUser(s: State, user: Data<User>): (r: State)
    ensures r.user == user
    ensures r.blogs == s.blogs <==>
      s.blogs == Uninitialized ||
      (user.Loaded? && !(s.user.Loaded? && s.user.data.username != user.data.username))
    ensures r.blogs != s.blogs ==> r.blogs == Uninitialized
  {
    if !user.Loaded? || (s.user.Loaded? && user.data.username != s.user.data.username)
    then State(user, Uninitialized)
    else State(user, s.blogs)
  }

  /** `setBlogs`: replaces the list, whatever it held. */
  function ApplySetBlogs(s: State, blogs: Data<seq<Blog>>): (r: State)
    ensures r.blogs == blogs && r.user == s.user
  {
    s.(blogs := blogs)
  }

  function Commit(s: State, m: Mutation): State
  {
    match m
    case SetUser(user) => ApplySetUser(s, user)
    case SetBlogs(blogs) => ApplySetBlogs(s, blogs)
  }

  /** The state after committing `ms` in order. */
  function CommitAll(s: State, ms: seq<Mutation>): State
    decreases |ms|
  {
    if |ms| == 0 then s else CommitAll(Commit(s, ms[0]), ms[1..])
  }

  lemma {:induction false} CommitAllAppend(s: State, a: seq<Mutation>, b: seq<Mutation>)
    ensures CommitAll(s, a + b) == CommitAll(CommitAll(s, a), b)
    decreases |a|
  {
    if |a| == 0 {
      assert a + b == b;
    } else {
      assert (a + b)[0] == a[0];
      assert (a + b)[1..] == a[1..] + b;
      CommitAllAppend(Commit(s, a[0]), a[1..], b);
    }
  }

  /** Committing two mutations is committing one after the other. */
  lemma CommitTwo(s: State, m1: Mutation, m2: Mutation)
    ensures CommitAll(s, [m1, m2]) == Commit(Commit(s, m1), m2)
  {
    assert [m1, m2][1..] == [m2];
    assert [m2][1..] == [];
    assert CommitAll(s, [m1, m2]) == CommitAll(Commit(s, m1), [m2]);
    assert CommitAll(Commit(s, m1), [m2]) == CommitAll(Commit(Commit(s, m1), m2), []);
  }

  /** Whoever signs in next, the blogs of the previous user are not shown:
      after any user change the list is either the same user's or empty. */
  lemma BlogsFollowTheUser(s: State, user: Data<User>)
    requires s.user.Loaded? && user.Loaded? && user.data.username != s.user.data.username
    ensures ApplySetUser(s, user).blogs == Uninitialized
    ensures ApplySetUser(ApplySetUser(s, user), user) == ApplySetUser(s, user)
  {
  }

  // -------------------------------------------------------------- sorting

  /** The sort key: the display name, or the slug when the name is absent
      or empty, lower-cased. */
  function SortKey(b: Blog): string
  {
    Lower(if b.displayName.Some? && b.displayName.value != "" then b.displayName.value else b.slug)
  }

  predicate LeByKey(a: Blog, b: Blog) { LexLe(SortKey(a), SortKey(b)) }

  /** Neighbours are in key order. */
  predicate Sorted(s: seq<Blog>)
  {
    forall i :: 0 < i < |s| ==> LeByKey(s[i - 1], s[i])
  }

  lemma SortedTail(s: seq<Blog>)
    requires Sorted(s) && |s| > 0
    ensures Sorted(s[1..])
  {
    forall i | 0 < i < |s[1..]| ensures LeByKey(s[1..][i - 1], s[1..][i]) {
      assert s[1..][i - 1] == s[i] && s[1..][i] == s[i + 1];
    }
  }

  /** Inserts `x` before the first element it does not sort after. */
  function Insert(x: Blog, s: seq<Blog>): (r: seq<Blog>)
    requires Sorted(s)
    ensures Sorted(r)
    ensures multiset(r) == multiset(s) + multiset{x}
    ensures |r| == |s| + 1
    ensures r[0] == x || (|s| > 0 && r[0] == s[0])
    decreases |s|, 1
  {
    if |s| == 0 then [x]
    else if LeByKey(x, s[0]) then
      assert Sorted([x] + s) by {
        forall i | 0 < i < |[x] + s| ensures LeByKey(([x] + s)[i - 1], ([x] + s)[i]) {
          if i > 1 { assert ([x] + s)[i - 1] == s[i - 2] && ([x] + s)[i] == s[i - 1]; }
        }
      }
      [x] + s
    else
      InsertStep(x, s);
      [s[0]] + Insert(x, s[1..])
  }

  /** The inductive step of `Insert`: `x` goes after the head. */
  lemma InsertStep(x: Blog, s: seq<Blog>)
    requires Sorted(s) && |s| > 0 && !LeByKey(x, s[0])
    ensures Sorted(s[1..])
    ensures Sorted([s[0]] + Insert(x, s[1..]))
    ensures multiset([s[0]] + Insert(x, s[1..])) == multiset(s) + multiset{x}
    decreases |s|, 0
  {
    SortedTail(s);
    LexLeTotal(SortKey(x), SortKey(s[0]));
    var rest := Insert(x, s[1..]);
    var r := [s[0]] + rest;
    forall i | 0 < i < |r| ensures LeByKey(r[i - 1], r[i]) {
      if i == 1 {
        assert r[1] == rest[0];
      } else {
        assert r[i - 1] == rest[i - 2] && r[i] == rest[i - 1];
      }
    }
    assert s == [s[0]] + s[1..];
  }

  /** `sortBlogList`: a new list holding the same blogs, in key order. The
      argument is a value and cannot be changed. */
  function SortBlogList(list: seq<Blog>): (r: seq<Blog>)
    ensures Sorted(r)
    ensures multiset(r) == multiset(list)
  {
    if |list| == 0 then []
    else
      assert list == [list[0]] + list[1..];
      Insert(list[0], SortBlogList(list[1..]))
  }

  /** Sorted neighbours make every pair sorted. */
  lemma {:induction false} SortedPairwise(s: seq<Blog>, i: int, j: int)
    requires Sorted(s) && 0 <= i < j < |s|
    ensures LeByKey(s[i], s[j])
    decreases j - i
  {
    if j == i + 1 {
    } else {
      SortedPairwise(s, i, j - 1);
      LexLeTransitive(SortKey(s[i]), SortKey(s[j - 1]), SortKey(s[j]));
    }
  }

  /** A sorted list is left as it is, so sorting twice is sorting once. */
  lemma {:induction false} SortKeepsSorted(s: seq<Blog>)
    requires Sorted(s)
    ensures SortBlogList(s) == s
    decreases |s|
  {
    if |s| > 0 {
      assert Sorted(s[1..]) by {
        forall i | 0 < i < |s[1..]| ensures LeByKey(s[1..][i - 1], s[1..][i]) {
          assert s[1..][i - 1] == s[i] && s[1..][i] == s[i + 1];
        }
      }
      SortKeepsSorted(s[1..]);
      if |s| > 1 {
        assert LeByKey(s[0], s[1]);
        assert s[1..][0] == s[1];
      }
      assert [s[0]] + s[1..] == s;
    }
  }

  // ------------------------------------------------------ list transforms

  /** The blogs whose slug is not `slug`, in order. */
  function WithoutSlug(blogs: seq<Blog>, slug: string): (r: seq<Blog>)
    ensures forall i :: 0 <= i < |r| ==> r[i].slug != slug && r[i] in blogs
    ensures forall i :: 0 <= i < |blogs| && blogs[i].slug != slug ==> blogs[i] in r
    ensures |r| <= |blogs|
  {
    if |blogs| == 0 then []
    else if blogs[0].slug == slug then WithoutSlug(blogs[1..], slug)
    else
      var rest := WithoutSlug(blogs[1..], slug);
      assert forall i :: 1 <= i < |blogs| ==> blogs[i] == blogs[1..][i - 1];
      [blogs[0]] + rest
  }

  /** The local change an edit makes to the list. */
  datatype Edit = CreateEdit(blog: Blog) | UpdateEdit(blog: Blog) | DeleteEdit(slug: string)

  /** Create appends (duplicates included), update replaces every entry with
      the blog's slug by the blog, delete drops every entry with the slug. */
  function ApplyEdit(e: Edit, blogs: seq<Blog>): seq<Blog>
  {
    match e
    case CreateEdit(blog) => blogs + [blog]
    case UpdateEdit(blog) => WithoutSlug(blogs, blog.slug) + [blog]
    case DeleteEdit(slug) => WithoutSlug(blogs, slug)
  }

  /** What each transform keeps and drops. */
  lemma EditEffects(e: Edit, blogs: seq<Blog>)
    ensures e.CreateEdit? ==>
      && |ApplyEdit(e, blogs)| == |blogs| + 1 && ApplyEdit(e, blogs)[..|blogs|] == blogs
      && ApplyEdit(e, blogs)[|blogs|] == e.blog
    ensures e.UpdateEdit? ==>
      var r := ApplyEdit(e, blogs);
      && |r| >= 1 && r[|r| - 1] == e.blog
      && (forall i :: 0 <= i < |r| - 1 ==> r[i].slug != e.blog.slug)
      && (forall b :: b in blogs && b.slug != e.blog.slug ==> b in r)
      && (forall b :: b in r && b != e.blog ==> b in blogs)
    ensures e.DeleteEdit? ==>
      && (forall b :: b in ApplyEdit(e, blogs) ==> b.slug != e.slug && b in blogs)
      && (forall b :: b in blogs && b.slug != e.slug ==> b in ApplyEdit(e, blogs))
  {
    if e.CreateEdit? {
      assert (blogs + [e.blog])[..|blogs|] == blogs;
    }
  }

  /** The API request behind each edit. */
  function EditRequest(e: Edit): Request
  {
    match e
    case CreateEdit(blog) => CreateBlog(blog)
    case UpdateEdit(blog) => UpdateBlog(blog)
    case DeleteEdit(slug) => DeleteBlog(slug)
  }

  /** One run of `editBlogsHelper`: the mutations it committed, the request
      it sent (if any), and how its promise settled. */
  datatype EditRun = EditRun(commits: seq<Mutation>, request: Option<Request>, result: Promise<()>)

  /** The optimistic edit: it needs a loaded list, snapshots it, commits the
      loading state, sends the request and, once `outcome` settles, commits
      either the sorted edited snapshot or the snapshot itself (passing the
      rejection on). */
  function EditBlogsHelper(s: State, e: Edit, outcome: Promise<()>): (r: EditRun)
    ensures !s.blogs.Loaded? ==> r == EditRun([], None, Rejected(Text("Invalid base state")))
    ensures s.blogs.Loaded? ==>
      && r.request == Some(EditRequest(e))
      && |r.commits| == 2 && r.commits[0] == SetBlogs(Loading)
      && r.result == outcome
    ensures s.blogs.Loaded? && outcome.Resolved? ==>
      r.commits[1] == SetBlogs(Loaded(SortBlogList(ApplyEdit(e, s.blogs.data))))
    ensures s.blogs.Loaded? && outcome.Rejected? ==>
      r.commits[1] == SetBlogs(Loaded(s.blogs.data))
  {
    if !s.blogs.Loaded? then EditRun([], None, Rejected(Text("Invalid base state")))
    else
      var snapshot := s.blogs.data;
      var settle := match outcome
        case Resolved(_) => SetBlogs(Loaded(SortBlogList(ApplyEdit(e, snapshot))))
        case Rejected(_) => SetBlogs(Loaded(snapshot));
      EditRun([SetBlogs(Loading), settle], Some(EditRequest(e)), outcome)
  }

  /** The final list depends on the snapshot only: whatever other actions
      committed while the request was in flight, a success leaves the sorted
      edited snapshot and a failure the snapshot itself. */
  lemma {:induction false} EditSettlesFromSnapshot(s: State, e: Edit, outcome: Promise<()>, meanwhile: seq<Mutation>)
    requires s.blogs.Loaded?
    ensures var r := EditBlogsHelper(s, e, outcome);
      var settled := CommitAll(CommitAll(Commit(s, r.commits[0]), meanwhile), r.commits[1..]);
      && (outcome.Resolved? ==> settled.blogs == Loaded(SortBlogList(ApplyEdit(e, s.blogs.data))))
      && (outcome.Rejected? ==> settled.blogs == Loaded(s.blogs.data))
  {
    var r := EditBlogsHelper(s, e, outcome);
    assert r.commits[1..] == [r.commits[1]];
    assert r.commits[1..][1..] == [];
  }

  /** A failed edit gives back exactly the list it started from. */
  lemma FailedEditRestores(s: State, e: Edit, reason: Reason)
    requires s.blogs.Loaded?
    ensures CommitAll(s, EditBlogsHelper(s, e, Rejected(reason)).commits) == s
  {
    var r := EditBlogsHelper(s, e, Rejected(reason));
    assert r.commits == [SetBlogs(Loading), SetBlogs(Loaded(s.blogs.data))];
    CommitTwo(s, SetBlogs(Loading), SetBlogs(Loaded(s.blogs.data)));
  }

  /** Creating a blog and then deleting its slug, both accepted, leaves the
      sorted list of the other blogs. */
  lemma CreateThenDelete(s: State, blog: Blog)
    requires s.blogs.Loaded?
    requires forall b :: b in s.blogs.data ==> b.slug != blog.slug
    ensures var s1 := CommitAll(s, EditBlogsHelper(s, CreateEdit(blog), Resolved(())).commits);
      var s2 := CommitAll(s1, EditBlogsHelper(s1, DeleteEdit(blog.slug), Resolved(())).commits);
      && s1.blogs.Loaded? && s2.blogs.Loaded?
      && multiset(s2.blogs.data) == multiset(s.blogs.data)
  {
    var list := s.blogs.data;
    var r1 := EditBlogsHelper(s, CreateEdit(blog), Resolved(()));
    CommitTwo(s, r1.commits[0], r1.commits[1]);
    assert r1.commits == [r1.commits[0], r1.commits[1]];
    var s1 := CommitAll(s, r1.commits);
    var created := SortBlogList(list + [blog]);
    assert s1.blogs == Loaded(created);
    var r2 := EditBlogsHelper(s1, DeleteEdit(blog.slug), Resolved(()));
    CommitTwo(s1, r2.commits[0], r2.commits[1]);
    assert r2.commits == [r2.commits[0], r2.commits[1]];
    var s2 := CommitAll(s1, r2.commits);
    var kept := WithoutSlug(created, blog.slug);
    assert s2.blogs == Loaded(SortBlogList(kept));
    WithoutFresh(list, blog);
    WithoutSlugMultiset(created, list + [blog], blog.slug);
  }

  /** Dropping a slug nobody else uses undoes appending its blog. */
  lemma {:induction false} WithoutFresh(list: seq<Blog>, blog: Blog)
    requires forall b :: b in list ==> b.slug != blog.slug
    ensures WithoutSlug(list + [blog], blog.slug) == list
    decreases |list|
  {
    if |list| == 0 {
      assert [blog][1..] == [];
    } else {
      assert (list + [blog])[1..] == list[1..] + [blog];
      WithoutFresh(list[1..], blog);
      assert [list[0]] + list[1..] == list;
    }
  }

  /** Filtering by slug commutes with reordering. */
  lemma {:induction false} WithoutSlugMultiset(a: seq<Blog>, b: seq<Blog>, slug: string)
    requires multiset(a) == multiset(b)
    ensures multiset(WithoutSlug(a, slug)) == multiset(WithoutSlug(b, slug))
  {
    forall x ensures multiset(WithoutSlug(a, slug))[x] == multiset(WithoutSlug(b, slug))[x] {
      WithoutSlugCount(a, slug, x);
      WithoutSlugCount(b, slug, x);
    }
  }

  lemma {:induction false} WithoutSlugCount(a: seq<Blog>, slug: string, x: Blog)
    ensures multiset(WithoutSlug(a, slug))[x] == if x.slug == slug then 0 else multiset(a)[x]
    decreases |a|
  {
    if |a| > 0 {
      WithoutSlugCount(a[1..], slug, x);
      assert a == [a[0]] + a[1..];
    }
  }

  // --------------------------------------------------------------- actions

  const AuthRequiredText: string := "This method requires authentication"
  const BadCredentialsText: string := "Invalid username and/or password"

  /** How `checkLogin` reads a failed `Whoami`: a message mentioning that
      authentication is required means "signed out", anything else an error. */
  function WhoamiFailure(err: string): (d: Data<User>)
    ensures Contains(err, AuthRequiredText) ==> d == Uninitialized
    ensures !Contains(err, AuthRequiredText) ==> d == Error(err)
  {
    IndexOfFindsOccurrence(err, AuthRequiredText);
    if IndexOf(err, AuthRequiredText, 0) != -1 then Uninitialized else Error(err)
  }

  /** What an action did: the mutations it committed, in order, and how the
      promise it returned settled. */
  datatype Run = Run(commits: seq<Mutation>, result: Promise<()>)

  /** The exception `err.indexOf(...)` raises when `err` is not a string. */
  const IndexOfNotAFunction: Reason := Thrown("err.indexOf is not a function")

  /** `checkLogin`, given the settled `Whoami` call. A string rejection is
      classified by `WhoamiFailure`; an exception object has no `indexOf`, so
      the handler itself throws: only the loading state is committed and the
      action's promise rejects. */
  function CheckLogin(whoami: Promise<User>): (r: Run)
    ensures |r.commits| >= 1 && r.commits[0] == SetUser(Loading)
    ensures whoami.Resolved? ==> r == Run([SetUser(Loading), SetUser(Loaded(whoami.value))], Resolved(()))
    ensures whoami.Rejected? && whoami.reason.Text? ==>
      r == Run([SetUser(Loading), SetUser(WhoamiFailure(whoami.reason.text))], Resolved(()))
    ensures r.result.Rejected? <==> whoami.Rejected? && whoami.reason.Thrown?
    ensures r.result.Rejected? ==> r.commits == [SetUser(Loading)]
  {
    match whoami
    case Resolved(user) => Run([SetUser(Loading), SetUser(Loaded(user))], Resolved(()))
    case Rejected(Text(err)) => Run([SetUser(Loading), SetUser(WhoamiFailure(err))], Resolved(()))
    case Rejected(Thrown(_)) => Run([SetUser(Loading)], Rejected(IndexOfNotAFunction))
  }

  /** `login`, given the settled form post and, when that succeeds, the
      settled `Whoami` of the `checkLogin` it dispatches, whose promise it
      returns. */
  function Login(login: Promise<bool>, whoami: Promise<User>): (r: Run)
    ensures |r.commits| >= 2 && r.commits[0] == SetUser(Loading)
    ensures login == Resolved(true) ==>
      r == Run([SetUser(Loading)] + CheckLogin(whoami).commits, CheckLogin(whoami).result)
    ensures login == Resolved(false) ==> r == Run([SetUser(Loading), SetUser(Error(BadCredentialsText))], Resolved(()))
    ensures login.Rejected? ==> r == Run([SetUser(Loading), SetUser(Error(Describe(login.reason)))], Resolved(()))
    ensures r.result.Rejected? <==> login == Resolved(true) && whoami.Rejected? && whoami.reason.Thrown?
  {
    match login
    case Resolved(ok) =>
      if ok then
        var check := CheckLogin(whoami);
        Run([SetUser(Loading)] + check.commits, check.result)
      else Run([SetUser(Loading), SetUser(Error(BadCredentialsText))], Resolved(()))
    case Rejected(err) => Run([SetUser(Loading), SetUser(Error(Describe(err)))], Resolved(()))
  }

  /** `register`: creates the account, then logs in with its credentials and
      returns that login's promise. */
  function Register(register: Promise<()>, login: Promise<bool>, whoami: Promise<User>): (r: Run)
    ensures |r.commits| >= 2 && r.commits[0] == SetUser(Loading)
    ensures register.Resolved? ==> r == Run([SetUser(Loading)] + Login(login, whoami).commits, Login(login, whoami).result)
    ensures register.Rejected? ==> r == Run([SetUser(Loading), SetUser(Error(Describe(register.reason)))], Resolved(()))
    ensures r.result.Rejected? <==>
      register.Resolved? && login == Resolved(true) && whoami.Rejected? && whoami.reason.Thrown?
  {
    match register
    case Resolved(_) =>
      var signIn := Login(login, whoami);
      Run([SetUser(Loading)] + signIn.commits, signIn.result)
    case Rejected(err) => Run([SetUser(Loading), SetUser(Error(Describe(err)))], Resolved(()))
  }

  /** `logout`: its promise always resolves. */
  function Logout(logout: Promise<()>): (r: Run)
    ensures r.result == Resolved(())
    ensures logout.Resolved? ==> r.commits == [SetUser(Loading), SetUser(Uninitialized)]
    ensures logout.Rejected? ==> r.commits == [SetUser(Loading), SetUser(Error(Describe(logout.reason)))]
  {
    match logout
    case Resolved(_) => Run([SetUser(Loading), SetUser(Uninitialized)], Resolved(()))
    case Rejected(err) => Run([SetUser(Loading), SetUser(Error(Describe(err)))], Resolved(()))
  }

  /** `loadBlogs`; a null list from the server counts as empty, and the
      promise always resolves. */
  function LoadBlogs(list: Promise<Option<seq<Blog>>>): (r: Run)
    ensures r.result == Resolved(())
    ensures list == Resolved(None) ==> r.commits == [SetBlogs(Loading), SetBlogs(Loaded([]))]
    ensures list.Resolved? && list.value.Some? ==> r.commits == [SetBlogs(Loading), SetBlogs(Loaded(list.value.value))]
    ensures list.Rejected? ==> r.commits == [SetBlogs(Loading), SetBlogs(Error(Describe(list.reason)))]
  {
    match list
    case Resolved(blogs) => Run([SetBlogs(Loading), SetBlogs(Loaded(if blogs.Some? then blogs.value else []))], Resolved(()))
    case Rejected(err) => Run([SetBlogs(Loading), SetBlogs(Error(Describe(err)))], Resolved(()))
  }

  /** Committing a two-mutation run. */
  lemma CommitPair(s: State, ms: seq<Mutation>)
    requires |ms| == 2
    ensures CommitAll(s, ms) == Commit(Commit(s, ms[0]), ms[1])
  {
    assert ms == [ms[0], ms[1]];
    CommitTwo(s, ms[0], ms[1]);
  }

  /** Any sign-in attempt, whatever its outcome, ends with no blog list
      unless it loads the same user again. */
  lemma {:induction false} SignInForgetsBlogs(s: State, login: Promise<bool>, whoami: Promise<User>)
    requires !(login == Resolved(true) && whoami.Resolved?)
    ensures CommitAll(s, Login(login, whoami).commits).blogs == Uninitialized
    ensures login == Resolved(false) ==> CommitAll(s, Login(login, whoami).commits).user == Error(BadCredentialsText)
  {
    var ms := Login(login, whoami).commits;
    if login == Resolved(true) {
      var c := CheckLogin(whoami).commits;
      assert ms == [SetUser(Loading)] + c;
      assert ms[1..] == c;
      if |c| == 1 {
        CommitPair(s, ms);
      } else {
        assert ms == [SetUser(Loading), c[0], c[1]];
        CommitTwo(Commit(s, ms[0]), c[0], c[1]);
      }
    } else {
      CommitPair(s, ms);
    }
  }

  /** A `Whoami` that rejects with an exception object (the network failed,
      or the body was not JSON) leaves the user in the loading state for
      good, and the rejection reaches whoever dispatched `login` or
      `register`. */
  lemma ThrownWhoamiLeavesLoading(s: State, whoami: Promise<User>)
    requires whoami.Rejected? && whoami.reason.Thrown?
    ensures CommitAll(s, CheckLogin(whoami).commits).user == Loading
    ensures CommitAll(s, Login(Resolved(true), whoami).commits).user == Loading
    ensures CommitAll(s, Register(Resolved(()), Resolved(true), whoami).commits).user == Loading
    ensures Register(Resolved(()), Resolved(true), whoami).result == Rejected(IndexOfNotAFunction)
  {
    assert CheckLogin(whoami).commits == [SetUser(Loading)];
    CommitPair(s, Login(Resolved(true), whoami).commits);
    var ms := Register(Resolved(()), Resolved(true), whoami).commits;
    assert ms == [SetUser(Loading), SetUser(Loading), SetUser(Loading)];
    assert ms[1..] == [SetUser(Loading), SetUser(Loading)];
    CommitPair(Commit(s, ms[0]), ms[1..]);
  }

  /** A registration that is accepted, logs in and reads the user back ends
      signed in as that user, with no blog list yet; a refused registration
      shows its reason. */
  lemma RegisterSignsIn(s: State, user: User, reason: Reason)
    ensures CommitAll(s, Register(Resolved(()), Resolved(true), Resolved(user)).commits) == State(Loaded(user), Uninitialized)
    ensures Register(Resolved(()), Resolved(true), Resolved(user)).result == Resolved(())
    ensures CommitAll(s, Register(Rejected(reason), Resolved(true), Resolved(user)).commits) == State(Error(Describe(reason)), Uninitialized)
  {
    var ms := Register(Resolved(()), Resolved(true), Resolved(user)).commits;
    assert ms == [SetUser(Loading), SetUser(Loading), SetUser(Loading), SetUser(Loaded(user))];
    assert ms[1..][1..] == [SetUser(Loading), SetUser(Loaded(user))];
    CommitPair(Commit(Commit(s, ms[0]), ms[1]), ms[1..][1..]);
    CommitPair(s, Register(Rejected(reason), Resolved(true), Resolved(user)).commits);
  }

  /** A logout that succeeds forgets the user and the blogs, leaving the
      initial state; one that fails shows its reason and has no blog list. */
  lemma LogoutSignsOut(s: State, reason: Reason)
    ensures CommitAll(s, Logout(Resolved(())).commits) == Initial
    ensures CommitAll(s, Logout(Rejected(reason)).commits) == State(Error(Describe(reason)), Uninitialized)
  {
    CommitPair(s, Logout(Resolved(())).commits);
    CommitPair(s, Logout(Rejected(reason)).commits);
  }

  /** Loading the blogs leaves the user alone; a null answer becomes the
      empty list, a list is kept as sent, and a failure shows its reason. */
  lemma LoadBlogsSettles(s: State, blogs: seq<Blog>, reason: Reason)
    ensures CommitAll(s, LoadBlogs(Resolved(None)).commits) == s.(blogs := Loaded([]))
    ensures CommitAll(s, LoadBlogs(Resolved(Some(blogs))).commits) == s.(blogs := Loaded(blogs))
    ensures CommitAll(s, LoadBlogs(Rejected(reason)).commits) == s.(blogs := Error(Describe(reason)))
  {
    CommitPair(s, LoadBlogs(Resolved(None)).commits);
    CommitPair(s, LoadBlogs(Resolved(Some(blogs))).commits);
    CommitPair(s, LoadBlogs(Rejected(reason)).commits);
  }

  /** A `Whoami` refused by the admin server for want of a session, as the
      RPC layer reports it, leaves the UI signed out rather than in error. */
  lemma WhoamiWithoutSession(s: State, parseError: string, result: User)
    ensures var reply := RpcResponse(200, Some(ReplyBody(Some(AdminServer.Message(AdminServer.RequireAuthentication)), result)), parseError);
      CommitAll(s, CheckLogin(Classify(Whoami().rpcMethod, reply)).commits).user == Uninitialized
  {
    var msg := AdminServer.Message(AdminServer.RequireAuthentication);
    assert msg == AuthRequiredText;
    var err := "RPC Error (" + "Users.Whoami" + "): " + msg;
    assert OccursAt(err, AuthRequiredText, |err| - |msg|) by {
      assert err[|err| - |msg|..] == msg;
    }
    CommitPair(s, CheckLogin(Rejected(Text(err))).commits);
  }

  /** The blog actions are `editBlogsHelper` with the matching transform. */
  function CreateBlogAction(s: State, blog: Blog, outcome: Promise<()>): (r: EditRun)
    ensures r.request.Some? ==> r.request.value.rpcMethod == "Blogs.Create"
  {
    EditBlogsHelper(s, CreateEdit(blog), outcome)
  }

  function EditBlogAction(s: State, blog: Blog, outcome: Promise<()>): (r: EditRun)
    ensures r.request.Some? ==> r.request.value.rpcMethod == "Blogs.Update"
  {
    EditBlogsHelper(s, UpdateEdit(blog), outcome)
  }

  function DeleteBlogAction(s: State, slug: string, outcome: Promise<()>): (r: EditRun)
    ensures r.request.Some? ==> r.request.value == Request("Blogs.Delete", Some(SlugParams(slug)))
  {
    EditBlogsHelper(s, DeleteEdit(slug), outcome)
  }
}

=== FILE: strings.dfy ===
/** Character-level helpers shared by the model: decimal and hexadecimal
    renderings with their parsers, substring search, ASCII lowercasing and a
    lexicographic order on strings. */
module Strings {

  import opened Wrappers

  // ---------------------------------------------------------------- decimal

  predicate IsDigit(c: char) { '0' <= c <= '9' }

  predicate AllDigits(s: string) { forall i :: 0 <= i < |s| ==> IsDigit(s[i]) }

  function DigitChar(d: nat): (c: char)
    requires d < 10
    ensures IsDigit(c) && c as int - '0' as int == d
  {
    ('0' as int + d) as char
  }

  /** The canonical base-10 rendering of `n`, as Go's `strconv.FormatUint(n, 10)`
      and JavaScript's `'' + n` produce it: digits only, no leading zero. */
  function NatToDecimal(n: nat): (s: string)
    ensures |s| >= 1 && AllDigits(s)
    ensures s[0] == '0' <==> n == 0
    ensures n < 10 <==> |s| == 1
    decreases n
  {
    if n < 10 then [DigitChar(n)] else NatToDecimal(n / 10) + [DigitChar(n % 10)]
  }

  /** The number a string of digits denotes (leading zeros allowed). */
  function DecimalValue(s: string): nat
    requires AllDigits(s)
  {
    if |s| == 0 then 0 else 10 * DecimalValue(s[..|s| - 1]) + (s[|s| - 1] as int - '0' as int)
  }

  /** Reading back a rendered number gives the number. */
  lemma {:induction false} DecimalRoundTrip(n: nat)
    ensures DecimalValue(NatToDecimal(n)) == n
    decreases n
  {
    if n >= 10 {
      var p := NatToDecimal(n / 10);
      var s := p + [DigitChar(n % 10)];
      assert s[..|s| - 1] == p;
      DecimalRoundTrip(n / 10);
    }
  }

  /** Distinct numbers have distinct renderings. */
  lemma NatToDecimalInjective(a: nat, b: nat)
    ensures NatToDecimal(a) == NatToDecimal(b) ==> a == b
  {
    DecimalRoundTrip(a);
    DecimalRoundTrip(b);
  }

  /** Go's `%d` of a signed integer: a minus sign before the magnitude. */
  function IntToDecimal(i: int): (s: string)
    ensures |s| >= 1
    ensures i < 0 <==> s[0] == '-'
    ensures i >= 0 ==> AllDigits(s)
    ensures i < 0 ==> AllDigits(s[1..])
  {
    if i < 0 then "-" + NatToDecimal(-i) else NatToDecimal(i)
  }

  /** The signed value a `%d` rendering denotes. */
  function SignedDecimalValue(s: string): int
    requires |s| >= 1
    requires if s[0] == '-' then AllDigits(s[1..]) else AllDigits(s)
  {
    if s[0] == '-' then -(DecimalValue(s[1..]) as int) else DecimalValue(s)
  }

  lemma IntToDecimalRoundTrip(i: int)
    ensures SignedDecimalValue(IntToDecimal(i)) == i
  {
    if i < 0 {
      var d := NatToDecimal(-i);
      var s := "-" + d;
      assert s[0] == '-' && s[1..] == d;
      DecimalRoundTrip(-i);
    } else {
      DecimalRoundTrip(i);
    }
  }

  // ------------------------------------------------------------ hexadecimal

  /** The lower-case hexadecimal digit of `d`. */
  function HexDigit(d: nat): (c: char)
    requires d < 16
    ensures HexValue(c) == Some(d)
  {
    if d < 10 then ('0' as int + d) as char else ('a' as int + d - 10) as char
  }

  /** The value of one hexadecimal digit, either case, as Go's `hex` package reads it. */
  function HexValue(c: char): (r: Option<nat>)
    ensures r.Some? ==> r.value < 16
    ensures r.Some? <==> ('0' <= c <= '9' || 'a' <= c <= 'f' || 'A' <= c <= 'F')
  {
    if '0' <= c <= '9' then Some(c as int - '0' as int)
    else if 'a' <= c <= 'f' then Some(c as int - 'a' as int + 10)
    else if 'A' <= c <= 'F' then Some(c as int - 'A' as int + 10)
    else None
  }

  predicate IsHexDigit(c: char) { HexValue(c).Some? }

  predicate AllHex(s: string) { forall i :: 0 <= i < |s| ==> IsHexDigit(s[i]) }

  /** The minimal lower-case hexadecimal rendering of `n` (Go's `%x`). */
  function NatToHex(n: nat): (s: string)
    ensures |s| >= 1 && AllHex(s)
    ensures s[0] == '0' <==> n == 0
    decreases n
  {
    if n < 16 then [HexDigit(n)] else NatToHex(n / 16) + [HexDigit(n % 16)]
  }

  /** The number a string of hexadecimal digits denotes. */
  function HexNumber(s: string): nat
    requires AllHex(s)
  {
    if |s| == 0 then 0 else 16 * HexNumber(s[..|s| - 1]) + HexValue(s[|s| - 1]).value
  }

  lemma {:induction false} HexRoundTrip(n: nat)
    ensures HexNumber(NatToHex(n)) == n
    decreases n
  {
    if n >= 16 {
      var p := NatToHex(n / 16);
      var s := p + [HexDigit(n % 16)];
      assert s[..|s| - 1] == p;
      HexRoundTrip(n / 16);
    }
  }

  /** `n` needs at most `k` hexadecimal digits. */
  lemma {:induction false} NatToHexLength(n: nat, k: nat)
    requires n < Pow16(k)
    ensures |NatToHex(n)| <= k || (n == 0 && k == 0)
    decreases k
  {
    if n >= 16 {
      NatToHexLength(n / 16, k - 1);
    } else if k == 0 {
      assert n == 0;
    }
  }

  function Pow16(k: nat): (p: nat)
    ensures p >= 1
  {
    if k == 0 then 1 else 16 * Pow16(k - 1)
  }

  /** Left-pads `s` with `c` up to width `w`; a longer `s` is left as is (fmt's width rule). */
  function PadLeft(s: string, w: nat, c: char): (r: string)
    ensures |s| >= w ==> r == s
    ensures |s| < w ==> |r| == w && r[w - |s|..] == s
    ensures forall i :: 0 <= i < |r| - |s| ==> r[i] == c
  {
    if |s| >= w then s else seq(w - |s|, _ => c) + s
  }

  /** Leading zeros do not change the value of a hexadecimal string. */
  lemma {:induction false} HexNumberLeadingZeros(z: nat, s: string)
    requires AllHex(s)
    ensures AllHex(seq(z, _ => '0') + s)
    ensures HexNumber(seq(z, _ => '0') + s) == HexNumber(s)
    decreases |s|
  {
    var t := seq(z, _ => '0') + s;
    assert AllHex(t) by {
      forall i | 0 <= i < |t| ensures IsHexDigit(t[i]) {
        if i >= z { assert t[i] == s[i - z]; }
      }
    }
    if |s| == 0 {
      assert t == seq(z, _ => '0');
      ZerosAreZero(z);
    } else {
      assert t[..|t| - 1] == seq(z, _ => '0') + s[..|s| - 1];
      HexNumberLeadingZeros(z, s[..|s| - 1]);
    }
  }

  lemma {:induction false} ZerosAreZero(z: nat)
    ensures AllHex(seq(z, _ => '0'))
    ensures HexNumber(seq(z, _ => '0')) == 0
    decreases z
  {
    if z > 0 {
      assert seq(z, _ => '0')[..z - 1] == seq(z - 1, _ => '0');
      ZerosAreZero(z - 1);
    }
  }

  // -------------------------------------------------------------- substrings

  predicate HasPrefix(s: string, p: string) { |p| <= |s| && s[..|p|] == p }

  predicate HasSuffix(s: string, p: string) { |p| <= |s| && s[|s| - |p|..] == p }

  /** `pat` occurs in `s` starting at position `i`. */
  predicate OccursAt(s: string, pat: string, i: nat) { i + |pat| <= |s| && s[i..i + |pat|] == pat }

  /** JavaScript's `s.indexOf(pat, from)`: the first occurrence at or after `from`, or -1. */
  function IndexOf(s: string, pat: string, from: nat): (r: int)
    ensures r == -1 || (from <= r && OccursAt(s, pat, r))
    ensures r == -1 ==> forall j :: from <= j ==> !OccursAt(s, pat, j)
    ensures r != -1 ==> forall j :: from <= j < r ==> !OccursAt(s, pat, j)
    decreases |s| + 1 - from
  {
    if from + |pat| > |s| then -1
    else if s[from..from + |pat|] == pat then from
    else IndexOf(s, pat, from + 1)
  }

  predicate Contains(s: string, pat: string) { exists i: nat | i <= |s| :: OccursAt(s, pat, i) }

  /** `indexOf(pat) !== -1` is exactly "pat occurs somewhere in s". */
  lemma IndexOfFindsOccurrence(s: string, pat: string)
    ensures IndexOf(s, pat, 0) != -1 <==> Contains(s, pat)
  {
    var r := IndexOf(s, pat, 0);
    if r != -1 {
      assert OccursAt(s, pat, r as nat);
    }
  }

  // --------------------------------------------------- case and ordering

  /** JavaScript's `toLowerCase` restricted to ASCII letters. */
  function LowerChar(c: char): char
  {
    if 'A' <= c <= 'Z' then (c as int - 'A' as int + 'a' as int) as char else c
  }

  function Lower(s: string): (r: string)
    ensures |r| == |s|
    ensures forall i :: 0 <= i < |s| ==> r[i] == LowerChar(s[i])
  {
    seq(|s|, i requires 0 <= i < |s| => LowerChar(s[i]))
  }

  /** Lexicographic order on code units, with a proper prefix first. */
  predicate LexLe(a: string, b: string)
    decreases |a|
  {
    |a| == 0 || (|b| > 0 && (a[0] < b[0] || (a[0] == b[0] && LexLe(a[1..], b[1..]))))
  }

  lemma {:induction false} LexLeTotal(a: string, b: string)
    ensures LexLe(a, b) || LexLe(b, a)
    decreases |a|
  {
    if |a| > 0 && |b| > 0 && a[0] == b[0] {
      LexLeTotal(a[1..], b[1..]);
    }
  }

  lemma {:induction false} LexLeTransitive(a: string, b: string, c: string)
    requires LexLe(a, b) && LexLe(b, c)
    ensures LexLe(a, c)
    decreases |a|
  {
    if |a| > 0 && a[0] == b[0] && b[0] == c[0] {
      LexLeTransitive(a[1..], b[1..], c[1..]);
    }
  }
}

=== FILE: userstore.dfy ===
/** The account records of the admin server and their validation rules. */
module UserStore {

  import opened Wrappers

  datatype User = User(username: string, password: string, displayName: string)

  datatype Blog = Blog(slug: string, displayName: string)

  /** The store's sentinel errors. */
  datatype StoreError =
    | AlreadyExists
    | DoesNotExist
    | UsernameEmpty
    | PasswordEmpty
    | BlogAlreadyExists
    | BlogDoesNotExist
    | BlogSlugEmpty

  /** The text each sentinel error carries; it is what RPC clients see. */
  function Message(e: StoreError): string
  {
    match e
    case AlreadyExists => "User already exists"
    case DoesNotExist => "User does not exist"
    case UsernameEmpty => "Username cannot be empty"
    case PasswordEmpty => "Password cannot be empty"
    case BlogAlreadyExists => "A blog with this slug already exists"
    case BlogDoesNotExist => "Blog does not exist"
    case BlogSlugEmpty => "Blog slug cannot be empty"
  }

  /** A user record is acceptable when it has a name and, unless the caller
      allows it, a password; the name is checked first. */
  function ValidateUser(user: User, allowEmptyPassword: bool): (r: Option<StoreError>)
    ensures r == Some(UsernameEmpty) <==> user.username == ""
    ensures r == Some(PasswordEmpty) <==> user.username != "" && !allowEmptyPassword && user.password == ""
    ensures r.None? <==> user.username != "" && (allowEmptyPassword || user.password != "")
  {
    if user.username == "" then Some(UsernameEmpty)
    else if !allowEmptyPassword && user.password == "" then Some(PasswordEmpty)
    else None
  }

  /** A blog is acceptable exactly when it has a slug. */
  function ValidateBlog(blog: Blog): (r: Option<StoreError>)
    ensures r == Some(BlogSlugEmpty) <==> blog.slug == ""
    ensures r.None? <==> blog.slug != ""
  {
    if blog.slug == "" then Some(BlogSlugEmpty) else None
  }
}

=== FILE: workqueue.dfy ===
/** What every job queue shares: the entry handed to workers and the
    "queue is full" error. */
module WorkQueue {

  import opened GoTime

  /** A job as workers see it: its identifier, its time-to-run and its payload. */
  datatype JobEntry<D> = JobEntry(id: string, ttr: Duration, data: D)

  /** The errors a queue operation reports; the last three carry the Redis
      client's error text. */
  datatype QueueError =
    | QueueFull | EncodeFailed | DecodeFailed | ScriptFailed
    | PushFailed(reason: string) | PickFailed(reason: string) | RemoveFailed(reason: string)

  function Message(e: QueueError): string
  {
    match e
    case QueueFull => "Queue is full"
    case EncodeFailed => "Error while encoding entry data"
    case DecodeFailed => "Error while decoding entry"
    case ScriptFailed => "Error while removing entry from reserved list"
    case PushFailed(reason) => "Error while pushing job to Redis: " + reason
    case PickFailed(reason) => "Error while picking job from Redis: " + reason
    case RemoveFailed(reason) => "Error while removing entry from reserved list: " + reason
  }
}

=== FILE: wrappers.dfy ===
/** Failure-carrying datatypes shared by every module of the model. */
module Wrappers {

  /** A value that may be absent: Go's nil pointer, JavaScript's undefined. */
  datatype Option<+T> = None | Some(value: T)

  /** Either a value or an error, as Go's `(T, error)` pairs and rejected promises. */
  datatype Result<+T, +E> = Ok(value: T) | Err(error: E)
  {
    predicate IsOk() { Ok? }
  }
}
